=== FILE: README.md ===
# libhinawa, modelled in Dafny

libhinawa is a C library, wrapped for GObject introspection, through which user space talks to
IEEE 1394 (FireWire) audio units. It has two sides. On the FireWire character device side there
are:

- asynchronous read, write and compare-swap transactions;
- a responder for an address range of the local node;
- IEC 61883-1 FCP (Function Control Protocol) command/response exchanges, matched on the AV/C
  subunit address and opcode;
- a listener for bus resets.

On the ALSA hwdep side there are a listener for lock-status events, Echo Fireworks (EFW)
command frames with their sequence numbers and response walk, and TASCAM state images and
control events. A cycle-time value splits the 1394 OHCI cycle timer register into its fields.

The model follows the library file by file, one module per C file, plus shared modules.

| module | file(s) | what it holds |
|---|---|---|
| `Outcomes` | — | Option and errno-carrying Result |
| `Ieee1394` | — | errno values, transaction and response codes, event and unit type numbers, a 32-bit `Word`, byte swapping and the two host byte orders, an in-place `CopyInto` |
| `Lists` | — | the pending lists as sequences in list order |
| `AsyncRequest` | `src/fw_req.c`, `src/fw.c` | tcode selection |
| `CycleTime` | `src/cycle_time.c` | |
| `FwReq` | `src/fw_req.c` | |
| `Fw` | `src/fw.c` | |
| `FwTransaction` | `src/fw-transaction.c` | |
| `FwResp` | `src/fw_resp.c` | |
| `FcpProtocol` | `src/fw_fcp.c`, `src/fcp.c` | matching rules |
| `FwFcp` | `src/fw_fcp.c` | |
| `Fcp` | `src/fcp.c` | |
| `EfwProtocol` | `src/snd_efw.c`, `src/efw.c` | frame layout, sequence counter, frame walk and delivery |
| `Efw` | `src/efw.c` | |
| `SndEfw` | `src/snd_efw.c` | |
| `SndTscm` | `src/snd_tscm.c` | |
| `FwUnit` | `src/fw_unit.c` | |
| `SndUnit` | `src/snd_unit.c` | |
| `Snd` | `src/snd.c` | |

Code that only computes becomes functions and lemmas. Code that updates objects becomes classes:

- fields hold what the C structures hold;
- pending lists are `seq` fields;
- frame and response buffers are arrays.

GObject inheritance (SndEfw and SndTscm extend SndUnit, which extends FwUnit) is composition
through a `const` field.

Every system call is a parameter of the method that makes it, given as the value the C code
receives: open, ioctl, read, write, allocation, and the wait on a condition variable.

A blocking transaction is split at its wait into two methods:

- `Begin` runs up to the wait;
- `Finish` or `Await` takes the wait's outcome.

The response handler that wakes the waiter is a method on the same pending list, and it may run
in between.

Byte order is a pair of conversion functions `Host(beToHost, hostToBe)` that undo each other
(`RoundTrips`). `Ieee1394.HostOf` proves that both real byte orders satisfy this.

Where the library's description and its code disagree, the model follows the code:

- An FCP exchange is not limited to one per target. A second one simply joins the pending list.
- The transaction engine does not check the generation when a transaction completes.
- An FCP INTERIM response makes `src/fcp.c` wait again. `src/fw_fcp.c` never recognises one
  (see Findings).
- `src/fw_resp.c` does not turn a failed request handler into DATA_ERROR deliberately: its
  answer rests on an uninitialised variable (see Findings).
- The cycle field of a cycle-time value is bounded by its 13 bits (below 8192), not by 7999. The
  offset field is bounded by its 12 bits (below 4096), not by 3071.
- `hinawa_snd_unit_listen` in `src/snd.c` never sets the listening flag; only unlisten clears it.
  `Snd.SndUnit.Listen` keeps the flag as it was.

`src/fw_fcp.c` and `src/fw_resp.c` disagree with each other. The FCP listener connects to a
signal named "requested" (src/fw_fcp.c:228), but the responder defines "request"
(src/fw_resp.c:47). The listener also calls register with five arguments (src/fw_fcp.c:223),
where the responder takes four (src/fw_resp.c:78). The model assumes the two files agree:
`FwFcp.FwFcp.Listen` registers the responder, and its signal reaches the FCP response handler.
In the same way the FCP transaction calls the requester's write with five arguments and no
length (src/fw_fcp.c:135), where the write takes six (src/fw_req.c:144). `FwFcp.FwFcp.Begin`
takes the length to be the byte count of the padded request, so a request of no quadlets is
refused by the write with EINVAL.

The EFW parameter count of `src/efw.c` is passed in as a capacity in bytes and handed back as a
number of quadlets, the convention of its caller in tests/test.c:151-171.

## Model

| member | source | states |
|---|---|---|
| AsyncRequest.SelectTcode | src/fw_req.c:77-109 | A tcode is chosen exactly when the length holds at least one quadlet and, for compare-swap, exactly 2 or 4 quadlets. Otherwise the choice fails with EINVAL. The tcode chosen performs the requested operation, and it is the quadlet form exactly when the length is one quadlet. |
| AsyncRequest.CompareSwapLengths | src/fw_req.c:100-101 | Counted in bytes, compare-swap is accepted exactly for 8 to 11 bytes and 16 to 19 bytes. |
| CycleTime.ToSec | src/cycle_time.c:79-82 | The seconds field (bits 31..25) is at most 127. |
| CycleTime.ToCycle | src/cycle_time.c:84-87 | The cycle field (bits 24..12) is below 8192. |
| CycleTime.ToOffset | src/cycle_time.c:89-92 | The offset field (bits 11..0) is below 4096. |
| CycleTime.ComposeFields | src/cycle_time.c:73-92 | Shifting the three fields back into place and or-ing them reconstructs the register value exactly. |
| CycleTime.FieldsOfCompose | src/cycle_time.c:73-92 | Fields within their widths are recovered unchanged from the composed register. |
| CycleTime.GetFields | src/cycle_time.c:106-111 | Three 16-bit elements in the order sec, cycle, offset, within their widths. Together they compose to the sampled register value. |
| CycleTime.FieldsMatchRaw | src/cycle_time.c:100-125 | The raw value `CycleTime.GetRaw` gives (hinawa_cycle_time_get_raw) is the sampled register, and the fields `GetFields` gives are its fields. |
| FwReq.OutcomeZero | src/fw_req.c:77-142 | A transaction ends with 0 exactly when the length is accepted, the send succeeds and the response comes before the deadline. The code is never negative. |
| FwReq.GuintOf | src/fw_req.c:144-151 | A gint length becomes the guint the transaction receives, congruent to it modulo 2^32. A non-negative length is unchanged. |
| FwReq.FwReq.constructor | src/fw_req.c:45-60 | A new requester has no response destination. |
| FwReq.FwReq.Transact | src/fw_req.c:62-142 | A refused length sends nothing and keeps the destination. A read records the caller's buffer and length as the destination; a write or compare-swap clears it and sends the buffer's bytes. The request carries the chosen tcode, the offset, the length and the unit's current generation. The code is Outcome: EINVAL, the send's errno, ETIMEDOUT, or 0. |
| FwReq.FwReq.HandleResponse | src/fw_req.c:192-208 | The payload is copied exactly when a destination is set and holds at least the payload; only the front of the buffer changes. |
| FwReq.FwReq.Write | src/fw_req.c:144-157 | Raises an error carrying the write's code exactly when the code is not 0. A refused length keeps the response destination; otherwise the destination is cleared. |
| FwReq.FwReq.Read | src/fw_req.c:159-172 | Raises an error carrying the read's code exactly when the code is not 0. A refused length keeps the response destination; otherwise the caller's buffer, with the length as a guint, becomes the destination. |
| FwReq.FwReq.CompareSwap | src/fw_req.c:174-189 | Raises an error carrying the compare-swap's code exactly when the code is not 0. A refused length keeps the response destination; otherwise the destination is cleared. |
| FwReq.ReadWithResponse | src/fw_req.c:159-208 | A read whose response arrives while it waits: the caller's own buffer receives the payload exactly when the length is accepted, the send succeeds and the payload fits the length asked for; otherwise the buffer is untouched. The error is the read's code. |
| Fw.HandlerTable | src/fw.c:252-278 | Bus reset, response and request2 events each have their own handler. Every other event type, including one past the table, has none. |
| Fw.HandleRequest | src/fw.c:60-94 | The response code is decided in order, each case exactly when its condition holds: ADDRESS_ERROR with no responder or no callback; CONFLICT_ERROR when the region is shorter than the request; DATA_ERROR when the error left after the callback (what it wrote, or else the uninitialised variable's value) is not 0; COMPLETE otherwise. A response length goes back exactly with DATA_ERROR or COMPLETE, and it is the length the callback leaves. After the callback the response carries the buffer as the callback left it; the early answers carry the request's bytes. The handle is echoed. |
| Fw.StaleErrorDecides | src/fw.c:66-86 | As written, a callback that leaves the error unwritten is answered COMPLETE or DATA_ERROR according to the stale value alone. |
| Fw.HandleRequestInitialised | src/fw.c:60-94 | With the error cleared first, DATA_ERROR exactly when the callback reports a non-zero error; a callback that reports nothing is answered COMPLETE. |
| Fw.FwUnit.constructor | src/fw.c:204-220 | A new unit is not listening and has no buffer, reactant or FCP registration. |
| Fw.FwUnit.Listen | src/fw.c:308-357 | A listening unit is left alone. Otherwise a failed buffer allocation is its errno; a failed reactant creation is its errno and frees the buffer; a failed add, FCP listen or GET_INFO is its errno and takes back the reactant (and, after GET_INFO, the FCP listener) but leaves the buffer allocated. Full success listens with the generation read back. Afterwards the unit listens exactly when it did before or the call succeeded. |
| Fw.FwUnit.Unlisten | src/fw.c:359-372 | Afterwards the unit is not listening and holds no reactant and no buffer. |
| Fw.FwUnit.HandleUpdate | src/fw.c:236-243 | The unit's generation becomes the event's. |
| Fw.FwUnit.HandleEvents | src/fw.c:245-281 | No handler runs unless the descriptor is readable and the read succeeds. Then the handler is the table's for the event type, and only bus reset, response or request2 have one. |
| Fw.FwRequest.constructor | src/fw.c:108-117 | A new request has no destination. |
| Fw.FwRequest.Run | src/fw.c:119-180 | A refused length is EINVAL and sends nothing. Otherwise a read sets the destination to the caller's buffer, while a write or compare-swap clears it and sends the buffer's bytes; the request carries the unit's generation. A failed send is its errno and leaves the destination set. After a send the wait's result is the code and the destination is cleared. |
| Fw.FwRequest.HandleResponse | src/fw.c:182-197 | The payload is copied exactly when there is a destination, the payload is not empty, and the destination's length equals the payload's. |
| Fw.FwRespond.constructor | src/fw.c:12-25 | A new responder holds no region. |
| Fw.FwRespond.Register | src/fw.c:27-45 | The region asked for is [addr, addr + len). A refusal is its errno and changes nothing. Success binds the responder to the unit's descriptor with the granted handle. |
| FwTransaction.SlotAsWritten | src/fw-transaction.c:88-98 | The table is indexed by the event type unchecked: a type of 10 or more reads past it. |
| FwTransaction.TypePastTableReadsOutOfBounds | src/fw-transaction.c:115 | Every event type from 10 on reads outside the handler table. |
| FwTransaction.HandlerFor | src/fw-transaction.c:88-98 | Within the table it agrees with the slot read as written. A handler exists exactly for bus reset, response, request and request2; a type past the table has none. |
| FwTransaction.WaitOutcome | src/fw-transaction.c:166-170 | ETIMEDOUT or EINTR from the wait becomes -ETIMEDOUT, and anything else 0. |
| FwTransaction.Transaction.constructor | src/fw-transaction.c:125-136 | The transaction's length is its buffer's. |
| FwTransaction.Transaction.Transfer | src/fw-transaction.c:138-206 | Zero quadlets is -EINVAL and sends nothing. Otherwise the quadlet tcode is used exactly for one quadlet, and the request carries the generation, the offset, the length and the buffer. A failed send is -errno, and after a send the wait's outcome is the result. |
| FwTransaction.Transaction.HandleResponse | src/fw-transaction.c:33-51 | The payload is copied exactly when it is not empty and fits the length. |
| FwTransaction.Transaction.ReactantHandle | src/fw-transaction.c:60-123 | A failed read returns -errno and changes neither the shared buffer nor the length, and runs no handler. Otherwise the bytes read replace the front of the shared buffer (the rest is kept), the length becomes the read length, and the handler HandlerFor gives, if any, runs and decides the result (0 or -1); without one the result is the read length. A REQUEST2, and nothing else, is answered COMPLETE with an empty payload for its own handle. |
| FwResp.Respond | src/fw_resp.c:104-140 | As written: ADDRESS_ERROR exactly without a region and CONFLICT_ERROR exactly when the request is longer than the region. Otherwise DATA_ERROR or COMPLETE as the uninitialised error decides. The length is echoed exactly with DATA_ERROR and COMPLETE, and the data and handle are always echoed. |
| FwResp.UninitialisedErrorDecides | src/fw_resp.c:129-132 | The same in-range request is answered DATA_ERROR or COMPLETE depending only on the uninitialised value. |
| FwResp.RespondInitialised | src/fw_resp.c:104-140 | The intended answer: never DATA_ERROR. COMPLETE exactly for a request within the region, with its length echoed. |
| FwResp.FwResp.constructor | src/fw_resp.c:56-76 | A new responder has no region granted and its handle field is 0. |
| FwResp.FwResp.Register | src/fw_resp.c:78-93 | The region asked for starts at the address and ends width bytes later in 64-bit arithmetic. A grant sets the width to the granted length but the granted handle is not kept (the handle field stays 0); a refusal raises its errno and keeps the width. |
| FwResp.FwResp.Unregister | src/fw_resp.c:95-101 | As written, handle 0 is always released, so a region granted a nonzero handle is never the one released. |
| FwResp.WrongRegionReleased | src/fw_resp.c:95-101 | For any grant with a nonzero handle, the handle released as written differs from the granted one, while the intended release is the granted handle. |
| FwResp.RegionLeaksAsWritten | src/fw_resp.c:78-101 | As written, a region granted a nonzero handle is still allocated after register and unregister. |
| FwResp.ReleaseRestoresRegions | src/fw_resp.c:78-101 | Keeping the granted handle, register followed by unregister leaves the kernel's allocated regions as they were. |
| FcpProtocol.FirstAnswered | src/fw_fcp.c:189-197 | The first pending command, newest first, whose bytes 1 and 2 the response repeats. It gives none exactly when no command matches. |
| FcpProtocol.NewestAnswered | src/fw_fcp.c:126 | A command prepended to the list wins over every older one that the same response answers. |
| FcpProtocol.OlderAnswered | src/fcp.c:67 | A prepended command the response does not answer shifts an older match by one and leaves no match as none. |
| FwFcp.PadToQuadlets | src/fw_fcp.c:113-118 | The request is padded to ceil(len/4) quadlets. Its bytes are kept and the tail is zero. |
| FwFcp.SignedChar | src/fw_fcp.c:155 | A byte read as gchar lies in -128..127. |
| FwFcp.InterimNeverRecognised | src/fw_fcp.c:155 | As written, the INTERIM test never holds, even for a response whose first byte is 0x0F. |
| FwFcp.Pending.constructor | src/fw_fcp.c:113-122 | A pending exchange holds its request and no response yet. |
| FwFcp.FwFcp.constructor | src/fw_fcp.c:72-88 | A new FCP object is not listening and has no pending exchange. |
| FwFcp.FwFcp.Begin | src/fw_fcp.c:90-138 | A missing or non-byte frame, or a request over 0x200 bytes, is EINVAL. An empty request is EINVAL from the write. The exchange with its padded request is prepended exactly on success; a failed write leaves the list as it was and is the error. For accepted frames, a failure to create the requester is its errno and starts nothing, and a non-empty request succeeds exactly when the write does, a failed write being its exception. |
| FwFcp.FwFcp.HandleResponse | src/fw_fcp.c:177-211 | The matched exchange is FirstAnswered over the list. No match is an error and changes nothing. A match gets the response, and no other exchange changes. |
| FwFcp.FwFcp.Await | src/fw_fcp.c:139-175 | A timeout is ETIMEDOUT. The INTERIM test as written never holds, so every woken wait, INTERIM or not, completes with the bytes of every quadlet received. Either way the exchange is removed. |
| FwFcp.FwFcp.Listen | src/fw_fcp.c:213-235 | Each failure is its errno and changes nothing. Success listens with no pending exchange. |
| FwFcp.FwFcp.Unlisten | src/fw_fcp.c:237-243 | Afterwards the object is not listening. |
| FwFcp.FwFcp.Dispose | src/fw_fcp.c:48-57 | Unlistens exactly when it was listening. |
| Fcp.FcpTransaction.constructor | src/fcp.c:33-42 | A new transaction has no command, buffer or length. |
| Fcp.Zero | src/fcp.c:62 | The first n bytes become zero and the rest stays. |
| Fcp.PendingList.Remove | src/fcp.c:89-91 | The transaction leaves the list and the rest keep their order. |
| Fcp.PendingList.Begin | src/fcp.c:44-73 | A missing command or buffer, or an empty command or length, is EINVAL. A command shorter than a quadlet is EINVAL from the write. Success zeroes the buffer and prepends the transaction; a failed write is its error and leaves the list and the transaction's buffer reset. For a valid call, a failure to create the requester is its errno and changes nothing, and a command of at least one quadlet is pending exactly when the write succeeds, a failed write being its error. |
| Fcp.PendingList.HandleFcpResponse | src/fcp.c:99-130 | The match is FirstAnswered. No match is ENODATA; a buffer shorter than the response is EAGAIN; otherwise the response is copied. No buffer changes on an error, and the caller's length is always set to 0. |
| Fcp.PendingList.Await | src/fcp.c:74-97 | A failed wait is its error. An INTERIM response (first byte 0x0F) waits again and changes nothing. Otherwise the result is the registered length. Every completion removes the transaction and resets it. |
| EfwProtocol.NextSeqnum | src/snd_efw.c:167-170 | The counter stays within 0..0xfffe, stays even, and either advances by 2 or starts over at 0. |
| EfwProtocol.SeqnumAfterCycles | src/efw.c:77-80 | After n transactions the counter is 2 × (n mod 32768): even and at most 0xfffe. |
| EfwProtocol.SeqnumsDistinctWithinPeriod | src/efw.c:77-80 | Transactions fewer than 32768 apart never carry the same sequence number. |
| EfwProtocol.Decode | src/snd_efw.c:213-237 | A frame decodes exactly when its length field covers the header and lies within the words. It then re-encodes to the frame. |
| EfwProtocol.DecodeEncode | src/snd_efw.c:173-183 | A frame whose length counts its quadlets decodes to its header and parameters, whatever follows it. |
| EfwProtocol.WireRoundTrip | src/snd_efw.c:186-188 | Converting words to big-endian and back, or back and then to big-endian, changes nothing. |
| EfwProtocol.ResponseOf | src/efw.c:113-131 | A buffer holding a frame decodes to a header with its length field and as many parameters as that length leaves. |
| EfwProtocol.ResponseFields | src/efw.c:113-131 | Each decoded field is its raw word passed through be32toh. |
| EfwProtocol.FramesWellFormed | src/efw.c:166-189 | Every frame of the walk has a length field that counts exactly its own quadlets. |
| EfwProtocol.FramesArePrefix | src/snd_efw.c:271-295 | The frames of the walk lie back to back at the start of the event. |
| EfwProtocol.FramesOfConcat | src/snd_efw.c:271-295 | Walking back-to-back well-formed frames gives back exactly those frames, in order. |
| EfwProtocol.ZeroLengthFrameStalls | src/efw.c:187-188 | As written, a frame whose length field is 0 moves neither the position nor the count, so the loop never ends. |
| EfwProtocol.TypeHeaderCounted | src/efw.c:166-188 | For an event holding one frame, the count as written still has 4 bytes left after that frame, while the walk used here yields exactly that frame. |
| EfwProtocol.Matching | src/efw.c:172-175 | The first pending transaction, in list order, whose sequence number plus one (mod 2^32) is the response's. It gives none exactly when no transaction has that number. |
| EfwProtocol.DeliverEffect | src/efw.c:177-183 | Delivery changes only the frame of the matching transaction, and only when the response fits it: that frame becomes the response followed by the rest of what it held. Every frame keeps its size. |
| EfwProtocol.DeliverAllHoldsFrames | src/efw.c:166-189 | After the walk every pending buffer still starts with a frame whose length lies within it. |
| EfwProtocol.DeliverAllStep | src/efw.c:166-189 | Delivering the first frame and then the rest is delivering them all. |
| EfwProtocol.UnansweredDropped | src/snd_efw.c:271-295 | Frames that answer no pending transaction change no pending frame. |
| EfwProtocol.FindPending | src/efw.c:172-175 | The list search finds exactly Matching's index, or runs off the end exactly when Matching gives none. |
| EfwProtocol.DeliverOne | src/efw.c:170-185 | One frame is searched for and copied, and the buffers become Deliver of the old buffers. The sequence numbers do not change. |
| EfwProtocol.DeliverFrames | src/efw.c:166-189 | The response loop leaves the buffers exactly as DeliverAll leaves them over the frames of the walk. |
| Efw.ArgsOf | src/efw.c:72-91 | The arguments sent number exactly the count. |
| Efw.Written | src/efw.c:83-91 | The request written over a buffer keeps the buffer's size. |
| Efw.WrittenDecodes | src/efw.c:83-91 | The written buffer holds a frame that reads back, on any host, as length 6 + args, version 1, the sequence number, category and command, followed by the arguments. |
| Efw.StoreToWire | src/efw.c:90-91 | The argument loop converts each argument into place and writes nothing else. |
| Efw.WriteRequest | src/efw.c:83-91 | The frame buffer becomes Written over its old contents. |
| Efw.ParamsRejectedIffNoRoom | src/efw.c:121-127 | The capacity, in bytes, refuses exactly a non-empty response with more parameters than whole quadlets fit in it. |
| Efw.ArrayBytesAdmitArray | src/efw.c:121-131 | A capacity given as the byte size of an array of words admits exactly the parameters that array holds (104 bytes admit 26 and refuse 27). |
| Efw.AcceptedParamsFit | src/efw.c:123-131 | Parameters the check accepts, against a capacity no larger than the bytes of the caller's array, fit in that array, so the decode stays inside it. |
| Efw.CreateTransaction | src/efw.c:37-53 | A failed allocation is its error and gives no transaction. Otherwise the transaction has a fresh 0x200-byte buffer. |
| Efw.EfwUnit.constructor | src/snd.c:58-59 | A unit's Fireworks part has its type, a counter at 0 and no pending transaction. |
| Efw.EfwUnit.Insert | src/efw.c:93-95 | The transaction joins the head of the list, and every pending buffer still holds a frame. |
| Efw.EfwUnit.Remove | src/efw.c:133-135 | The transaction leaves the list and the rest keep their order. |
| Efw.EfwUnit.Begin | src/efw.c:55-107 | A unit that is not Fireworks, or a count without arguments, is EINVAL and changes nothing. Otherwise the transaction takes the counter, the counter advances by NextSeqnum, and the buffer becomes Written. The transaction is pending exactly when the write succeeds; a failed write is its negation and restores the list. |
| Efw.EfwUnit.Finish | src/efw.c:109-135 | A failed wait is its error. A version below 1 or another category or command is exactly EPROTO. Otherwise, parameters the caller has no room for are exactly EINVAL, the room being the count passed in, in bytes. Otherwise the parameters are decoded into the front of the caller's array, the rest of which is untouched, and the count becomes their number of quadlets. The count and array are kept on every error, and the transaction always leaves the list. |
| Efw.EfwUnit.HandleResponse | src/efw.c:156-189 | The pending buffers become DeliverAll over the frames of the event, and each still holds a frame. |
| SndEfw.Zeros | src/snd_efw.c:160 | A zero-filled allocation of n words. |
| SndEfw.StatusNameAsWritten | src/snd_efw.c:221-226 | As written, the name table is indexed by the status unchecked: a status of 16 or more reads past it. |
| SndEfw.StatusPastNameTable | src/snd_efw.c:224 | Every status from 16 on, and the request's own status 0xff, reads past the name table. |
| SndEfw.StatusName | src/snd_efw.c:46-63 | The corrected lookup gives a name exactly for a status below 16, the same one the table holds. OK for status 0. |
| SndEfw.MatchAsWritten | src/snd_efw.c:276-283 | As written, the search leaves a candidate exactly when the list is not empty, always on the list. |
| SndEfw.UnmatchedGoesToLast | src/snd_efw.c:276-283 | As written, a frame whose sequence number no entry stores goes to the last pending transaction. |
| SndEfw.MisdeliveredAsWritten | src/snd_efw.c:167 | When the stored words are not the response's number, the answer to the first of several requests goes to the last one, while Matching gives it to the first. |
| SndEfw.StrayDeliveredAsWritten | src/snd_efw.c:281 | A response that answers no pending request still goes to the last transaction as written; Matching gives it to none. |
| SndEfw.LongFrameDropped | src/snd_efw.c:287-289 | A well-formed frame longer than a frame buffer overflows the buffer as written, while Deliver leaves every buffer as it was. |
| SndEfw.SwapsCancel | src/snd_efw.c:186-188 | Converting a frame's first n words to big-endian and back gives the frame back. |
| SndEfw.RequestReadsBack | src/snd_efw.c:173-188 | A request put on the wire decodes to length 6 + args, version 1, the sequence number, category, command and status 0xff, followed by the arguments. |
| SndEfw.SwapToWire | src/snd_efw.c:186-188 | The in-place loop converts exactly the first n words to big-endian. |
| SndEfw.SwapFromWire | src/snd_efw.c:215-218 | The in-place loop converts exactly the first n words to host order. |
| SndEfw.StoreWords | src/snd_efw.c:181-183 | The memcpy of the arguments writes them from the parameter position and nothing else. |
| SndEfw.BuildRequest | src/snd_efw.c:160-188 | The frame is the big-endian request followed by zeros, and it holds a frame. |
| SndEfw.SndEfw.constructor | src/snd_efw.c:86-89 | A new object extends a sound unit of the Fireworks class, with a counter at 0 and an empty list. |
| SndEfw.SndEfw.Open | src/snd_efw.c:99-121 | The unit's open error is raised. A unit that is not Fireworks is EINVAL. Only a Fireworks unit gets a fresh counter and an empty list. |
| SndEfw.SndEfw.Append | src/snd_efw.c:192 | The transaction joins the tail of the list, and every buffer still holds a frame. |
| SndEfw.SndEfw.RemoveAppended | src/snd_efw.c:247-248 | Removing the transaction just appended restores the list. |
| SndEfw.SndEfw.Begin | src/snd_efw.c:133-202 | A wrong unit type or element size is EINVAL, and a failed allocation ENOMEM; neither changes anything. Otherwise the counter advances by NextSeqnum and the big-endian request is sent. The transaction is pending with that frame exactly when the whole frame is written; a short write is its errno and restores the list. |
| SndEfw.SndEfw.Finish | src/snd_efw.c:204-252 | An expired wait is ETIMEDOUT. Otherwise the response's words are converted to host order in place, as far as its length goes. Each of the following holds exactly under its condition: a status other than OK is EPROTO with the status's name; a bad version, category or command is EIO; parameters with no array are EINVAL. Otherwise the parameters are inserted at the front of the caller's array. The transaction always leaves the list. |
| SndEfw.SndEfw.HandleResponse | src/snd_efw.c:254-296 | The pending frames become DeliverAll over the frames of the event, and each still holds a frame. |
| SndTscm.RecordsAreChanges | src/snd_tscm.c:125-133 | One signal per whole 12-byte record, in order. Record k's index is unchanged, and its before and after values are converted from big-endian. |
| SndTscm.ControlsOfEvent | src/snd_tscm.c:121-133 | An event shorter than its type header gives no signal. Otherwise the signals number exactly (len − 4) / 12, and signal k comes from words 1 + 3k to 3 + 3k. |
| SndTscm.PartialRecordIgnored | src/snd_tscm.c:126 | Bytes of a trailing partial record change nothing. |
| SndTscm.SndTscm.constructor | src/snd_tscm.c:55-58 | A new object extends a sound unit of the TASCAM class, with 64-word image and state arrays. |
| SndTscm.SndTscm.Open | src/snd_tscm.c:68-83 | The unit's open error is raised. An opened unit that is not TASCAM is EINVAL. |
| SndTscm.SndTscm.GetState | src/snd_tscm.c:94-110 | The ioctl's error is raised and keeps the image; success replaces the image. Either way, state word i becomes the host-order value of image word i for all 64 words, and those words are returned. |
| SndTscm.SndTscm.CopyIn | src/snd_tscm.c:103-105 | The kernel's 64 words replace the image. |
| SndTscm.SndTscm.HandleControl | src/snd_tscm.c:112-134 | The signals emitted are exactly Controls of the event. |
| FwUnit.Unlistened | src/fw_unit.c:463-472 | Unlistening a listening unit clears the source, the buffer and the length; an unlistening one is unchanged. |
| FwUnit.UnlistenIdempotent | src/fw_unit.c:456-473 | Unlistening twice is unlistening once, and afterwards the unit is not listening. |
| FwUnit.Route | src/fw_unit.c:366-377 | Each case holds exactly when its condition does: a bus reset goes to a unit closure, a REQUEST2 to a responder closure, and a response to a requester closure. The object travels with the event; anything else is ignored. |
| FwUnit.FitRom | src/fw_unit.c:260-270 | The configuration ROM is cut or zero-filled to the size asked for. |
| FwUnit.FwUnit.constructor | src/fw_unit.c:223-233 | A new unit has no descriptor or ROM and is not listening. |
| FwUnit.FwUnit.Open | src/fw_unit.c:235-279 | Each step's failure is raised, and the descriptor is stored only on full success with the ROM read back. The listening state does not change. |
| FwUnit.FwUnit.GetConfigRom | src/fw_unit.c:288-299 | The quadlet count is the ROM length divided by 4. |
| FwUnit.FwUnit.HandleUpdate | src/fw_unit.c:314-327 | The generation snapshot becomes the event's, and the node-id and generation properties read it. Bus-update is emitted. |
| FwUnit.FwUnit.Listen | src/fw_unit.c:397-448 | A failure to allocate changes nothing. A failed attach returns the unit to the not-listening state. Success listens with a page-sized buffer. The unit listens exactly on success, or when it already was and nothing was allocated. |
| FwUnit.FwUnit.Unlisten | src/fw_unit.c:456-473 | The state becomes Unlistened of the old state, and the unit is not listening. |
| FwUnit.FwUnit.CheckSrc | src/fw_unit.c:338-381 | An error condition unlistens and reports disconnection. No input, or a read of no bytes, does nothing. Otherwise the event goes where Route says, and a bus reset carries the event's generation. |
| SndUnit.Route | src/snd_unit.c:400-425 | Each case holds exactly when its condition does: lock status goes to its handler always; a DICE, EFW, Digi 00x or MOTU event goes to its handler only on an object of that class. The read length travels with it. |
| SndUnit.TascamControlNotRouted | src/snd_unit.c:400-425 | A TASCAM control event reaches no handler, whatever the object's class. |
| SndUnit.SndUnit.constructor | src/snd_unit.c:182-193 | A new unit extends a FireWire unit and is not open, listening or streaming. |
| SndUnit.SndUnit.Open | src/snd_unit.c:195-224 | open(2) and GET_INFO errors are raised, and every failure after open(2) closes the descriptor. The FireWire unit is opened with the reported device. On success a requester with timeout 40 is created. |
| SndUnit.SndUnit.Write | src/snd_unit.c:330-341 | Anything but the whole buffer written raises write(2)'s errno. |
| SndUnit.SndUnit.Unlisten | src/snd_unit.c:518-540 | Does nothing when not listening. Otherwise it unlocks exactly when streaming, and releases the source, the buffer and the FireWire listener. |
| SndUnit.SndUnit.Listen | src/snd_unit.c:445-510 | A failure to allocate changes nothing, and a failed attach takes back what was set. On success the unit is streaming exactly when it was or the lock ioctl reports EBUSY. A lock that succeeds is undone at once. |
| SndUnit.SndUnit.CheckSrc | src/snd_unit.c:364-429 | An error condition unlistens, and disconnection is reported exactly when the unit listened before. No input, or a read of no bytes, does nothing. Otherwise the event goes where Route says. |
| Snd.Route | src/snd.c:136-143 | Each case holds exactly when its condition does: lock status goes to its handler always; a DICE notification only on a DICE unit; an EFW response only on a Fireworks unit. |
| Snd.EfwResponseOnlyOnFireworks | src/snd.c:141-143 | On any unit that is not Fireworks, an EFW response is dropped. |
| Snd.NameField | src/snd.c:54 | strncpy keeps the card name's first 32 characters at most: the whole name, or exactly 32 of them. |
| Snd.SndUnit.constructor | src/snd.c:54-62 | The unit holds GET_INFO's type, card, GUID and device, and the truncated name. |
| Snd.SndUnit.HandleLockEvent | src/snd.c:99-105 | The unit streams exactly when the event's status is not zero. |
| Snd.SndUnit.ReadEvent | src/snd.c:117-144 | A negative read sets err to its negation, and one longer than the buffer to -EINVAL; neither dispatches. Otherwise the handler is Route's. Only a lock-status event changes streaming, and only an EFW response changes the pending buffers, to DeliverAll over its frames. |
| Snd.SndUnit.Listen | src/snd.c:155-187 | Allocation, poll-descriptor and reactant failures are their errors. Otherwise the unit streams exactly when the lock reports EBUSY, the lock is always released, and err is 0. The listening flag is never set. |
| Snd.SndUnit.Unlisten | src/snd.c:189-196 | The listening flag is cleared, the reactant removed and the buffer freed, with its length set to 0. |
| Snd.Create | src/snd.c:12-65 | The first failing step is the error, and the card name's code is not negated. A unit exists exactly when the error is 0. The device is closed again exactly when it was opened and a later step failed. |
| Lists.WithoutAppended | src/snd_efw.c:247-248 | Removing the entry just appended at the tail restores the list. |
| Lists.WithoutInsertedHead | src/efw.c:94 | Removing the entry just inserted at the head restores the list. |
| Lists.WithoutKeepsOrder | src/fcp.c:89-91 | Removing an entry that is on the list once leaves the entries before and after it, in their order. |
| Ieee1394.HostOf | src/snd_efw.c:186-188 | Both host byte orders provide conversions that undo each other. |
| Ieee1394.CopyInto | src/efw.c:179 | memcpy into the front of a buffer: the source's elements, then the rest unchanged. |

## Left out

- `src/reactor.c` and the GLib main context: the event loops that call the handlers are not part of this model. Handlers are methods that the loop would call.
- Mutexes, condition variables and threads: not modelled. A wait is its outcome (woken or expired), given as a parameter.
- GObject signals, properties and their emission: a signal becomes a return value (the list of TASCAM controls, a `disconnected` flag, the dispatch a poll selects).
- System calls and alsa-lib: every call's result is a parameter. The ioctl that `snd_tscm.c` and `fw_resp.c` issue through `hinawa_snd_unit_ioctl` and `hinawa_fw_unit_ioctl` is reduced to its result.
- `hinawa_malloc` (src/internal.h) is not part of this model. Allocation is assumed to zero-fill, and a failed one is an error parameter.
- `FwTransaction.Transaction.constructor`: takes the allocated buffer, so the -ENOMEM of a failed `malloc` in `sndfw_fw_transaction_init` (src/fw-transaction.c:127-129) is not modelled.
- `Fcp.PendingList.HandleFcpResponse` and `FwFcp.FwFcp.HandleResponse`: a response shorter than 3 bytes, and for `FwFcp` an empty frame or one that is not a whole number of quadlets, is not modelled. The source still compares its bytes 1 and 2 (src/fcp.c:110-111, src/fw_fcp.c:193-194), which lie past the payload, so their outcome rests on whatever the buffer holds there.
- `dump_response` in `src/efw.c` and the DICE notification handler in `src/snd.c`: they only print.
- Path strings, names of device files, and `finalize`, `dispose` and `destroy` bodies that only free memory: not modelled.
- `hinawa_cycle_time_copy`, `hinawa_cycle_time_new`, `get_system_time` and `get_clock_id`: the cycle-time value is an immutable datatype, so a copy is the value itself and a getter is a field read.
- `listen_fcp` and `unlisten_fcp` in `src/fw.c`: modelled only as the `fcp` step of `Fw.FwUnit.Listen`.
- The thin subclasses (DICE, Digi 00x, MOTU, TASCAM of `src/snd_tascam.c`) and `src/fw_node.c`: they only check a type on open and emit a signal. Their routing is in `SndUnit.Route`.
- `Efw.EfwUnit.Begin`: requires at most 122 arguments. More overflow the 0x200-byte frame buffer in `src/efw.c`, which the model does not represent.
- `SndEfw.SndEfw.Begin`: requires at most 122 arguments, for the same reason.
- `Efw.EfwUnit.HandleResponse`, `SndEfw.SndEfw.HandleResponse` and `Snd.SndUnit.ReadEvent` deliver the corrected walk (`EfwProtocol.Frames`, `EfwProtocol.Deliver`), not the loop as written:
  - the walk stops at a frame whose length field does not cover a header or runs past the data;
  - a response too long for a frame buffer is dropped;
  - matching is on sequence number + 1.

  Findings lists each deviation with its as-written member.
- `FwFcp.FwFcp.Await`: makes the INTERIM test as written, which never holds, so the wait-again path of src/fw_fcp.c:154-159 is never taken. The intended behaviour, waiting again on `FcpProtocol.IsInterim`, is that of `Fcp.PendingList.Await`.
- `SndEfw.SndEfw.Begin`: records the sequence number in the transaction as well as in the frame. This is the corrected behaviour of the first finding; the source sets only the frame's copy.
- `SndEfw.SndEfw.Finish`: names a status through the bounds-checked `StatusName`.
- `FwTransaction.Transaction.ReactantHandle`: uses the bounds-checked `HandlerFor`; the event's type and handle are parameters rather than decoded from the bytes read, and the response sent is returned rather than written to the device.
- `FwResp.Respond`: the null-closure case answers ADDRESS_ERROR; the source would then read the descriptor through the null object at src/fw_resp.c:139, a path the unit's routing never takes (src/fw_unit.c:370-373).
- `Fw.FwRespond.Register` and `FwResp.FwResp.Register`: the 64-bit region arithmetic is modelled only for the end of the region.
- The Python samples, the GUI scripts and the tests: they only call into the library.

## Findings

| source | as written | input that shows it | evidently intended | confidence | as-written member | corrected member |
|---|---|---|---|---|---|---|
| src/snd_efw.c:167 | The sequence number goes only into the frame; `trans.seqnum`, which the response handler compares, is never assigned | requests 0 and 2 pending with leftover words 7 and 9 in `trans.seqnum`, response 1 | the transaction records its number and a response carries it plus one, as in src/efw.c:173 | not executed | SndEfw.MisdeliveredAsWritten | EfwProtocol.Matching |
| src/snd_efw.c:276-283 | `trans` is not reset when the loop ends without a match, so an unmatched frame goes to the last pending transaction | requests 0 and 2 pending, response with sequence number 99 | an unmatched frame is dropped | not executed | SndEfw.StrayDeliveredAsWritten | EfwProtocol.DeliverEffect |
| src/snd_efw.c:224 | the status indexes the 16-entry name table unchecked | a response with status 16, or 0xff | a status past the table has no name | not executed | SndEfw.StatusPastNameTable | SndEfw.StatusName |
| src/snd_efw.c:289 | the frame is copied for as many quadlets as its own length field says, with no bound | a well-formed frame of 129 quadlets matching a pending transaction | a frame larger than the 0x200-byte buffer is not copied, as in src/efw.c:177-178 | not executed | SndEfw.LongFrameDropped | EfwProtocol.Deliver |
| src/fw_fcp.c:155 | the first response byte, a `gchar`, is shifted right by 24 before the comparison with 0x0F | a response whose first byte is 0x0F | an INTERIM response is recognised, as in src/fcp.c:84 | not executed | FwFcp.InterimNeverRecognised | Fcp.PendingList.Await |
| src/fw_resp.c:129 | `err` is read without ever being assigned | a 4-byte request within an 8-byte region | a request within the region is answered COMPLETE | not executed | FwResp.UninitialisedErrorDecides | FwResp.RespondInitialised |
| src/fw.c:83 | `err` is read after the callback, which need not write it: the FCP responder leaves it unwritten after a successful copy (src/fcp.c:121-124) | an FCP response copied into a pending buffer while the stack slot of `err` holds EAGAIN | a callback that reports no error is answered COMPLETE | not executed | Fw.StaleErrorDecides | Fw.HandleRequestInitialised |
| src/fw_resp.c:99 | `addr_handle` is never assigned after the region is allocated, so unregistering deallocates handle 0 | a register the kernel answers with handle 1 | unregistering releases the granted region | not executed | FwResp.RegionLeaksAsWritten | FwResp.ReleaseRestoresRegions |
| src/fw-transaction.c:115 | the event type indexes the 10-slot handler table unchecked | an event of type 10 | a type past the table has no handler | not executed | FwTransaction.TypePastTableReadsOutOfBounds | FwTransaction.HandlerFor |
| src/efw.c:166-189 | a frame with length field 0 advances neither the position nor the byte count | an EFW response event whose first frame has length 0 | the walk stops at a length that does not cover a header | not executed | EfwProtocol.ZeroLengthFrameStalls | EfwProtocol.FramesWellFormed |
| src/efw.c:166 | the byte count starts from the whole read length, which includes the 4-byte event type header, so 4 bytes remain after the last frame | an event holding one 6-quadlet frame, read as 28 bytes | the walk covers only the frames after the type header | not executed | EfwProtocol.TypeHeaderCounted | EfwProtocol.FramesOfConcat |

=== FILE: async_request.dfy ===
/**
 * The choice of IEEE 1394 transaction code for an outgoing asynchronous request, shared by the
 * GObject requester (fw_req.c) and the older pthread requester (fw.c), which decide it identically.
 */
module AsyncRequest {
  import opened Ieee1394
  import opened Outcomes

  /** What the caller asks the remote node to do. */
  datatype RequestKind = Write | Read | CompareSwap

  /** The operation a request tcode stands for, if it is one of the requests the library sends. */
  function KindOf(t: Tcode): Option<RequestKind>
  {
    match t
    case WriteQuadletRequest => Some(Write)
    case WriteBlockRequest => Some(Write)
    case ReadQuadletRequest => Some(Read)
    case ReadBlockRequest => Some(Read)
    case LockCompareSwap => Some(CompareSwap)
    case _ => None
  }

  predicate IsQuadletRequest(t: Tcode)
  {
    t == ReadQuadletRequest || t == WriteQuadletRequest
  }

  /**
   * The tcode for a request of `length` bytes: the frame must hold at least one quadlet; reads and
   * writes of exactly one quadlet use the quadlet form and longer ones the block form; compare-swap
   * carries an argument and a data value of one or two quadlets each, so only 2 or 4 quadlets.
   */
  function SelectTcode(kind: RequestKind, length: nat): (r: Result<Tcode>)
    ensures r.Fail? ==> r.errno == EINVAL
    ensures r.Ok? <==> length / 4 > 0 && (kind == CompareSwap ==> length / 4 == 2 || length / 4 == 4)
    ensures r.Ok? ==> KindOf(r.value) == Some(kind)
    ensures r.Ok? && kind != CompareSwap ==> (IsQuadletRequest(r.value) <==> length / 4 == 1)
  {
    var quads := length / 4;
    if quads == 0 then Fail(EINVAL)
    else match kind
      case Read => Ok(if quads == 1 then ReadQuadletRequest else ReadBlockRequest)
      case Write => Ok(if quads == 1 then WriteQuadletRequest else WriteBlockRequest)
      case CompareSwap => if quads == 2 || quads == 4 then Ok(LockCompareSwap) else Fail(EINVAL)
  }

  /** In bytes: compare-swap is accepted for 8..11 or 16..19 bytes; the trailing bytes past a quadlet are ignored. */
  lemma CompareSwapLengths(length: nat)
    ensures SelectTcode(CompareSwap, length).Ok? <==> 8 <= length < 12 || 16 <= length < 20
  {
  }
}

=== FILE: cycle_time.dfy ===
/**
 * The boxed cycle-time value: a sample of the 1394 OHCI Isochronous Cycle Timer register
 * (1394 OHCI 1.1, section 5.13) together with the system time at which it was read.
 * The register packs seconds (7 bits), cycles (13 bits) and the cycle offset (12 bits).
 */
module CycleTime {
  import opened Ieee1394

  datatype CycleTime = CycleTime(tvSec: int, tvNsec: int, clockId: int, cycleTimer: Quadlet)

  const SEC_MASK: Quadlet := 0xfe000000
  const SEC_SHIFT: bv32 := 25
  const CYCLE_MASK: Quadlet := 0x01fff000
  const CYCLE_SHIFT: bv32 := 12
  const OFFSET_MASK: Quadlet := 0x00000fff

  /** The seconds field, bits 31..25. */
  function ToSec(cycleTime: Quadlet): (sec: Quadlet)
    ensures sec <= 127
  {
    (cycleTime & SEC_MASK) >> SEC_SHIFT
  }

  /** The cycle field, bits 24..12. The hardware never counts past 7999, but nothing here checks it. */
  function ToCycle(cycleTime: Quadlet): (cycle: Quadlet)
    ensures cycle < 8192
  {
    (cycleTime & CYCLE_MASK) >> CYCLE_SHIFT
  }

  /** The offset field, bits 11..0. The hardware never counts past 3071, but nothing here checks it. */
  function ToOffset(cycleTime: Quadlet): (offset: Quadlet)
    ensures offset < 4096
  {
    cycleTime & OFFSET_MASK
  }

  /** The register value that holds the given fields. */
  function Compose(sec: Quadlet, cycle: Quadlet, offset: Quadlet): Quadlet
  {
    (sec << SEC_SHIFT) | (cycle << CYCLE_SHIFT) | offset
  }

  /** Splitting a register value and composing the fields gives the value back. */
  lemma ComposeFields(cycleTime: Quadlet)
    ensures Compose(ToSec(cycleTime), ToCycle(cycleTime), ToOffset(cycleTime)) == cycleTime
  {
  }

  /** Fields within their widths are recovered from the composed register value. */
  lemma FieldsOfCompose(sec: Quadlet, cycle: Quadlet, offset: Quadlet)
    requires sec <= 127 && cycle < 8192 && offset < 4096
    ensures ToSec(Compose(sec, cycle, offset)) == sec
    ensures ToCycle(Compose(sec, cycle, offset)) == cycle
    ensures ToOffset(Compose(sec, cycle, offset)) == offset
  {
  }

  /**
   * hinawa_cycle_time_get_fields: the three fields in the order [sec, cycle, offset], each stored in a
   * 16-bit element. Every field fits, so the three elements determine the register value.
   */
  function GetFields(self: CycleTime): (fields: seq<bv16>)
    ensures |fields| == 3
    ensures fields[0] <= 127 && fields[1] < 8192 && fields[2] < 4096
    ensures Compose(fields[0] as Quadlet, fields[1] as Quadlet, fields[2] as Quadlet) == self.cycleTimer
  {
    ComposeFields(self.cycleTimer);
    [ToSec(self.cycleTimer) as bv16, ToCycle(self.cycleTimer) as bv16, ToOffset(self.cycleTimer) as bv16]
  }

  /** hinawa_cycle_time_get_raw: the register value as sampled. */
  function GetRaw(self: CycleTime): Quadlet
  {
    self.cycleTimer
  }

  /** The fields and the raw value describe the same sample. */
  lemma FieldsMatchRaw(self: CycleTime)
    ensures var f := GetFields(self);
      f[0] as Quadlet == ToSec(GetRaw(self)) && f[1] as Quadlet == ToCycle(GetRaw(self))
      && f[2] as Quadlet == ToOffset(GetRaw(self))
  {
  }
}

=== FILE: efw.dfy ===
/**
 * The first Echo Fireworks transaction runner (src/efw.c). A transaction owns a 0x200-byte frame
 * buffer; a run writes the request over it in big-endian, puts the transaction at the head of the
 * unit's pending list and sends the frame through the hwdep device. The response handler walks the
 * frames of an EFW response event and copies each into the buffer of the pending transaction whose
 * sequence number plus one it carries; the run then reads the response back from its buffer.
 *
 * As elsewhere, the run is split at its wait: Begin, then Finish with the wait's result.
 */
module Efw {
  import opened Ieee1394
  import opened Outcomes
  import opened Lists
  import opened EfwProtocol

  /** The arguments a run sends: none when the count is 0, else the first `count` of them. */
  function ArgsOf(args: Option<seq<Word>>, count: nat): (r: seq<Word>)
    requires args.Some? ==> count <= |args.value|
    requires count > 0 ==> args.Some?
    ensures |r| == count
  {
    if count == 0 then [] else args.value[..count]
  }

  /**
   * A request as written over a frame buffer: length, version 1, sequence number, category and
   * command converted to big-endian, the status word left as it was, then the arguments; the rest
   * of the buffer is untouched.
   */
  function Written(host: Host, buffer: seq<Word>, seqnum: Word, category: Word, command: Word, args: seq<Word>)
    : (r: seq<Word>)
    requires HEADER_QUADLETS + |args| <= |buffer| <= FRAME_QUADLETS
    ensures |r| == |buffer|
  {
    ToWire(host, [HEADER_QUADLETS + |args|, MINIMUM_SUPPORTED_VERSION, seqnum, category, command]) +
    [buffer[STATUS]] + ToWire(host, args) + buffer[HEADER_QUADLETS + |args|..]
  }

  /**
   * What is sent reads back, on any host, as a frame whose header carries the run's fields and
   * whose parameters are the arguments; the buffer then holds a frame.
   */
  lemma WrittenDecodes(host: Host, buffer: seq<Word>, seqnum: Word, category: Word, command: Word, args: seq<Word>)
    requires RoundTrips(host)
    requires HEADER_QUADLETS + |args| <= |buffer| <= FRAME_QUADLETS
    ensures var w := Written(host, buffer, seqnum, category, command, args);
      HoldsFrame(host, w) &&
      ResponseOf(host, w) ==
        (Header(HEADER_QUADLETS + |args|, MINIMUM_SUPPORTED_VERSION, seqnum, category, command,
                host.beToHost(buffer[STATUS])), args)
  {
    var n := HEADER_QUADLETS + |args|;
    var w := Written(host, buffer, seqnum, category, command, args);
    var head := [n, MINIMUM_SUPPORTED_VERSION, seqnum, category, command];
    var d := FromWire(host, w);
    assert w[LENGTH] == host.hostToBe(n);
    assert HoldsFrame(host, w);
    forall k | 0 <= k < |head|
      ensures d[k] == head[k]
    {
      assert w[k] == host.hostToBe(head[k]);
    }
    assert d[STATUS] == host.beToHost(buffer[STATUS]);
    forall k | 0 <= k < |args|
      ensures d[HEADER_QUADLETS + k] == args[k]
    {
      assert w[HEADER_QUADLETS + k] == host.hostToBe(args[k]);
    }
    assert d[HEADER_QUADLETS..n] == args;
  }

  /** The host-to-big-endian loop: words stored from `start` on, converted, and nothing else written. */
  method StoreToWire(host: Host, a: array<Word>, start: nat, words: seq<Word>)
    requires start + |words| <= a.Length
    modifies a
    ensures a[..] == old(a[..start]) + ToWire(host, words) + old(a[start + |words|..])
  {
    var i := 0;
    while i < |words|
      invariant 0 <= i <= |words|
      invariant a[..start] == old(a[..start])
      invariant a[start..start + i] == ToWire(host, words[..i])
      invariant a[start + i..] == old(a[start + i..])
    {
      a[start + i] := host.hostToBe(words[i]);
      assert words[..i + 1] == words[..i] + [words[i]];
      i := i + 1;
    }
    assert words[..i] == words;
    assert a[..] == a[..start] + a[start..start + |words|] + a[start + |words|..];
  }

  /** The request written over a frame buffer in place, field by field and then argument by argument. */
  method WriteRequest(host: Host, f: array<Word>, seqnum: Word, category: Word, command: Word, args: seq<Word>)
    requires HEADER_QUADLETS + |args| <= f.Length <= FRAME_QUADLETS
    modifies f
    ensures f[..] == Written(host, old(f[..]), seqnum, category, command, args)
  {
    f[LENGTH] := host.hostToBe(HEADER_QUADLETS + |args|);
    f[VERSION] := host.hostToBe(MINIMUM_SUPPORTED_VERSION);
    f[SEQNUM] := host.hostToBe(seqnum);
    f[CATEGORY] := host.hostToBe(category);
    f[COMMAND] := host.hostToBe(command);
    ghost var header := f[..];
    StoreToWire(host, f, HEADER_QUADLETS, args);
    assert f[..HEADER_QUADLETS] == header[..HEADER_QUADLETS];
    assert header[STATUS] == old(f[STATUS]);
    assert header[HEADER_QUADLETS + |args|..] == old(f[HEADER_QUADLETS + |args|..]);
  }

  /**
   * The capacity check of the parameters: the caller gives its capacity in bytes, which is compared
   * with the parameters' size in bytes; the count handed back on success is in quadlets.
   */
  predicate ParamsRejected(capacityBytes: nat, quadlets: nat)
  {
    quadlets > 0 && capacityBytes < quadlets * 4
  }

  /** The check refuses exactly a non-empty response with more parameters than whole quadlets fit in the capacity. */
  lemma ParamsRejectedIffNoRoom(capacityBytes: nat, quadlets: nat)
    ensures ParamsRejected(capacityBytes, quadlets) <==> quadlets > 0 && capacityBytes / 4 < quadlets
  {
  }

  /** A capacity given as the byte size of a `words`-word array admits exactly the parameters that array holds. */
  lemma ArrayBytesAdmitArray(words: nat, quadlets: nat)
    ensures ParamsRejected(4 * words, quadlets) <==> words < quadlets
    ensures !ParamsRejected(104, 26) && ParamsRejected(104, 27)
  {
  }

  /** Parameters the check accepts, against a capacity of at most the bytes of a `words`-word array, fit in that array. */
  lemma AcceptedParamsFit(capacityBytes: nat, quadlets: nat, words: nat)
    requires capacityBytes <= 4 * words && !ParamsRejected(capacityBytes, quadlets)
    ensures quadlets <= words
  {
  }

  /** A transaction as created: a 0x200-byte frame buffer. A failed allocation returns its error. */
  method CreateTransaction(transAlloc: int, bufferAlloc: int) returns (t: Transaction?, err: int)
    ensures transAlloc != 0 ==> t == null && err == transAlloc
    ensures transAlloc == 0 && bufferAlloc != 0 ==> t == null && err == bufferAlloc
    ensures transAlloc == 0 && bufferAlloc == 0 ==>
      err == 0 && t != null && fresh(t) && fresh(t.frame) && t.frame.Length == FRAME_QUADLETS
  {
    if transAlloc != 0 {
      return null, transAlloc;
    }
    if bufferAlloc != 0 {
      return null, bufferAlloc;
    }
    var buffer := new Word[FRAME_QUADLETS];
    t := new Transaction(buffer);
    err := 0;
  }

  /** The Fireworks part of an ALSA unit: its type, the sequence number counter and the pending list. */
  class EfwUnit {
    const host: Host
    const unitType: nat
    var seqnum: nat
    var transactions: seq<Transaction>

    /** The frame buffers of the pending transactions. */
    ghost function FrameSet(): set<object>
      reads this
    {
      set i | 0 <= i < |transactions| :: transactions[i].frame
    }

    /**
     * The counter stays within user space's range; every pending transaction has its own 0x200-byte
     * buffer, and every buffer holds a frame whose length lies within it.
     */
    ghost predicate Valid()
      reads this, transactions, FrameSet()
    {
      RoundTrips(host) && seqnum <= SEQNUM_MAX && DistinctFrames(transactions) && FramesFit(host, transactions)
    }

    constructor (host: Host, unitType: nat)
      requires RoundTrips(host)
      ensures this.host == host && this.unitType == unitType && seqnum == 0 && transactions == [] && Valid()
    {
      this.host := host;
      this.unitType := unitType;
      seqnum := 0;
      transactions := [];
    }

    /** LIST_INSERT_HEAD: a transaction whose own buffer holds a frame joins the list at its head. */
    method Insert(trans: Transaction)
      requires Valid() && trans.frame.Length == FRAME_QUADLETS && HoldsFrame(host, trans.frame[..])
      requires forall i :: 0 <= i < |transactions| ==> transactions[i].frame != trans.frame
      modifies this`transactions
      ensures Valid() && transactions == [trans] + old(transactions)
    {
      PushKeepsFrames(host, trans, transactions);
      transactions := [trans] + transactions;
    }

    /** LIST_REMOVE: the transaction leaves the list, the rest keep their order. */
    method Remove(trans: Transaction)
      requires Valid()
      modifies this`transactions
      ensures Valid() && transactions == Without(old(transactions), trans)
    {
      WithoutKeepsFrames(host, transactions, trans);
      transactions := Without(transactions, trans);
    }

    /**
     * The first half of a run, up to the wait. A unit that is not Fireworks, or arguments counted
     * but missing, is EINVAL and changes nothing. Otherwise the transaction takes the counter's
     * value, the counter advances, the request is written over the transaction's buffer and the
     * transaction goes to the head of the list; `sent` is what goes to the device. A failed write
     * (a negative `written`) is its negated value and takes the transaction off again.
     */
    method Begin(trans: Transaction, category: Word, command: Word, args: Option<seq<Word>>, argsCount: nat,
                 written: int)
      returns (err: int, pending: bool, sent: Option<seq<Word>>)
      requires Valid() && trans !in transactions
      requires trans.frame.Length == FRAME_QUADLETS
      requires forall i :: 0 <= i < |transactions| ==> transactions[i].frame != trans.frame
      requires HEADER_QUADLETS + argsCount <= FRAME_QUADLETS
      requires args.Some? ==> argsCount <= |args.value|
      modifies this`seqnum, this`transactions, trans, trans.frame
      ensures Valid()
      ensures unitType != SNDRV_FIREWIRE_TYPE_FIREWORKS || (argsCount > 0 && args.None?) ==>
        err == EINVAL && !pending && sent.None? && unchanged(this) && unchanged(trans) && unchanged(trans.frame)
      ensures unitType == SNDRV_FIREWIRE_TYPE_FIREWORKS && (argsCount == 0 || args.Some?) ==>
        trans.seqnum == old(seqnum) && seqnum == NextSeqnum(old(seqnum)) &&
        trans.frame[..] == Written(host, old(trans.frame[..]), old(seqnum), category, command, ArgsOf(args, argsCount)) &&
        sent == Some(trans.frame[..HEADER_QUADLETS + argsCount])
      ensures pending <==> sent.Some? && written >= 0
      ensures pending ==> err == 0 && transactions == [trans] + old(transactions)
      ensures sent.Some? && written < 0 ==> err == -written && !pending && transactions == old(transactions)
      ensures !pending ==> transactions == old(transactions)
    {
      if unitType != SNDRV_FIREWIRE_TYPE_FIREWORKS {
        return EINVAL, false, None;
      }
      if argsCount > 0 && args.None? {
        return EINVAL, false, None;
      }
      var arguments := ArgsOf(args, argsCount);
      ghost var before := trans.frame[..];
      ghost var buffers := Buffers(transactions);
      trans.seqnum := seqnum;
      seqnum := NextSeqnum(seqnum);
      var f := trans.frame;
      WriteRequest(host, f, trans.seqnum, category, command, arguments);
      WrittenDecodes(host, before, trans.seqnum, category, command, arguments);
      sent := Some(f[..HEADER_QUADLETS + argsCount]);
      ghost var others := transactions;
      assert Buffers(others) == buffers by {
        assert forall i :: 0 <= i < |others| ==> others[i].frame[..] == old(others[i].frame[..]);
      }
      assert Valid();
      Insert(trans);
      if written < 0 {
        Remove(trans);
        WithoutInsertedHead(others, trans);
        return -written, false, sent;
      }
      err, pending := 0, true;
    }

    /**
     * The second half of a run, with `waitErr` the wait's result. A failed wait is that error.
     * Otherwise the response in the buffer is read: a version below 1 or another category or
     * command is EPROTO; parameters the caller has no room for (or no array for) are EINVAL, the
     * room being `paramsCount` in bytes; otherwise they are decoded into `params` and their number
     * of quadlets becomes the count. The count is
     * left as it was on every error. Every way out takes the transaction off the list.
     */
    method Finish(trans: Transaction, category: Word, command: Word, waitErr: int,
                  params: array?<Word>, paramsCount: nat)
      returns (err: int, count: nat)
      requires Valid() && trans in transactions
      requires params != null ==> paramsCount <= 4 * params.Length
      requires params != null ==> params !in FrameSet()
      modifies this`transactions, params
      ensures Valid()
      ensures transactions == Without(old(transactions), trans)
      ensures HoldsFrame(host, trans.frame[..])
      ensures waitErr != 0 ==> err == waitErr && count == paramsCount
      ensures waitErr == 0 ==>
        var (h, ps) := ResponseOf(host, trans.frame[..]);
        (err == EPROTO <==> h.version < MINIMUM_SUPPORTED_VERSION || h.category != category || h.command != command) &&
        (err == EINVAL <==> err != EPROTO && ParamsRejected(if params == null then 0 else paramsCount, |ps|)) &&
        (err == 0 <==> err != EPROTO && err != EINVAL) &&
        (err == 0 ==> count == |ps| && (|ps| > 0 ==> params != null && params[..|ps|] == ps)) &&
        (err != 0 ==> count == paramsCount)
      ensures err != 0 && params != null ==> params[..] == old(params[..])
      ensures err == 0 && params != null ==> params[count..] == old(params[count..])
    {
      var f := trans.frame;
      assert HoldsFrame(host, f[..]) by {
        var i := IndexOf(transactions, trans);
        assert Buffers(transactions)[i] == f[..];
      }
      count := paramsCount;
      if waitErr != 0 {
        err := waitErr;
      } else if host.beToHost(f[VERSION]) < MINIMUM_SUPPORTED_VERSION ||
                host.beToHost(f[CATEGORY]) != category || host.beToHost(f[COMMAND]) != command {
        ResponseFields(host, f[..]);
        err := EPROTO;
      } else {
        var quadlets := host.beToHost(f[LENGTH]) - HEADER_QUADLETS;
        ghost var ps := ResponseOf(host, f[..]).1;
        ResponseFields(host, f[..]);
        assert |ps| == quadlets;
        if quadlets > 0 && (params == null || paramsCount < quadlets * 4) {
          err := EINVAL;
        } else {
          count := quadlets;
          assert params != null ==> params != f;
          if params != null {
            AcceptedParamsFit(paramsCount, quadlets, params.Length);
          }
          var i := 0;
          while i < quadlets
            invariant 0 <= i <= quadlets
            invariant params != null ==> params[..i] == ps[..i]
            invariant params != null ==> params[i..] == old(params[i..])
            modifies params
          {
            params[i] := host.beToHost(f[HEADER_QUADLETS + i]);
            i := i + 1;
          }
          err := 0;
        }
      }
      assert Buffers(transactions) == old(Buffers(transactions)) by {
        assert forall i :: 0 <= i < |transactions| ==> transactions[i].frame[..] == old(transactions[i].frame[..]);
      }
      assert Valid();
      Remove(trans);
    }

    /** The response handler: the walk over the frames of an event, delivered to the pending list. */
    method HandleResponse(raw: seq<Word>)
      requires Valid()
      modifies FrameSet()
      ensures Valid()
      ensures Buffers(transactions) == DeliverAll(host, Seqnums(transactions), old(Buffers(transactions)), Frames(host, raw))
    {
      ghost var before := Buffers(transactions);
      DeliverFrames(host, raw, transactions);
      FramesWellFormed(host, raw);
      DeliverAllHoldsFrames(host, Seqnums(transactions), before, Frames(host, raw));
    }
  }
}

=== FILE: efw_protocol.dfy ===
/**
 * Echo Fireworks transactions (EFT) as both implementations use them (src/snd_efw.c, src/efw.c): a
 * frame is six header quadlets (length in quadlets, version, sequence number, category, command,
 * status) followed by parameters, every quadlet big-endian on the wire. Requests carry an even
 * sequence number; the device answers with that number plus one. The ALSA hwdep device hands up
 * several response frames back to back in one event.
 *
 * Memory is modelled as quadlets as a host load reads them ("raw" words); a field's value is the
 * raw word passed through the host's be32toh. The model is stated for any host whose be32toh and
 * htobe32 undo each other, which covers both byte orders (Ieee1394.HostOf).
 */
module EfwProtocol {
  import opened Ieee1394
  import opened Outcomes
  import opened Lists

  /** The largest sequence number user space may use: 0xffff - 1. */
  const SEQNUM_MAX: nat := 0xffff - 1
  const HEADER_QUADLETS: nat := 6
  const MAXIMUM_FRAME_BYTES: nat := 0x200
  const FRAME_QUADLETS: nat := MAXIMUM_FRAME_BYTES / 4
  const MINIMUM_SUPPORTED_VERSION: Word := 1
  const STATUS_OK: Word := 0
  /** Unsigned 32-bit arithmetic wraps modulo U32. */
  const U32: nat := 0x1_0000_0000

  /** Positions of the header fields. */
  const LENGTH: nat := 0
  const VERSION: nat := 1
  const SEQNUM: nat := 2
  const CATEGORY: nat := 3
  const COMMAND: nat := 4
  const STATUS: nat := 5

  /** How many distinct sequence numbers the counter runs through. */
  const SEQNUM_PERIOD: nat := 32768

  /** The counter after one transaction: up by two, back to 0 once past the maximum. */
  function NextSeqnum(s: nat): (r: nat)
    ensures s <= SEQNUM_MAX ==> r <= SEQNUM_MAX
    ensures r == 0 || r == s + 2
    ensures s % 2 == 0 ==> r % 2 == 0
  {
    if s + 2 > SEQNUM_MAX then 0 else s + 2
  }

  /** The counter after n transactions from its initial 0. */
  function SeqnumAfter(n: nat): nat
  {
    if n == 0 then 0 else NextSeqnum(SeqnumAfter(n - 1))
  }

  /** The counter runs through the even numbers 0, 2, ..., SEQNUM_MAX and starts over. */
  lemma {:induction false} SeqnumAfterCycles(n: nat)
    ensures SeqnumAfter(n) == 2 * (n % SEQNUM_PERIOD)
    ensures SeqnumAfter(n) % 2 == 0 && SeqnumAfter(n) <= SEQNUM_MAX
  {
    if n > 0 {
      SeqnumAfterCycles(n - 1);
      if (n - 1) % SEQNUM_PERIOD == SEQNUM_PERIOD - 1 {
        assert n % SEQNUM_PERIOD == 0;
      } else {
        assert n % SEQNUM_PERIOD == (n - 1) % SEQNUM_PERIOD + 1;
      }
    }
  }

  /** Transactions fewer than SEQNUM_PERIOD apart never carry the same sequence number. */
  lemma SeqnumsDistinctWithinPeriod(i: nat, j: nat)
    requires i < j < i + SEQNUM_PERIOD
    ensures SeqnumAfter(i) != SeqnumAfter(j)
  {
    SeqnumAfterCycles(i);
    SeqnumAfterCycles(j);
    ResiduesDiffer(i, j);
  }

  /** Two numbers fewer than SEQNUM_PERIOD apart leave different residues. */
  lemma ResiduesDiffer(i: nat, j: nat)
    requires i < j < i + SEQNUM_PERIOD
    ensures i % SEQNUM_PERIOD != j % SEQNUM_PERIOD
  {
    var qi, qj := i / SEQNUM_PERIOD, j / SEQNUM_PERIOD;
    assert i == SEQNUM_PERIOD * qi + i % SEQNUM_PERIOD;
    assert j == SEQNUM_PERIOD * qj + j % SEQNUM_PERIOD;
    assert j - i == SEQNUM_PERIOD * (qj - qi) + (j % SEQNUM_PERIOD - i % SEQNUM_PERIOD);
  }

  /** The six header fields, as host values. */
  datatype Header = Header(length: Word, version: Word, seqnum: Word, category: Word,
                           command: Word, status: Word)

  /** A frame in host order: the header, then the parameters. */
  function Encode(h: Header, params: seq<Word>): seq<Word>
  {
    [h.length, h.version, h.seqnum, h.category, h.command, h.status] + params
  }

  /** A frame in host order read back: None unless its length field covers a header and lies within the words. */
  function Decode(words: seq<Word>): (r: Option<(Header, seq<Word>)>)
    ensures r.Some? <==> |words| >= HEADER_QUADLETS && HEADER_QUADLETS <= words[LENGTH] <= |words|
    ensures r.Some? ==> words[..words[LENGTH]] == Encode(r.value.0, r.value.1)
  {
    if |words| < HEADER_QUADLETS then None
    else
      var n := words[LENGTH];
      if n < HEADER_QUADLETS || n > |words| then None
      else Some((Header(words[LENGTH], words[VERSION], words[SEQNUM], words[CATEGORY], words[COMMAND], words[STATUS]),
                 words[HEADER_QUADLETS..n]))
  }

  /** Decoding an encoded frame whose length field counts its quadlets gives back its header and parameters. */
  lemma DecodeEncode(h: Header, params: seq<Word>, tail: seq<Word>)
    requires h.length == HEADER_QUADLETS + |params|
    ensures Decode(Encode(h, params) + tail) == Some((h, params))
  {
    var w := Encode(h, params) + tail;
    assert w[HEADER_QUADLETS..h.length] == params;
  }

  /** A response header answers a request when its version is supported and it echoes the category and command. */
  predicate HeaderAnswers(h: Header, category: Word, command: Word)
  {
    h.version >= MINIMUM_SUPPORTED_VERSION && h.category == category && h.command == command
  }

  /** A request: length 6 plus the arguments, version 1, the given fields, then the arguments. */
  function Request(seqnum: Word, category: Word, command: Word, status: Word, args: seq<Word>): seq<Word>
    requires HEADER_QUADLETS + |args| < U32
  {
    Encode(Header(HEADER_QUADLETS + |args|, MINIMUM_SUPPORTED_VERSION, seqnum, category, command, status), args)
  }

  /** The words of a frame converted to big-endian, as they go on the wire. */
  function ToWire(host: Host, words: seq<Word>): (r: seq<Word>)
    ensures |r| == |words|
  {
    seq<Word>(|words|, i requires 0 <= i < |words| => host.hostToBe(words[i]))
  }

  /** Raw words converted from big-endian to host values. */
  function FromWire(host: Host, raw: seq<Word>): (r: seq<Word>)
    ensures |r| == |raw|
  {
    seq<Word>(|raw|, i requires 0 <= i < |raw| => host.beToHost(raw[i]))
  }

  /** Converting to the wire and back, or back and to the wire, changes nothing. */
  lemma WireRoundTrip(host: Host, words: seq<Word>)
    requires RoundTrips(host)
    ensures FromWire(host, ToWire(host, words)) == words
    ensures ToWire(host, FromWire(host, words)) == words
  {
    assert forall i :: 0 <= i < |words| ==> FromWire(host, ToWire(host, words))[i] == words[i];
    assert forall i :: 0 <= i < |words| ==> ToWire(host, FromWire(host, words))[i] == words[i];
  }

  /** The length field of a raw frame. */
  function LengthField(host: Host, raw: seq<Word>): nat
    requires |raw| > LENGTH
  {
    host.beToHost(raw[LENGTH])
  }

  /** A raw frame whose length field counts exactly its quadlets, header included. */
  predicate WellFormed(host: Host, frame: seq<Word>)
  {
    |frame| >= HEADER_QUADLETS && LengthField(host, frame) == |frame|
  }

  /** A raw buffer that begins with a frame whose length field lies within the buffer. */
  predicate HoldsFrame(host: Host, buffer: seq<Word>)
  {
    |buffer| >= HEADER_QUADLETS && HEADER_QUADLETS <= LengthField(host, buffer) <= |buffer|
  }

  /** A buffer that holds a frame decodes: its header, and as many parameters as the length field leaves. */
  function ResponseOf(host: Host, buffer: seq<Word>): (r: (Header, seq<Word>))
    requires HoldsFrame(host, buffer)
    ensures r.0.length == LengthField(host, buffer) && |r.1| == LengthField(host, buffer) - HEADER_QUADLETS
    ensures Decode(FromWire(host, buffer)) == Some(r)
  {
    var words := FromWire(host, buffer);
    assert words[LENGTH] == LengthField(host, buffer);
    Decode(words).value
  }

  /** The decoded fields of a held frame are its raw words passed through be32toh. */
  lemma ResponseFields(host: Host, buffer: seq<Word>)
    requires HoldsFrame(host, buffer)
    ensures var (h, ps) := ResponseOf(host, buffer);
      h.version == host.beToHost(buffer[VERSION]) && h.seqnum == host.beToHost(buffer[SEQNUM]) &&
      h.category == host.beToHost(buffer[CATEGORY]) && h.command == host.beToHost(buffer[COMMAND]) &&
      h.status == host.beToHost(buffer[STATUS]) &&
      forall k :: 0 <= k < |ps| ==> ps[k] == host.beToHost(buffer[HEADER_QUADLETS + k])
  {
    var (h, ps) := ResponseOf(host, buffer);
    var words := FromWire(host, buffer);
    var n := LengthField(host, buffer);
    assert words[..n] == Encode(h, ps);
    forall k | 0 <= k < |ps|
      ensures ps[k] == host.beToHost(buffer[HEADER_QUADLETS + k])
    {
      assert Encode(h, ps)[HEADER_QUADLETS + k] == ps[k];
    }
  }

  function Concat(frames: seq<seq<Word>>): seq<Word>
  {
    if |frames| == 0 then [] else frames[0] + Concat(frames[1..])
  }

  /**
   * The response walk: frame after frame, each as long as its own length field says. The walk
   * stops at the first length field that does not cover a header or runs past the words.
   */
  function Frames(host: Host, raw: seq<Word>): seq<seq<Word>>
    decreases |raw|
  {
    if |raw| < HEADER_QUADLETS then []
    else
      var n := LengthField(host, raw);
      if n < HEADER_QUADLETS || n > |raw| then []
      else [raw[..n]] + Frames(host, raw[n..])
  }

  /** Every frame of the walk is well formed. */
  lemma {:induction false} FramesWellFormed(host: Host, raw: seq<Word>)
    ensures forall k :: 0 <= k < |Frames(host, raw)| ==> WellFormed(host, Frames(host, raw)[k])
    decreases |raw|
  {
    if |raw| >= HEADER_QUADLETS {
      var n := LengthField(host, raw);
      if HEADER_QUADLETS <= n <= |raw| {
        FramesWellFormed(host, raw[n..]);
        assert raw[..n][LENGTH] == raw[LENGTH];
      }
    }
  }

  /** The frames of the walk lie back to back at the start of the words. */
  lemma {:induction false} FramesArePrefix(host: Host, raw: seq<Word>)
    ensures var c := Concat(Frames(host, raw)); |c| <= |raw| && c == raw[..|c|]
    decreases |raw|
  {
    if |raw| >= HEADER_QUADLETS {
      var n := LengthField(host, raw);
      if HEADER_QUADLETS <= n <= |raw| {
        var rest := Frames(host, raw[n..]);
        FramesArePrefix(host, raw[n..]);
        assert Concat([raw[..n]] + rest) == raw[..n] + Concat(rest) by {
          assert ([raw[..n]] + rest)[1..] == rest;
        }
        assert raw[..n + |Concat(rest)|] == raw[..n] + raw[n..][..|Concat(rest)|];
      }
    }
  }

  /** Walking back-to-back well-formed frames gives back exactly those frames, in order. */
  lemma {:induction false} FramesOfConcat(host: Host, frames: seq<seq<Word>>)
    requires forall k :: 0 <= k < |frames| ==> WellFormed(host, frames[k])
    ensures Frames(host, Concat(frames)) == frames
  {
    if |frames| > 0 {
      var f, rest := frames[0], Concat(frames[1..]);
      var raw := Concat(frames);
      assert raw == f + rest;
      assert raw[LENGTH] == f[LENGTH];
      assert raw[..|f|] == f && raw[|f|..] == rest;
      FramesOfConcat(host, frames[1..]);
      calc {
        Frames(host, raw);
        [raw[..|f|]] + Frames(host, raw[|f|..]);
        [f] + frames[1..];
        frames;
      }
    }
  }

  /**
   * One round of the walk as written, for a frame whose length field is `lengthField`: the position
   * advances by the length field and four times it (in 32-bit arithmetic) comes off the byte
   * count; the loop runs while the count is not zero.
   */
  function WalkStepAsWritten(lengthField: Word, pos: nat, remaining: Word): (next: (nat, Word))
  {
    (pos + lengthField, (remaining - (lengthField * 4) % U32) % U32)
  }

  /** A frame whose length field is 0 moves neither the position nor the count: the walk never ends. */
  lemma ZeroLengthFrameStalls(pos: nat, remaining: Word)
    requires remaining > 0
    ensures WalkStepAsWritten(0, pos, remaining) == (pos, remaining)
  {
  }

  /**
   * The count the walk starts from is the whole read, type header included. With one frame in the
   * event, the frame is consumed and four bytes are still counted, so the loop goes on with a
   * "frame" past the data the read returned. The corrected walk yields just that frame.
   */
  lemma TypeHeaderCounted(host: Host, frame: seq<Word>)
    requires WellFormed(host, frame) && |frame| <= FRAME_QUADLETS
    ensures WalkStepAsWritten(LengthField(host, frame), 0, 4 + 4 * |frame|) == (|frame|, 4)
    ensures Frames(host, frame) == [frame]
  {
    var n := LengthField(host, frame);
    assert n == |frame|;
    assert frame[..n] == frame;
    assert Frames(host, frame[n..]) == [];
  }

  /** The first pending transaction, in list order, whose request sequence number plus one is the response's. */
  function Matching(seqnums: seq<Word>, respSeqnum: Word): (r: Option<nat>)
    ensures r.Some? ==> r.value < |seqnums| && (seqnums[r.value] + 1) % U32 == respSeqnum
    ensures r.Some? ==> forall j :: 0 <= j < r.value ==> (seqnums[j] + 1) % U32 != respSeqnum
    ensures r.None? <==> forall j :: 0 <= j < |seqnums| ==> (seqnums[j] + 1) % U32 != respSeqnum
  {
    if |seqnums| == 0 then None
    else if (seqnums[0] + 1) % U32 == respSeqnum then Some(0)
    else match Matching(seqnums[1..], respSeqnum)
      case None => None
      case Some(i) => Some(i + 1)
  }

  /**
   * One response frame delivered to the pending frames: it is copied over the front of the frame
   * of the matching transaction when it fits there, and dropped otherwise. A frame too short to
   * carry a sequence number matches nothing.
   */
  function Deliver(host: Host, seqnums: seq<Word>, frames: seq<seq<Word>>, response: seq<Word>)
    : (r: seq<seq<Word>>)
    requires |seqnums| == |frames|
    ensures |r| == |frames|
  {
    if |response| <= SEQNUM then frames
    else match Matching(seqnums, host.beToHost(response[SEQNUM]))
      case None => frames
      case Some(i) =>
        if |response| <= |frames[i]| then frames[i := response + frames[i][|response|..]] else frames
  }

  /**
   * What delivery does to each pending frame: only the frame of the first transaction the
   * response answers changes, and only when the response fits, to the response followed by the
   * rest of what it held; every frame keeps its size.
   */
  lemma DeliverEffect(host: Host, seqnums: seq<Word>, frames: seq<seq<Word>>, response: seq<Word>)
    requires |seqnums| == |frames|
    ensures var r := Deliver(host, seqnums, frames, response);
      forall i :: 0 <= i < |r| ==> |r[i]| == |frames[i]|
    ensures |response| <= SEQNUM ==> Deliver(host, seqnums, frames, response) == frames
    ensures |response| > SEQNUM ==>
      var r := Deliver(host, seqnums, frames, response);
      var m := Matching(seqnums, host.beToHost(response[SEQNUM]));
      forall i :: 0 <= i < |r| ==>
        r[i] == if m == Some(i) && |response| <= |frames[i]| then response + frames[i][|response|..] else frames[i]
  {
  }

  /** Every response frame of the walk, delivered in order. */
  function DeliverAll(host: Host, seqnums: seq<Word>, frames: seq<seq<Word>>, responses: seq<seq<Word>>)
    : (r: seq<seq<Word>>)
    requires |seqnums| == |frames|
    ensures |r| == |frames|
    decreases |responses|
  {
    if |responses| == 0 then frames
    else DeliverAll(host, seqnums, Deliver(host, seqnums, frames, responses[0]), responses[1..])
  }

  /** Every buffer begins with a frame header whose length lies within the buffer. */
  predicate AllHoldFrames(host: Host, buffers: seq<seq<Word>>)
  {
    forall i :: 0 <= i < |buffers| ==> HoldsFrame(host, buffers[i])
  }

  /**
   * Delivery never leaves a pending frame without a frame header whose length lies within the
   * buffer: what a buffer held before, or a well-formed response that fits in it.
   */
  lemma {:induction false} DeliverAllHoldsFrames(host: Host, seqnums: seq<Word>, frames: seq<seq<Word>>,
                                                 responses: seq<seq<Word>>)
    requires |seqnums| == |frames|
    requires forall k :: 0 <= k < |responses| ==> WellFormed(host, responses[k])
    requires AllHoldFrames(host, frames)
    ensures AllHoldFrames(host, DeliverAll(host, seqnums, frames, responses))
    decreases |responses|
  {
    if |responses| > 0 {
      var response := responses[0];
      assert WellFormed(host, response);
      var next := Deliver(host, seqnums, frames, response);
      DeliverEffect(host, seqnums, frames, response);
      var m := Matching(seqnums, host.beToHost(response[SEQNUM]));
      forall i | 0 <= i < |next|
        ensures HoldsFrame(host, next[i])
      {
        if m == Some(i) && |response| <= |frames[i]| {
          CopiedFrameHeld(host, response, frames[i]);
        } else {
          assert next[i] == frames[i];
        }
      }
      DeliverAllHoldsFrames(host, seqnums, next, responses[1..]);
    }
  }

  /** A well-formed frame copied over the front of a buffer it fits in leaves the buffer holding it. */
  lemma CopiedFrameHeld(host: Host, response: seq<Word>, buffer: seq<Word>)
    requires WellFormed(host, response) && |response| <= |buffer|
    ensures HoldsFrame(host, response + buffer[|response|..])
  {
    assert (response + buffer[|response|..])[LENGTH] == response[LENGTH];
  }

  /** Delivering a frame and then the rest is delivering them all. */
  lemma DeliverAllStep(host: Host, seqnums: seq<Word>, frames: seq<seq<Word>>, response: seq<Word>,
                       rest: seq<seq<Word>>)
    requires |seqnums| == |frames|
    ensures DeliverAll(host, seqnums, frames, [response] + rest) ==
            DeliverAll(host, seqnums, Deliver(host, seqnums, frames, response), rest)
  {
    assert ([response] + rest)[1..] == rest;
  }

  /** Response frames that answer no pending transaction change no pending frame. */
  lemma {:induction false} UnansweredDropped(host: Host, seqnums: seq<Word>, frames: seq<seq<Word>>,
                                             responses: seq<seq<Word>>)
    requires |seqnums| == |frames|
    requires forall k :: 0 <= k < |responses| ==>
      |responses[k]| > SEQNUM && Matching(seqnums, host.beToHost(responses[k][SEQNUM])).None?
    ensures DeliverAll(host, seqnums, frames, responses) == frames
  {
    if |responses| > 0 {
      DeliverEffect(host, seqnums, frames, responses[0]);
      assert Deliver(host, seqnums, frames, responses[0]) == frames;
      UnansweredDropped(host, seqnums, frames, responses[1..]);
    }
  }

  /** A pending transaction: the sequence number it waits on and its frame buffer. */
  class Transaction {
    var seqnum: Word
    const frame: array<Word>

    constructor (frame: array<Word>)
      ensures this.frame == frame && seqnum == 0
    {
      this.frame := frame;
      seqnum := 0;
    }
  }

  function Seqnums(ts: seq<Transaction>): (r: seq<Word>)
    reads ts
    ensures |r| == |ts| && forall i :: 0 <= i < |ts| ==> r[i] == ts[i].seqnum
  {
    seq(|ts|, i reads ts requires 0 <= i < |ts| => ts[i].seqnum)
  }

  function Buffers(ts: seq<Transaction>): (r: seq<seq<Word>>)
    reads set i | 0 <= i < |ts| :: ts[i].frame
    ensures |r| == |ts| && forall i :: 0 <= i < |ts| ==> r[i] == ts[i].frame[..]
  {
    seq(|ts|, i reads set i | 0 <= i < |ts| :: ts[i].frame requires 0 <= i < |ts| => ts[i].frame[..])
  }

  /** No two pending transactions share a frame buffer. */
  predicate DistinctFrames(ts: seq<Transaction>)
  {
    forall i, j :: 0 <= i < j < |ts| ==> ts[i].frame != ts[j].frame
  }

  /** Every pending frame buffer has the size of a maximum frame and holds a frame. */
  predicate FramesFit(host: Host, ts: seq<Transaction>)
    reads set i | 0 <= i < |ts| :: ts[i].frame
  {
    (forall i :: 0 <= i < |ts| ==> ts[i].frame.Length == FRAME_QUADLETS) && AllHoldFrames(host, Buffers(ts))
  }

  /** Taking a transaction off the list keeps the buffers distinct, full-sized and holding frames. */
  lemma WithoutKeepsFrames(host: Host, ts: seq<Transaction>, t: Transaction)
    requires DistinctFrames(ts) && FramesFit(host, ts)
    ensures DistinctFrames(Without(ts, t)) && FramesFit(host, Without(ts, t))
  {
    WithoutKeepsDistinct(ts, t);
    var r := Without(ts, t);
    forall i | 0 <= i < |r|
      ensures r[i].frame.Length == FRAME_QUADLETS && HoldsFrame(host, Buffers(r)[i])
    {
      var k := IndexOf(ts, r[i]);
      assert Buffers(ts)[k] == Buffers(r)[i];
    }
  }

  /** A transaction with a buffer of its own, full-sized and holding a frame, can join the list. */
  lemma PushKeepsFrames(host: Host, t: Transaction, ts: seq<Transaction>)
    requires DistinctFrames(ts) && FramesFit(host, ts)
    requires forall i :: 0 <= i < |ts| ==> ts[i].frame != t.frame
    requires t.frame.Length == FRAME_QUADLETS && HoldsFrame(host, t.frame[..])
    ensures DistinctFrames([t] + ts) && FramesFit(host, [t] + ts)
  {
    assert Buffers([t] + ts) == [t.frame[..]] + Buffers(ts);
  }

  /** A transaction with a buffer of its own, full-sized and holding a frame, can join the list at its tail. */
  lemma AppendKeepsFrames(host: Host, ts: seq<Transaction>, t: Transaction)
    requires DistinctFrames(ts) && FramesFit(host, ts)
    requires forall i :: 0 <= i < |ts| ==> ts[i].frame != t.frame
    requires t.frame.Length == FRAME_QUADLETS && HoldsFrame(host, t.frame[..])
    ensures DistinctFrames(ts + [t]) && FramesFit(host, ts + [t])
  {
    assert Buffers(ts + [t]) == Buffers(ts) + [t.frame[..]];
  }

  /** Once a transaction is taken off the list, no remaining transaction shares its buffer. */
  lemma WithoutOtherFrames(ts: seq<Transaction>, t: Transaction)
    requires DistinctFrames(ts) && t in ts
    ensures forall i :: 0 <= i < |Without(ts, t)| ==> Without(ts, t)[i].frame != t.frame
  {
    var r := Without(ts, t);
    var j := IndexOf(ts, t);
    forall i | 0 <= i < |r|
      ensures r[i].frame != t.frame
    {
      var k := IndexOf(ts, r[i]);
      assert k != j;
    }
  }

  /** Taking a transaction off the list keeps the remaining buffers distinct. */
  lemma {:induction false} WithoutKeepsDistinct(ts: seq<Transaction>, t: Transaction)
    requires DistinctFrames(ts)
    ensures DistinctFrames(Without(ts, t))
  {
    if |ts| > 0 {
      var rest := ts[1..];
      WithoutKeepsDistinct(rest, t);
      if ts[0] != t {
        var r := Without(ts, t);
        var w := Without(rest, t);
        assert r == [ts[0]] + w;
        forall i | 0 < i < |r|
          ensures r[i].frame != ts[0].frame
        {
          var k := IndexOf(rest, w[i - 1]);
          assert ts[k + 1] == r[i];
        }
      }
    }
  }

  /** The walk from `pos`: the frame there, then the walk from just past it. */
  lemma FramesStep(host: Host, raw: seq<Word>, pos: nat)
    requires pos + HEADER_QUADLETS <= |raw|
    requires HEADER_QUADLETS <= LengthField(host, raw[pos..]) <= |raw| - pos
    ensures var n := LengthField(host, raw[pos..]);
      Frames(host, raw[pos..]) == [raw[pos..pos + n]] + Frames(host, raw[pos + n..])
  {
    var n := LengthField(host, raw[pos..]);
    assert raw[pos..][..n] == raw[pos..pos + n] && raw[pos..][n..] == raw[pos + n..];
  }

  /**
   * One round of the walk: once the frame at `pos`, `n` words long, is delivered, what is left to
   * deliver is the rest of the walk, and the final outcome is unchanged.
   */
  lemma WalkRound(host: Host, seqnums: seq<Word>, before: seq<seq<Word>>, after: seq<seq<Word>>,
                  raw: seq<Word>, pos: nat, n: nat, goal: seq<seq<Word>>)
    requires |seqnums| == |before|
    requires pos + HEADER_QUADLETS <= |raw|
    requires n == LengthField(host, raw[pos..]) && HEADER_QUADLETS <= n <= |raw| - pos
    requires after == Deliver(host, seqnums, before, raw[pos..pos + n])
    requires DeliverAll(host, seqnums, before, Frames(host, raw[pos..])) == goal
    ensures DeliverAll(host, seqnums, after, Frames(host, raw[pos + n..])) == goal
  {
    FramesStep(host, raw, pos);
    DeliverAllStep(host, seqnums, before, raw[pos..pos + n], Frames(host, raw[pos + n..]));
  }

  /** The search of the pending list, in list order, for the transaction a response sequence number answers. */
  method FindPending(ts: seq<Transaction>, respSeqnum: Word) returns (i: nat)
    ensures i <= |ts|
    ensures i < |ts| ==> Matching(Seqnums(ts), respSeqnum) == Some(i)
    ensures i == |ts| ==> Matching(Seqnums(ts), respSeqnum).None?
  {
    i := 0;
    while i < |ts| && (ts[i].seqnum + 1) % U32 != respSeqnum
      invariant 0 <= i <= |ts|
      invariant forall j :: 0 <= j < i ==> (ts[j].seqnum + 1) % U32 != respSeqnum
    {
      i := i + 1;
    }
  }

  /**
   * One response frame: the pending list is searched in order for the transaction it answers, and
   * the frame is copied into that transaction's frame buffer when it fits.
   */
  method DeliverOne(host: Host, response: seq<Word>, ts: seq<Transaction>)
    requires |response| > SEQNUM && DistinctFrames(ts)
    modifies set i | 0 <= i < |ts| :: ts[i].frame
    ensures Buffers(ts) == Deliver(host, Seqnums(ts), old(Buffers(ts)), response)
    ensures Seqnums(ts) == old(Seqnums(ts))
  {
    var i := FindPending(ts, host.beToHost(response[SEQNUM]));
    ghost var seqnums := Seqnums(ts);
    ghost var expected := Deliver(host, seqnums, old(Buffers(ts)), response);
    DeliverEffect(host, seqnums, old(Buffers(ts)), response);
    if i < |ts| && |response| <= ts[i].frame.Length {
      CopyInto(ts[i].frame, response);
      assert forall j :: 0 <= j < |ts| && j != i ==> ts[j].frame[..] == old(ts[j].frame[..]);
    }
    assert |Buffers(ts)| == |expected|;
    assert forall j :: 0 <= j < |ts| ==> Buffers(ts)[j] == expected[j];
    assert Buffers(ts) == expected;
    assert forall j :: 0 <= j < |ts| ==> Seqnums(ts)[j] == seqnums[j];
    assert Seqnums(ts) == seqnums;
  }

  /**
   * The response walk over the raw words after the event's type header: each frame is matched
   * against the pending list in order and copied into the matching transaction's frame when it
   * fits; the result is exactly DeliverAll over the frames of the walk.
   */
  method DeliverFrames(host: Host, raw: seq<Word>, ts: seq<Transaction>)
    requires DistinctFrames(ts)
    modifies set i | 0 <= i < |ts| :: ts[i].frame
    ensures Buffers(ts) == DeliverAll(host, Seqnums(ts), old(Buffers(ts)), Frames(host, raw))
  {
    ghost var seqnums := Seqnums(ts);
    ghost var current := Buffers(ts);
    ghost var goal := DeliverAll(host, seqnums, current, Frames(host, raw));
    var pos := 0;
    assert raw[0..] == raw;
    assert DeliverAll(host, seqnums, current, Frames(host, raw[pos..])) == goal;
    while pos + HEADER_QUADLETS <= |raw| &&
          HEADER_QUADLETS <= LengthField(host, raw[pos..]) <= |raw| - pos
      invariant pos <= |raw|
      invariant Seqnums(ts) == seqnums
      invariant Buffers(ts) == current && |current| == |seqnums|
      invariant DeliverAll(host, seqnums, current, Frames(host, raw[pos..])) == goal
      decreases |raw| - pos
    {
      var n := LengthField(host, raw[pos..]);
      var frame := raw[pos..pos + n];
      DeliverOne(host, frame, ts);
      ghost var after := Buffers(ts);
      WalkRound(host, seqnums, current, after, raw, pos, n, goal);
      ghost var rest := raw[pos + n..];
      current := after;
      pos := pos + n;
      assert raw[pos..] == rest;
      assert Frames(host, raw[pos..]) == Frames(host, rest);
    }
    assert Frames(host, raw[pos..]) == [];
  }
}

=== FILE: fcp.dfy ===
/**
 * The first FCP implementation (src/fcp.c): the caller's response buffer is registered with a
 * transaction on the unit's pending list, and the FCP responder's callback copies a matching
 * response into it. As in FwFcp, a run is split at its waits: Begin, then Await once per wait, with
 * HandleFcpResponse running in between.
 */
module Fcp {
  import opened Ieee1394
  import opened Outcomes
  import opened FcpProtocol
  import opened Lists

  /** How one wait ends: wait again, or done with an error code and, on success, the new response length. */
  datatype AwaitStatus = Again | Done(err: int, respLen: Option<nat>)

  /** A transaction: the command, and the caller's response buffer with its length while registered. */
  class FcpTransaction {
    var cmd: seq<Byte>
    var resp: array?<Byte>
    var length: nat

    constructor ()
      ensures cmd == [] && resp == null && length == 0
    {
      cmd := [];
      resp := null;
      length := 0;
    }
  }

  /** memset: the first n bytes become 0, the rest stays. */
  method Zero(a: array<Byte>, n: nat)
    requires n <= a.Length
    modifies a
    ensures forall i :: 0 <= i < n ==> a[i] == 0
    ensures a[n..] == old(a[n..])
  {
    var i := 0;
    while i < n
      invariant 0 <= i <= n
      invariant forall j :: 0 <= j < i ==> a[j] == 0
      invariant a[n..] == old(a[n..])
    {
      a[i] := 0;
      i := i + 1;
    }
  }

  /** The unit's list of pending FCP transactions, newest first. */
  class PendingList {
    var entries: seq<FcpTransaction>

    /** Every registered transaction holds a buffer at least as long as its registered length, and a command. */
    ghost predicate Valid()
      reads this, entries
    {
      forall t :: t in entries ==> t.resp != null && 1 <= t.length <= t.resp.Length && |t.cmd| >= 3
    }

    constructor ()
      ensures entries == [] && Valid()
    {
      entries := [];
    }

    /** The commands of the pending transactions, in list order. */
    function Commands(): (r: seq<seq<Byte>>)
      reads this, entries
      ensures |r| == |entries| && forall i :: 0 <= i < |entries| ==> r[i] == entries[i].cmd
    {
      seq(|entries|, i reads this, entries requires 0 <= i < |entries| => entries[i].cmd)
    }

    /** Take a transaction off the list, as LIST_REMOVE does. */
    method Remove(t: FcpTransaction)
      requires Valid()
      modifies this`entries
      ensures Valid()
      ensures t !in entries
      ensures entries == Without(old(entries), t)
    {
      entries := Without(entries, t);
    }

    /**
     * Start a run. A missing command or buffer, an empty command or a zero response length is
     * EINVAL; a failure to create the requester gives its errno. Otherwise the caller's buffer is
     * zeroed for `respLen` bytes before the transaction is registered at the head of the list; a
     * failed write takes it off again and resets it. `writeErr` is the write's error for a command of
     * at least one quadlet; a shorter one is EINVAL, as the requester refuses it.
     */
    method Begin(trans: FcpTransaction, cmd: Option<seq<Byte>>, resp: array?<Byte>, respLen: nat,
                 requester: IoResult, writeErr: int)
      returns (err: int, pending: bool)
      requires Valid() && trans !in entries
      requires resp != null ==> respLen <= resp.Length
      modifies this`entries, trans, resp
      ensures Valid()
      ensures cmd.None? || resp == null || |cmd.value| == 0 || respLen == 0 ==>
        err == EINVAL && !pending && entries == old(entries) && unchanged(trans)
      ensures pending ==>
        err == 0 && writeErr == 0 && entries == [trans] + old(entries) &&
        trans.cmd == cmd.value && trans.resp == resp && trans.length == respLen &&
        forall i :: 0 <= i < respLen ==> resp[i] == 0
      ensures !pending && err != EINVAL && requester.IoOk? ==> err == writeErr
      ensures !pending ==> entries == old(entries)
      ensures !pending && err != EINVAL && requester.IoOk? ==> trans.resp == null && trans.length == 0
      ensures cmd.Some? && 0 < |cmd.value| < 4 && resp != null && respLen > 0 && requester.IoOk? ==>
        err == EINVAL && !pending
      ensures cmd.Some? && |cmd.value| > 0 && resp != null && respLen > 0 && requester.IoFail? ==>
        err == requester.errno && !pending && entries == old(entries) && unchanged(trans)
      ensures cmd.Some? && |cmd.value| >= 4 && resp != null && respLen > 0 && requester.IoOk? ==>
        (pending <==> writeErr == 0) && (!pending ==> err == writeErr)
    {
      if cmd.None? || resp == null || |cmd.value| == 0 || respLen == 0 {
        return EINVAL, false;
      }
      if requester.IoFail? {
        return requester.errno, false;
      }
      Zero(resp, respLen);
      trans.resp := resp;
      trans.length := respLen;
      trans.cmd := cmd.value;
      entries := [trans] + entries;
      // A command of no whole quadlet is refused by the requester's write with EINVAL.
      var e := if |cmd.value| / 4 == 0 then EINVAL else writeErr;
      if e != 0 {
        entries := Without(entries, trans);
        WithoutInsertedHead(old(entries), trans);
        trans.resp := null;
        trans.length := 0;
        return e, false;
      }
      err, pending := 0, true;
    }

    /**
     * The responder callback: the newest pending transaction whose command the response answers.
     * None is ENODATA; a registered buffer shorter than the response is EAGAIN; otherwise exactly the
     * response's bytes are copied into its buffer. The error is left unwritten (None) on success, and
     * the response length is always handed back as 0.
     */
    method HandleFcpResponse(response: seq<Byte>) returns (err: Option<int>, length: nat, matched: Option<nat>)
      requires Valid() && |response| >= 3
      modifies set i | 0 <= i < |entries| :: entries[i].resp
      ensures matched == FirstAnswered(Commands(), response)
      ensures matched.None? ==> err == Some(ENODATA)
      ensures matched.Some? && entries[matched.value].length < |response| ==> err == Some(EAGAIN)
      ensures matched.Some? && |response| <= entries[matched.value].length ==>
        err.None? && entries[matched.value].resp[..] == response + old(entries[matched.value].resp[|response|..])
      ensures err.Some? ==> forall i :: 0 <= i < |entries| ==> entries[i].resp[..] == old(entries[i].resp[..])
      ensures length == 0
    {
      var commands := Commands();
      var i := 0;
      while i < |entries| && !Answers(commands[i], response)
        invariant 0 <= i <= |entries|
        invariant forall j :: 0 <= j < i ==> !Answers(commands[j], response)
      {
        i := i + 1;
      }
      length := 0;
      if i == |entries| {
        return Some(ENODATA), length, None;
      }
      matched := Some(i);
      var t := entries[i];
      if t.length < |response| {
        return Some(EAGAIN), length, matched;
      }
      CopyInto(t.resp, response);
      err := None;
    }

    /**
     * One wait of a pending run, `waitErr` being what the timed wait returns. An error ends the run
     * with it. An INTERIM response in the buffer means another wait. Anything else ends the run and
     * reports the registered buffer length as the response length. Ending takes the transaction off
     * the list and resets it.
     */
    method Await(trans: FcpTransaction, waitErr: int) returns (status: AwaitStatus)
      requires Valid() && trans in entries
      modifies this`entries, trans
      ensures Valid()
      ensures waitErr != 0 ==> status == Done(waitErr, None)
      ensures waitErr == 0 && IsInterim(old(trans.resp[..])) ==> status == Again && unchanged(this) && unchanged(trans)
      ensures waitErr == 0 && !IsInterim(old(trans.resp[..])) ==> status == Done(0, Some(old(trans.length)))
      ensures status.Done? ==>
        entries == Without(old(entries), trans) && trans.resp == null && trans.length == 0
    {
      if waitErr == 0 && IsInterim(trans.resp[..]) {
        return Again;
      }
      status := if waitErr != 0 then Done(waitErr, None) else Done(0, Some(trans.length));
      Remove(trans);
      trans.resp := null;
      trans.length := 0;
    }
  }
}

=== FILE: fcp_protocol.dfy ===
/**
 * The Function Control Protocol of IEC 61883-1 as both FCP implementations use it (src/fw_fcp.c,
 * src/fcp.c): AV/C command frames are written to the target's command register, response frames
 * arrive in the local response register, and a response is paired with the pending command whose
 * subunit address and opcode (bytes 1 and 2) it repeats.
 */
module FcpProtocol {
  import opened Ieee1394
  import opened Outcomes

  const COMMAND_ADDR: nat := 0xfffff0000b00
  const RESPONSE_ADDR: nat := 0xfffff0000d00
  const MAXIMUM_FRAME_BYTES: nat := 0x200

  /** AV/C command types (ctype) in byte 0 of a command. */
  const AVC_TYPE_CONTROL: Byte := 0x00
  const AVC_TYPE_STATUS: Byte := 0x01
  const AVC_TYPE_SPECIFIC_INQUIRY: Byte := 0x02
  const AVC_TYPE_NOTIFY: Byte := 0x03
  const AVC_TYPE_GENERAL_INQUIRY: Byte := 0x04

  /** AV/C response codes in byte 0 of a response. */
  const AVC_STATUS_NOT_IMPLEMENTED: Byte := 0x08
  const AVC_STATUS_ACCEPTED: Byte := 0x09
  const AVC_STATUS_REJECTED: Byte := 0x0a
  const AVC_STATUS_IN_TRANSITION: Byte := 0x0b
  const AVC_STATUS_IMPLEMENTED_STABLE: Byte := 0x0c
  const AVC_STATUS_CHANGED: Byte := 0x0d
  const AVC_STATUS_INTERIM: Byte := 0x0f

  /** A response answers a command when it repeats the command's subunit address and opcode. */
  predicate Answers(command: seq<Byte>, response: seq<Byte>)
    requires |command| >= 3 && |response| >= 3
  {
    command[1] == response[1] && command[2] == response[2]
  }

  /** An INTERIM response promises the final one later. */
  predicate IsInterim(response: seq<Byte>)
  {
    |response| > 0 && response[0] == AVC_STATUS_INTERIM
  }

  /** The position of the first pending command, newest first, that the response answers. */
  function FirstAnswered(commands: seq<seq<Byte>>, response: seq<Byte>): (r: Option<nat>)
    requires |response| >= 3
    requires forall i :: 0 <= i < |commands| ==> |commands[i]| >= 3
    ensures r.Some? ==> r.value < |commands| && Answers(commands[r.value], response)
    ensures r.Some? ==> forall j :: 0 <= j < r.value ==> !Answers(commands[j], response)
    ensures r.None? <==> forall j :: 0 <= j < |commands| ==> !Answers(commands[j], response)
  {
    if |commands| == 0 then None
    else if Answers(commands[0], response) then Some(0)
    else match FirstAnswered(commands[1..], response)
      case None => None
      case Some(i) => Some(i + 1)
  }

  /** A newly prepended command that the response answers wins over every older one. */
  lemma NewestAnswered(command: seq<Byte>, commands: seq<seq<Byte>>, response: seq<Byte>)
    requires |response| >= 3 && |command| >= 3
    requires forall i :: 0 <= i < |commands| ==> |commands[i]| >= 3
    requires Answers(command, response)
    ensures FirstAnswered([command] + commands, response) == Some(0)
  {
  }

  /** A prepended command the response does not answer only shifts the older match by one. */
  lemma {:induction false} OlderAnswered(command: seq<Byte>, commands: seq<seq<Byte>>, response: seq<Byte>)
    requires |response| >= 3 && |command| >= 3
    requires forall i :: 0 <= i < |commands| ==> |commands[i]| >= 3
    requires !Answers(command, response)
    ensures var r := FirstAnswered(commands, response);
      FirstAnswered([command] + commands, response) == if r.None? then None else Some(r.value + 1)
  {
    assert ([command] + commands)[1..] == commands;
  }
}

=== FILE: fw.dfy ===
/**
 * The first, pthread-based FireWire layer (src/fw.c): a unit that listens through an epoll
 * reactant, requests that wait on a condition variable, and responders whose callback fills the
 * response. Each system call, allocation and wait is a parameter of the method that makes it.
 */
module Fw {
  import opened Ieee1394
  import opened Outcomes
  import opened AsyncRequest
  import FwReq
  import FwResp

  /** The size of the event buffer listen allocates. */
  const EVENT_BUFFER_BYTES: nat := 2048

  /** The handlers of the event table, indexed by event type. */
  datatype Handler = UpdateHandler | ResponseHandler | RequestHandler

  /** The event table: slots for BUS_RESET, RESPONSE and REQUEST2 filled, the others empty. */
  const HANDLERS: seq<Option<Handler>> :=
    [Some(UpdateHandler), Some(ResponseHandler), None, None, None, None, Some(RequestHandler)]

  /** The handler for an event type: none outside the table or in an empty slot. */
  function HandlerFor(eventType: nat): Option<Handler>
  {
    if eventType >= |HANDLERS| then None else HANDLERS[eventType]
  }

  /** Only the three filled slots dispatch; every other type, in or past the table, is ignored. */
  lemma HandlerTable(eventType: nat)
    ensures HandlerFor(eventType) == Some(UpdateHandler) <==> eventType == FW_CDEV_EVENT_BUS_RESET
    ensures HandlerFor(eventType) == Some(ResponseHandler) <==> eventType == FW_CDEV_EVENT_RESPONSE
    ensures HandlerFor(eventType) == Some(RequestHandler) <==> eventType == FW_CDEV_EVENT_REQUEST2
    ensures HandlerFor(eventType).None? <==> eventType !in {0, 1, 6}
  {
  }

  /** What the request handler reads of a responder: whether it has a callback, and its region length. */
  datatype RespondView = RespondView(hasCallback: bool, length: nat)

  /**
   * What a responder callback leaves behind: the handler's error variable (None when the callback
   * does not write it), its length variable, and the contents of the payload buffer it was given.
   */
  datatype CallbackResult = CallbackResult(err: Option<int>, length: nat, data: seq<Byte>)

  /** The error the handler reads after the callback: what the callback wrote, or else the variable's stale value. */
  function ErrorAfter(result: CallbackResult, stale: int): int
  {
    if result.err.Some? then result.err.value else stale
  }

  /**
   * The response to `event` (IEEE 1394 response codes), `stale` being whatever the never-initialised
   * error variable holds. No responder or no callback gives ADDRESS_ERROR, a request longer than
   * the region CONFLICT_ERROR; otherwise the callback runs on the payload and the request length,
   * and the error it leaves decides DATA_ERROR or COMPLETE, sent with the length and the buffer
   * the callback leaves. The two early answers send the request's own bytes and a length variable
   * never assigned (None).
   */
  function HandleRequest(resp: Option<RespondView>, event: FwResp.Request2,
                         callback: (seq<Byte>, nat) -> CallbackResult, stale: int): (r: FwResp.Response)
    ensures r.rcode == AddressError <==> resp.None? || !resp.value.hasCallback
    ensures r.rcode == ConflictError <==>
      resp.Some? && resp.value.hasCallback && resp.value.length < event.length
    ensures r.rcode == DataError <==>
      resp.Some? && resp.value.hasCallback &&
      event.length <= resp.value.length && ErrorAfter(callback(event.data, event.length), stale) != 0
    ensures r.rcode == Complete <==>
      resp.Some? && resp.value.hasCallback &&
      event.length <= resp.value.length && ErrorAfter(callback(event.data, event.length), stale) == 0
    ensures r.length.Some? <==> r.rcode in {DataError, Complete}
    ensures r.length.Some? ==> r.length.value == callback(event.data, event.length).length
    ensures r.length.Some? ==> r.data == callback(event.data, event.length).data
    ensures r.length.None? ==> r.data == event.data
    ensures r.handle == event.handle
  {
    if resp.None? || !resp.value.hasCallback then FwResp.Response(AddressError, None, event.data, event.handle)
    else if resp.value.length < event.length then FwResp.Response(ConflictError, None, event.data, event.handle)
    else
      var result := callback(event.data, event.length);
      var rcode := if ErrorAfter(result, stale) != 0 then DataError else Complete;
      FwResp.Response(rcode, Some(result.length), result.data, event.handle)
  }

  /**
   * As written, a callback that leaves the error unwritten, as the FCP responder does after a
   * successful copy, gets COMPLETE or DATA_ERROR according to the stale value alone.
   */
  lemma StaleErrorDecides(resp: RespondView, event: FwResp.Request2, callback: (seq<Byte>, nat) -> CallbackResult)
    requires resp.hasCallback && event.length <= resp.length
    requires callback(event.data, event.length).err.None?
    ensures HandleRequest(Some(resp), event, callback, 0).rcode == Complete
    ensures HandleRequest(Some(resp), event, callback, EAGAIN).rcode == DataError
  {
  }

  /**
   * The handler with its error variable cleared before the callback: DATA_ERROR exactly when the
   * callback reports an error, so a callback that reports nothing is answered COMPLETE.
   */
  function HandleRequestInitialised(resp: Option<RespondView>, event: FwResp.Request2,
                                    callback: (seq<Byte>, nat) -> CallbackResult): (r: FwResp.Response)
    ensures r.rcode == DataError <==>
      resp.Some? && resp.value.hasCallback && event.length <= resp.value.length &&
      callback(event.data, event.length).err.Some? && callback(event.data, event.length).err.value != 0
    ensures (resp.Some? && resp.value.hasCallback && event.length <= resp.value.length &&
             callback(event.data, event.length).err.None?) ==> r.rcode == Complete
    ensures r.length.Some? ==> r.data == callback(event.data, event.length).data
  {
    HandleRequest(resp, event, callback, 0)
  }

  /** A unit of the first API. */
  class FwUnit {
    var fd: int
    var generation: nat
    var listening: bool
    var hasBuf: bool
    var length: nat
    var reactant: bool
    var fcpRegistered: bool

    constructor (fd: int)
      ensures this.fd == fd && generation == 0 && !listening && !hasBuf && length == 0
      ensures !reactant && !fcpRegistered
    {
      this.fd := fd;
      generation := 0;
      listening := false;
      hasBuf := false;
      length := 0;
      reactant := false;
      fcpRegistered := false;
    }

    /**
     * Start listening. The parameters are the outcomes of the buffer allocation, reactant creation,
     * reactant registration, the FCP responder set-up, and the GET_INFO ioctl that reports the
     * current bus generation. An already listening unit does nothing and reports nothing; `err`
     * None means the caller's error variable is left as it was. A failure after the reactant was
     * created takes back the reactant (and the FCP responder) but leaves the buffer allocated.
     */
    method Listen(alloc: IoResult, create: IoResult, add: IoResult, fcp: IoResult, info: Result<nat>)
      returns (err: Option<int>)
      modifies this`listening, this`hasBuf, this`length, this`reactant, this`fcpRegistered, this`generation
      ensures old(listening) ==> err.None? && unchanged(this)
      ensures !old(listening) && alloc.IoOk? && create.IoOk? && add.IoOk? && fcp.IoOk? && info.Ok? ==>
        err.None? && listening && generation == info.value && hasBuf && length == EVENT_BUFFER_BYTES &&
        reactant && fcpRegistered
      ensures !old(listening) && alloc.IoFail? ==> err == Some(alloc.errno) && !listening
      ensures !old(listening) && alloc.IoOk? && create.IoFail? ==> err == Some(create.errno) && !listening && !hasBuf
      ensures !old(listening) && alloc.IoOk? && create.IoOk? && add.IoFail? ==>
        err == Some(add.errno) && !listening && !reactant && hasBuf && length == EVENT_BUFFER_BYTES
      ensures !old(listening) && alloc.IoOk? && create.IoOk? && add.IoOk? && fcp.IoFail? ==>
        err == Some(fcp.errno) && !listening && !reactant && hasBuf && length == EVENT_BUFFER_BYTES
      ensures !old(listening) && alloc.IoOk? && create.IoOk? && add.IoOk? && fcp.IoOk? && info.Fail? ==>
        err == Some(info.errno) && !listening && !reactant && !fcpRegistered && hasBuf && length == EVENT_BUFFER_BYTES
      ensures listening <==> old(listening) || err.None?
    {
      if listening {
        return None;
      }
      if alloc.IoFail? {
        return Some(alloc.errno);
      }
      hasBuf := true;
      length := EVENT_BUFFER_BYTES;
      if create.IoFail? {
        hasBuf := false;
        return Some(create.errno);
      }
      reactant := true;
      if add.IoFail? {
        reactant := false;
        return Some(add.errno);
      }
      if fcp.IoFail? {
        reactant := false;
        return Some(fcp.errno);
      }
      fcpRegistered := true;
      if info.Fail? {
        fcpRegistered := false;
        reactant := false;
        return Some(info.errno);
      }
      listening := true;
      generation := info.value;
      err := None;
    }

    /** Stop listening: the flag is cleared and the reactant and buffer released; the FCP responder stays. */
    method Unlisten()
      modifies this`listening, this`reactant, this`hasBuf
      ensures !listening && !reactant && !hasBuf
    {
      listening := false;
      reactant := false;
      hasBuf := false;
    }

    /** A bus reset whose closure is this unit records the new generation. */
    method HandleUpdate(eventGeneration: nat)
      modifies this`generation
      ensures generation == eventGeneration
    {
      generation := eventGeneration;
    }

    /**
     * One readiness notification: nothing happens unless the reactant reports the descriptor
     * readable and the read succeeds; then the event's type selects a handler from the table.
     */
    method HandleEvents(readable: bool, read: IoResult, eventType: nat) returns (h: Option<Handler>)
      ensures !readable || read.IoFail? ==> h.None?
      ensures readable && read.IoOk? ==> h == HandlerFor(eventType)
      ensures h.Some? ==> eventType in {FW_CDEV_EVENT_BUS_RESET, FW_CDEV_EVENT_RESPONSE, FW_CDEV_EVENT_REQUEST2}
    {
      if !readable || read.IoFail? {
        return None;
      }
      HandlerTable(eventType);
      h := HandlerFor(eventType);
    }
  }

  /** A requester of the first API. */
  class FwRequest {
    var buf: array?<Byte>
    var length: nat

    ghost predicate Valid()
      reads this
    {
      buf != null ==> length <= buf.Length
    }

    constructor ()
      ensures buf == null && length == 0
    {
      buf := null;
      length := 0;
    }

    /**
     * One transaction. The tcode choice is the same as the GObject requester's. A failed send
     * returns its errno and leaves the response destination set; once the wait has run (its result,
     * 0 or an errno, is `waitErr`), the destination is cleared on every path.
     */
    method Run(unit: FwUnit, kind: RequestKind, addr: nat, buffer: array<Byte>, len: nat,
               send: IoResult, waitErr: int)
      returns (err: int, sent: Option<FwReq.SendRequest>)
      requires len <= buffer.Length
      modifies this
      ensures SelectTcode(kind, len).Fail? ==> err == EINVAL && sent.None? && buf == old(buf) && length == old(length)
      ensures SelectTcode(kind, len).Ok? ==>
        sent == Some(FwReq.SendRequest(SelectTcode(kind, len).value, len, addr, unit.generation,
                                       if kind == RequestKind.Read then None else Some(buffer[..len])))
      ensures SelectTcode(kind, len).Ok? && send.IoFail? ==>
        err == send.errno && buf == (if kind == RequestKind.Read then buffer else null) &&
        length == (if kind == RequestKind.Read then len else 0)
      ensures SelectTcode(kind, len).Ok? && send.IoOk? ==> err == waitErr && buf == null && length == 0
      ensures old(Valid()) ==> Valid()
    {
      var tcode := SelectTcode(kind, len);
      if tcode.Fail? {
        return EINVAL, None;
      }
      var data: Option<seq<Byte>>;
      if kind == RequestKind.Read {
        buf := buffer;
        length := len;
        data := None;
      } else {
        buf := null;
        length := 0;
        data := Some(buffer[..len]);
      }
      sent := Some(FwReq.SendRequest(tcode.value, len, addr, unit.generation, data));
      if send.IoFail? {
        return send.errno, sent;
      }
      err := waitErr;
      buf := null;
      length := 0;
    }

    /** The response handler: the payload is copied only when it is non-empty and exactly the expected length. */
    method HandleResponse(payload: seq<Byte>) returns (copied: bool)
      requires Valid()
      modifies if buf != null then {buf} else {}
      ensures copied <==> buf != null && |payload| > 0 && length == |payload|
      ensures copied ==> buf[..] == payload + old(buf[|payload|..])
      ensures !copied && buf != null ==> buf[..] == old(buf[..])
    {
      copied := buf != null && |payload| > 0 && length == |payload|;
      if copied {
        CopyInto(buf, payload);
      }
    }
  }

  /** A responder of the first API. */
  class FwRespond {
    const hasCallback: bool
    var fd: int
    var length: nat
    var addrHandle: nat

    constructor (hasCallback: bool)
      ensures this.hasCallback == hasCallback && fd == 0 && length == 0 && addrHandle == 0
    {
      this.hasCallback := hasCallback;
      fd := 0;
      length := 0;
      addrHandle := 0;
    }

    function View(): RespondView
      reads this
    {
      RespondView(hasCallback, length)
    }

    /**
     * Reserve `len` bytes at `addr` on the unit's descriptor. `granted` is the ALLOCATE ioctl's
     * outcome: the handle of the region, or an errno. Only success updates the responder.
     */
    method Register(unit: FwUnit, addr: nat, len: nat, granted: Result<nat>)
      returns (err: Option<int>, asked: FwResp.Allocate)
      requires addr < FwResp.U64_MODULUS && len < 0x1_0000_0000
      modifies this`fd, this`length, this`addrHandle
      ensures asked == FwResp.Allocate(addr, len, (addr + len) % FwResp.U64_MODULUS)
      ensures granted.Fail? ==> err == Some(granted.errno) && unchanged(this)
      ensures granted.Ok? ==> err.None? && fd == unit.fd && length == len && addrHandle == granted.value
    {
      asked := FwResp.Allocate(addr, len, (addr + len) % FwResp.U64_MODULUS);
      if granted.Fail? {
        return Some(granted.errno), asked;
      }
      fd := unit.fd;
      length := len;
      addrHandle := granted.value;
      err := None;
    }
  }
}

=== FILE: fw_fcp.dfy ===
/**
 * HinawaFwFcp (src/fw_fcp.c): AV/C transactions over FCP with GObject requesters and responders.
 * A transaction is split where the source blocks: Begin validates and sends the command and leaves
 * the transaction pending; HandleResponse is the responder callback that fills a pending one; Await
 * is one wait, after which the transaction is finished and removed.
 */
module FwFcp {
  import opened Ieee1394
  import opened Outcomes
  import opened FcpProtocol
  import opened Lists

  /** A GArray as the caller passes it: its element size and its bytes. */
  datatype ByteArray = ByteArray(elementSize: nat, data: seq<Byte>)

  /** The request copied into an array of whole quadlets: the bytes unchanged, then zeros to the quadlet end. */
  function PadToQuadlets(frame: seq<Byte>): (r: seq<Byte>)
    ensures |r| == (|frame| + 3) / 4 * 4
    ensures |frame| <= |r| < |frame| + 4 && |r| % 4 == 0
    ensures r[..|frame|] == frame
    ensures forall i :: |frame| <= i < |r| ==> r[i] == 0
  {
    frame + seq((|frame| + 3) / 4 * 4 - |frame|, _ => 0 as Byte)
  }

  /** The first byte as the source reads it from a char array: a signed char promoted to int. */
  function SignedChar(b: Byte): (v: int)
    ensures -128 <= v < 128
  {
    if b < 0x80 then b as int else b as int - 256
  }

  /** The INTERIM test as written: the signed first byte shifted right by 24 bits, compared with 0x0f. */
  predicate InterimAsWritten(response: seq<Byte>)
    requires |response| > 0
  {
    SignedChar(response[0]) / 0x100_0000 == AVC_STATUS_INTERIM as int
  }

  /** Shifting a byte right by 24 leaves 0 or -1, so an INTERIM response is never recognised. */
  lemma InterimNeverRecognised(response: seq<Byte>)
    requires |response| > 0
    ensures !InterimAsWritten(response)
    ensures IsInterim([AVC_STATUS_INTERIM]) && !InterimAsWritten([AVC_STATUS_INTERIM])
  {
    var v := SignedChar(response[0]);
    assert v / 0x100_0000 == 0 || v / 0x100_0000 == -1;
  }

  /** A pending transaction: the padded request, which never changes, and the response built up so far. */
  class Pending {
    const reqFrame: seq<Byte>
    var respFrame: seq<Byte>

    constructor (reqFrame: seq<Byte>)
      ensures this.reqFrame == reqFrame && respFrame == []
    {
      this.reqFrame := reqFrame;
      respFrame := [];
    }
  }

  /** The request frames of the pending list, in list order. */
  function Requests(ts: seq<Pending>): (r: seq<seq<Byte>>)
    ensures |r| == |ts| && forall i :: 0 <= i < |ts| ==> r[i] == ts[i].reqFrame
  {
    seq(|ts|, i requires 0 <= i < |ts| => ts[i].reqFrame)
  }

  /** Both frames present and byte arrays, and the request no longer than an FCP frame. */
  predicate FramesAccepted(request: Option<ByteArray>, response: Option<ByteArray>)
  {
    request.Some? && response.Some? && request.value.elementSize == 1 &&
    response.value.elementSize == 1 && |request.value.data| <= MAXIMUM_FRAME_BYTES
  }

  class FwFcp {
    /** Whether a responder is registered at the response address (the responder field is set). */
    var listening: bool
    var transactions: seq<Pending>

    ghost predicate Valid()
      reads this, transactions
    {
      (forall i :: 0 <= i < |transactions| ==> |transactions[i].reqFrame| >= 4) &&
      (forall i :: 0 <= i < |transactions| ==> |transactions[i].respFrame| % 4 == 0)
    }

    constructor ()
      ensures !listening && transactions == [] && Valid()
    {
      listening := false;
      transactions := [];
    }

    /**
     * Start a transaction. Either frame missing or not a byte array, or a request over 0x200 bytes,
     * is EINVAL and changes nothing, as does a failure to create the requester (`requester`). The
     * request is padded to quadlets and the new transaction goes to the head of the list; if the
     * write fails it is removed again. `written` is the exception the write raises for a request
     * of at least one quadlet; one of none is EINVAL, as the requester refuses it.
     */
    method Begin(request: Option<ByteArray>, response: Option<ByteArray>, requester: IoResult, written: Option<int>)
      returns (exc: Option<int>, trans: Pending?)
      requires Valid()
      modifies this`transactions
      ensures Valid()
      ensures !FramesAccepted(request, response) ==>
        exc == Some(EINVAL) && trans == null && transactions == old(transactions)
      ensures exc.None? <==> trans != null
      ensures trans != null ==>
        fresh(trans) && trans.reqFrame == PadToQuadlets(request.value.data) && trans.respFrame == [] &&
        transactions == [trans] + old(transactions) && written.None?
      ensures trans == null ==> transactions == old(transactions)
      ensures trans == null && exc != Some(EINVAL) && requester.IoOk? ==> exc == written
      ensures requester.IoOk? && request.Some? && |request.value.data| == 0 ==> exc == Some(EINVAL) && trans == null
      ensures FramesAccepted(request, response) && requester.IoFail? ==>
        exc == Some(requester.errno) && trans == null
      ensures FramesAccepted(request, response) && requester.IoOk? && |request.value.data| > 0 ==>
        exc == written && (trans != null <==> written.None?)
    {
      if !FramesAccepted(request, response) {
        return Some(EINVAL), null;
      }
      if requester.IoFail? {
        return Some(requester.errno), null;
      }
      var t := new Pending(PadToQuadlets(request.value.data));
      transactions := [t] + transactions;
      // A request of no quadlets is refused by the requester's write with EINVAL.
      var e := if |t.reqFrame| == 0 then Some(EINVAL) else written;
      if e.Some? {
        transactions := Without(transactions, t);
        WithoutInsertedHead(old(transactions), t);
        return e, null;
      }
      exc, trans := None, t;
    }

    /**
     * The responder callback. The newest pending transaction whose request the response answers
     * gets the response's quadlets in front of what it holds; with none, the result is an error and
     * nothing changes.
     */
    method HandleResponse(response: seq<Byte>) returns (error: bool, matched: Option<nat>)
      requires |response| >= 4 && |response| % 4 == 0
      requires Valid()
      modifies set i | 0 <= i < |transactions| :: transactions[i]
      ensures Valid()
      ensures matched == FirstAnswered(Requests(transactions), response)
      ensures error <==> matched.None?
      ensures matched.Some? ==> transactions[matched.value].respFrame == response + old(transactions[matched.value].respFrame)
      ensures matched.None? ==> forall i :: 0 <= i < |transactions| ==>
        transactions[i].respFrame == old(transactions[i].respFrame)
      ensures matched.Some? ==> forall i :: 0 <= i < |transactions| && transactions[i] != transactions[matched.value] ==>
        transactions[i].respFrame == old(transactions[i].respFrame)
    {
      var requests := Requests(transactions);
      var i := 0;
      while i < |transactions| && !Answers(requests[i], response)
        invariant 0 <= i <= |transactions|
        invariant forall j :: 0 <= j < i ==> !Answers(requests[j], response)
      {
        i := i + 1;
      }
      if i == |transactions| {
        return true, None;
      }
      var t := transactions[i];
      t.respFrame := response + t.respFrame;
      error, matched := false, Some(i);
    }

    /**
     * One wait of a pending transaction. A wait past its deadline removes it with ETIMEDOUT.
     * Otherwise the INTERIM test is made as written, and it never holds (InterimNeverRecognised):
     * every response, INTERIM or not, removes the transaction and gives the caller every quadlet
     * received, as bytes.
     */
    method Await(trans: Pending, wait: WaitResult) returns (exc: Option<int>, response: Option<seq<Byte>>)
      requires trans in transactions && Valid()
      modifies this`transactions
      ensures Valid()
      ensures transactions == Without(old(transactions), trans)
      ensures wait == Expired ==> exc == Some(ETIMEDOUT) && response.None?
      ensures wait == Woken ==> exc.None? && response == Some(trans.respFrame)
      ensures response.Some? ==> |response.value| == |trans.respFrame| / 4 * 4
    {
      if wait == Expired {
        transactions := Without(transactions, trans);
        return Some(ETIMEDOUT), None;
      }
      if |trans.respFrame| > 0 && InterimAsWritten(trans.respFrame) {
        assert false;
      }
      assert trans.respFrame == transactions[IndexOf(transactions, trans)].respFrame;
      transactions := Without(transactions, trans);
      exc, response := None, Some(trans.respFrame);
    }

    /** Register the responder at the response address; a failure at either step leaves the object as it was. */
    method Listen(created: IoResult, registered: IoResult) returns (exc: Option<int>)
      modifies this`listening, this`transactions
      ensures created.IoFail? ==> exc == Some(created.errno) && unchanged(this)
      ensures created.IoOk? && registered.IoFail? ==> exc == Some(registered.errno) && unchanged(this)
      ensures created.IoOk? && registered.IoOk? ==> exc.None? && listening && transactions == []
    {
      if created.IoFail? {
        return Some(created.errno);
      }
      if registered.IoFail? {
        return Some(registered.errno);
      }
      transactions := [];
      listening := true;
      exc := None;
    }

    /** Unregister the responder and forget it. */
    method Unlisten()
      modifies this`listening
      ensures !listening
    {
      listening := false;
    }

    /** Disposal unlistens only while a responder is set. */
    method Dispose() returns (unlistened: bool)
      modifies this`listening
      ensures unlistened == old(listening) && !listening
    {
      unlistened := listening;
      if listening {
        Unlisten();
      }
    }
  }
}

=== FILE: fw_req.dfy ===
/**
 * HinawaFwReq (src/fw_req.c): sends one asynchronous read, write or compare-swap request through a
 * unit and waits a short time for the response, which the unit's event routing hands to
 * HandleResponse. The send ioctl and the wait are parameters.
 */
module FwReq {
  import opened Ieee1394
  import opened Outcomes
  import opened AsyncRequest
  import FwUnit

  /** The request handed to the SEND_REQUEST ioctl; `data` is the payload, absent for a read. */
  datatype SendRequest = SendRequest(tcode: Tcode, length: nat, offset: int, generation: nat, data: Option<seq<Byte>>)

  /** The error code a transaction ends with: EINVAL for a length the tcode choice refuses, the
   *  send's errno, ETIMEDOUT when no response came in time, otherwise 0. */
  function Outcome(kind: RequestKind, length: nat, send: IoResult, wait: WaitResult): int
  {
    if SelectTcode(kind, length).Fail? then EINVAL
    else if send.IoFail? then send.errno
    else if wait == Expired then ETIMEDOUT
    else 0
  }

  /** A transaction succeeds exactly when the length is accepted, the send succeeds and the response comes in time. */
  lemma OutcomeZero(kind: RequestKind, length: nat, send: IoResult, wait: WaitResult)
    requires send.IoFail? ==> send.errno > 0
    ensures Outcome(kind, length, send, wait) == 0 <==>
      SelectTcode(kind, length).Ok? && send.IoOk? && wait == Woken
    ensures Outcome(kind, length, send, wait) >= 0
  {
  }

  /** A gint length as the guint the transaction receives: negative values wrap modulo 2^32. */
  function GuintOf(len: int): (r: nat)
    requires -0x8000_0000 <= len < 0x8000_0000
    ensures r < 0x1_0000_0000
    ensures r % 0x1_0000_0000 == len % 0x1_0000_0000
    ensures 0 <= len ==> r == len
  {
    if len < 0 then len + 0x1_0000_0000 else len
  }

  class FwReq {
    /** Where a read's response goes, and how many bytes it may hold; null and 0 otherwise. */
    var buf: array?<Byte>
    var len: nat

    ghost predicate Valid()
      reads this
    {
      buf != null ==> len <= buf.Length
    }

    constructor ()
      ensures buf == null && len == 0 && Valid()
    {
      buf := null;
      len := 0;
    }

    /**
     * One transaction of `length` bytes at `addr` on `unit`. A read records the caller's buffer as
     * the response destination; a write or compare-swap clears it and sends the buffer's bytes.
     * The request is stamped with the unit's current generation. An invalid length sends nothing
     * and changes nothing.
     */
    method Transact(unit: FwUnit.FwUnit, kind: RequestKind, addr: int, buffer: array<Byte>, length: nat,
                    send: IoResult, wait: WaitResult)
      returns (err: int, sent: Option<SendRequest>)
      requires length <= buffer.Length
      modifies this
      ensures err == Outcome(kind, length, send, wait)
      ensures SelectTcode(kind, length).Fail? ==> sent.None? && buf == old(buf) && len == old(len)
      ensures SelectTcode(kind, length).Ok? ==>
        sent == Some(SendRequest(SelectTcode(kind, length).value, length, addr, unit.Generation(),
                                 if kind == RequestKind.Read then None else Some(buffer[..length])))
      ensures SelectTcode(kind, length).Ok? ==>
        buf == (if kind == RequestKind.Read then buffer else null) && len == (if kind == RequestKind.Read then length else 0)
      ensures old(Valid()) ==> Valid()
    {
      var tcode := SelectTcode(kind, length);
      if tcode.Fail? {
        return EINVAL, None;
      }
      var data: Option<seq<Byte>>;
      if kind == RequestKind.Read {
        buf := buffer;
        len := length;
        data := None;
      } else {
        buf := null;
        len := 0;
        data := Some(buffer[..length]);
      }
      sent := Some(SendRequest(tcode.value, length, addr, unit.Generation(), data));
      if send.IoFail? {
        err := send.errno;
      } else if wait == Expired {
        err := ETIMEDOUT;
      } else {
        err := 0;
      }
    }

    /** The response handler: the payload is copied only into a recorded destination large enough for it. */
    method HandleResponse(payload: seq<Byte>) returns (copied: bool)
      requires Valid()
      modifies if buf != null then {buf} else {}
      ensures copied <==> buf != null && len >= |payload|
      ensures copied ==> buf[..] == payload + old(buf[|payload|..])
      ensures !copied && buf != null ==> buf[..] == old(buf[..])
    {
      copied := buf != null && len >= |payload|;
      if copied {
        CopyInto(buf, payload);
      }
    }

    /** The three public calls: each raises an error carrying the code exactly when the code is not 0. */
    method Write(unit: FwUnit.FwUnit, addr: int, buffer: array<Byte>, length: int, send: IoResult, wait: WaitResult)
      returns (exc: Option<int>)
      requires -0x8000_0000 <= length < 0x8000_0000 && GuintOf(length) <= buffer.Length
      modifies this
      ensures var err := Outcome(RequestKind.Write, GuintOf(length), send, wait); exc == if err != 0 then Some(err) else None
      ensures SelectTcode(RequestKind.Write, GuintOf(length)).Fail? ==> buf == old(buf) && len == old(len)
      ensures SelectTcode(RequestKind.Write, GuintOf(length)).Ok? ==> buf == null && len == 0
      ensures old(Valid()) ==> Valid()
    {
      var err, _ := Transact(unit, RequestKind.Write, addr, buffer, GuintOf(length), send, wait);
      exc := if err != 0 then Some(err) else None;
    }

    method Read(unit: FwUnit.FwUnit, addr: int, buffer: array<Byte>, length: int, send: IoResult, wait: WaitResult)
      returns (exc: Option<int>)
      requires -0x8000_0000 <= length < 0x8000_0000 && GuintOf(length) <= buffer.Length
      modifies this
      ensures var err := Outcome(RequestKind.Read, GuintOf(length), send, wait); exc == if err != 0 then Some(err) else None
      ensures SelectTcode(RequestKind.Read, GuintOf(length)).Fail? ==> buf == old(buf) && len == old(len)
      ensures SelectTcode(RequestKind.Read, GuintOf(length)).Ok? ==> buf == buffer && len == GuintOf(length)
      ensures old(Valid()) ==> Valid()
    {
      var err, _ := Transact(unit, RequestKind.Read, addr, buffer, GuintOf(length), send, wait);
      exc := if err != 0 then Some(err) else None;
    }

    method CompareSwap(unit: FwUnit.FwUnit, addr: int, buffer: array<Byte>, length: int, send: IoResult, wait: WaitResult)
      returns (exc: Option<int>)
      requires -0x8000_0000 <= length < 0x8000_0000 && GuintOf(length) <= buffer.Length
      modifies this
      ensures var err := Outcome(RequestKind.CompareSwap, GuintOf(length), send, wait); exc == if err != 0 then Some(err) else None
      ensures SelectTcode(RequestKind.CompareSwap, GuintOf(length)).Fail? ==> buf == old(buf) && len == old(len)
      ensures SelectTcode(RequestKind.CompareSwap, GuintOf(length)).Ok? ==> buf == null && len == 0
      ensures old(Valid()) ==> Valid()
    {
      var err, _ := Transact(unit, RequestKind.CompareSwap, addr, buffer, GuintOf(length), send, wait);
      exc := if err != 0 then Some(err) else None;
    }
  }

  /**
   * A read whose response arrives while it waits: the unit hands the response to the requester
   * between the send and the wake-up. No response comes for a refused length or a failed send; otherwise
   * the caller's own buffer receives the payload exactly when it fits the length asked for.
   */
  method ReadWithResponse(q: FwReq, unit: FwUnit.FwUnit, addr: int, buffer: array<Byte>, length: int,
                          send: IoResult, payload: seq<Byte>)
    returns (exc: Option<int>, copied: bool)
    requires q.Valid()
    requires -0x8000_0000 <= length < 0x8000_0000 && GuintOf(length) <= buffer.Length
    modifies q, buffer
    ensures var err := Outcome(RequestKind.Read, GuintOf(length), send, Woken); exc == if err != 0 then Some(err) else None
    ensures copied <==> SelectTcode(RequestKind.Read, GuintOf(length)).Ok? && send.IoOk? && |payload| <= GuintOf(length)
    ensures copied ==> buffer[..] == payload + old(buffer[|payload|..])
    ensures !copied ==> buffer[..] == old(buffer[..])
  {
    exc := q.Read(unit, addr, buffer, length, send, Woken);
    if SelectTcode(RequestKind.Read, GuintOf(length)).Ok? && send.IoOk? {
      copied := q.HandleResponse(payload);
    } else {
      copied := false;
    }
  }
}

=== FILE: fw_resp.dfy ===
/**
 * HinawaFwResp (src/fw_resp.c): reserves a range of the local node's address space and answers the
 * requests other nodes send into it. The ALLOCATE ioctl is a parameter.
 */
module FwResp {
  import opened Ieee1394
  import opened Outcomes

  const U64_MODULUS: nat := 0x1_0000_0000_0000_0000

  /** The region asked of the kernel (struct fw_cdev_allocate): [offset, regionEnd), `length` bytes. */
  datatype Allocate = Allocate(offset: nat, length: nat, regionEnd: nat)

  /** An incoming request (struct fw_cdev_event_request2), reduced to what the responder reads. */
  datatype Request2 = Request2(tcode: nat, offset: nat, length: nat, handle: nat, data: seq<Byte>)

  /**
   * The response sent back (struct fw_cdev_send_response). `length` is None where the source sends
   * a length variable it never assigned.
   */
  datatype Response = Response(rcode: Rcode, length: Option<nat>, data: seq<Byte>, handle: nat)

  /**
   * The response to `event` as written, for a responder of region width `width` (None: the event's
   * closure is null). `err` stands for the handler's local error variable, which is read without
   * ever being assigned: whatever the stack holds decides between DATA_ERROR and COMPLETE.
   * With a null closure the source answers ADDRESS_ERROR but then reads the descriptor through the
   * null object when it sends (src/fw_resp.c:139); the unit routes a REQUEST2 here only when its
   * closure is a responder (src/fw_unit.c:370-373), so that path is never taken.
   */
  function Respond(width: Option<nat>, event: Request2, err: int): (r: Response)
    ensures r.rcode == AddressError <==> width.None?
    ensures r.rcode == ConflictError <==> width.Some? && width.value < event.length
    ensures r.rcode == DataError <==> width.Some? && event.length <= width.value && err < 0
    ensures r.rcode == Complete <==> width.Some? && event.length <= width.value && err >= 0
    ensures r.rcode in {AddressError, ConflictError} <==> r.length.None?
    ensures r.length.Some? ==> r.length.value == event.length
    ensures r.data == event.data && r.handle == event.handle
  {
    if width.None? then Response(AddressError, None, event.data, event.handle)
    else if width.value < event.length then Response(ConflictError, None, event.data, event.handle)
    else Response(if err < 0 then DataError else Complete, Some(event.length), event.data, event.handle)
  }

  /** The same request inside the region can be answered DATA_ERROR or COMPLETE, by stack contents alone. */
  lemma UninitialisedErrorDecides()
    ensures var event := Request2(0, 0xffff_f000_0900, 4, 1, [0, 0, 0, 1]);
      Respond(Some(8), event, -1).rcode == DataError && Respond(Some(8), event, 0).rcode == Complete
  {
  }

  /**
   * The response with the handler's error initialised to 0, as the request signal gives the handler
   * no way to report one: a request inside the region is always answered COMPLETE.
   */
  function RespondInitialised(width: Option<nat>, event: Request2): (r: Response)
    ensures r.rcode != DataError
    ensures r.rcode == Complete <==> width.Some? && event.length <= width.value
    ensures r.rcode == Complete ==> r.length == Some(event.length)
    ensures r.data == event.data && r.handle == event.handle
  {
    Respond(width, event, 0)
  }

  /** What the ALLOCATE ioctl gives back: the length granted and the handle of the new region. */
  datatype Grant = Grant(length: nat, handle: nat)

  /**
   * The handle DEALLOCATE names once a register has been answered with `grant`, as written: register
   * never stores the granted handle, so the field keeps the 0 it had from the start.
   */
  function ReleasedAsWritten(grant: Grant): nat
  {
    0
  }

  /** The handle DEALLOCATE names when register keeps the handle the kernel grants. */
  function Released(grant: Grant): nat
  {
    grant.handle
  }

  /**
   * As written, unregistering after a grant of any handle but 0 names a region the responder does
   * not hold, and the region it was granted stays allocated.
   */
  lemma WrongRegionReleased(grant: Grant)
    requires grant.handle != 0
    ensures ReleasedAsWritten(grant) != grant.handle
    ensures Released(grant) == grant.handle
  {
  }

  /**
   * The regions the kernel holds after a register granted `grant` and the matching unregister, as
   * written: with a nonzero handle the granted region is still allocated.
   */
  lemma RegionLeaksAsWritten(held: set<nat>, grant: Grant)
    requires grant.handle != 0
    ensures grant.handle in (held + {grant.handle}) - {ReleasedAsWritten(grant)}
  {
  }

  /** With the granted handle kept, register followed by unregister leaves the kernel's regions as they were. */
  lemma ReleaseRestoresRegions(held: set<nat>, grant: Grant)
    requires grant.handle !in held
    ensures (held + {grant.handle}) - {Released(grant)} == held
  {
  }

  class FwResp {
    var fd: int
    var width: nat
    /** The handle field of the C structure, which nothing assigns. */
    var addrHandle: nat
    /** The handle the kernel granted to the last successful register, if any. */
    ghost var granted: Option<nat>

    ghost predicate Valid()
      reads this
    {
      addrHandle == 0
    }

    /** A responder on the descriptor of a unit. */
    constructor (unitFd: int)
      ensures fd == unitFd && width == 0 && granted.None? && Valid()
    {
      fd := unitFd;
      width := 0;
      addrHandle := 0;
      granted := None;
    }

    /**
     * Ask for `width` bytes at `addr`; the region end is computed in 64-bit unsigned arithmetic.
     * `grant` is the ALLOCATE ioctl's outcome: the length and handle the kernel grants, or an
     * errno. The granted length becomes the width; the handle is not kept.
     */
    method Register(addr: nat, regionWidth: nat, grant: Result<Grant>) returns (exc: Option<int>, asked: Allocate)
      requires addr < U64_MODULUS && regionWidth < 0x1_0000_0000
      requires Valid()
      modifies this`width, this`granted
      ensures Valid()
      ensures asked.offset == addr && asked.length == regionWidth
      ensures asked.regionEnd == (addr + regionWidth) % U64_MODULUS
      ensures addr + regionWidth < U64_MODULUS ==> asked.regionEnd - asked.offset == regionWidth
      ensures grant.Ok? ==> exc.None? && width == grant.value.length && granted == Some(grant.value.handle)
      ensures grant.Fail? ==> exc == Some(grant.errno) && width == old(width) && granted == old(granted)
    {
      asked := Allocate(addr, regionWidth, (addr + regionWidth) % U64_MODULUS);
      if grant.Fail? {
        exc := Some(grant.errno);
      } else {
        width := grant.value.length;
        granted := Some(grant.value.handle);
        exc := None;
      }
    }

    /**
     * Unregister asks the kernel to release the handle field, which is always 0: a region granted
     * under another handle is not the one released.
     */
    method Unregister() returns (released: nat)
      requires Valid()
      ensures released == 0
      ensures granted.Some? ==> released == ReleasedAsWritten(Grant(width, granted.value))
      ensures granted.Some? && granted.value != 0 ==> released != granted.value
    {
      released := addrHandle;
    }
  }
}

=== FILE: fw_transaction.dfy ===
/**
 * The standalone transaction helper (src/fw-transaction.c): a buffer that is both the payload of
 * read and write requests and the place events are read into by the helper's reactant. The send
 * ioctl, the read(2) and the condition-variable wait are parameters.
 */
module FwTransaction {
  import opened Ieee1394
  import opened Outcomes
  import opened AsyncRequest
  import FwReq
  import FwResp

  /** The handlers the event table holds. */
  datatype Handler = BusResetHandler | ResponseHandler | RequestHandler | Request2Handler

  /** The event table: ten slots, one per event type up to ISO_INTERRUPT_MULTICHANNEL. */
  const EVENT_HANDLERS: seq<Option<Handler>> := [
    Some(BusResetHandler), Some(ResponseHandler), Some(RequestHandler), None, None, None,
    Some(Request2Handler), None, None, None]

  /** The slot an event type selects as the table is indexed: past its end the read leaves the table. */
  datatype Slot = InTable(handler: Option<Handler>) | OutOfBounds

  function SlotAsWritten(eventType: nat): (s: Slot)
    ensures s.OutOfBounds? <==> eventType >= |EVENT_HANDLERS|
    ensures s.InTable? ==> s.handler == EVENT_HANDLERS[eventType]
  {
    if eventType < |EVENT_HANDLERS| then InTable(EVENT_HANDLERS[eventType]) else OutOfBounds
  }

  /** The event type is used as an index unchecked: a type of 10 or more reads past the table. */
  lemma TypePastTableReadsOutOfBounds(eventType: nat)
    requires eventType >= 10
    ensures SlotAsWritten(eventType).OutOfBounds?
  {
  }

  /** The table with its bound checked: a type past the end has no handler. */
  function HandlerFor(eventType: nat): (h: Option<Handler>)
    ensures eventType < |EVENT_HANDLERS| ==> SlotAsWritten(eventType) == InTable(h)
    ensures h.Some? <==> eventType in {FW_CDEV_EVENT_BUS_RESET, FW_CDEV_EVENT_RESPONSE,
                                       FW_CDEV_EVENT_REQUEST, FW_CDEV_EVENT_REQUEST2}
  {
    if eventType < |EVENT_HANDLERS| then EVENT_HANDLERS[eventType] else None
  }

  /** What a wait result becomes: a timeout or an interruption is -ETIMEDOUT, anything else 0. */
  function WaitOutcome(waitErr: int): (ret: int)
    ensures ret == 0 || ret == -ETIMEDOUT
    ensures ret == -ETIMEDOUT <==> waitErr in {ETIMEDOUT, EINTR}
  {
    if waitErr == ETIMEDOUT || waitErr == EINTR then -ETIMEDOUT else 0
  }

  /** The answer to a REQUEST2 the helper sends: COMPLETE with no payload, for the request's handle. */
  function Request2Response(handle: nat): FwResp.Response
  {
    FwResp.Response(Complete, Some(0), [], handle)
  }

  /** What a handler returns: 0, except REQUEST2, which returns the send ioctl's result (0 or -1). */
  function HandlerReturn(h: Handler, responseSent: IoResult): int
  {
    if h == Request2Handler && responseSent.IoFail? then -1 else 0
  }

  class Transaction {
    var buffer: array<Byte>
    var length: nat

    ghost predicate Valid()
      reads this
    {
      length <= buffer.Length
    }

    constructor (buffer: array<Byte>)
      ensures this.buffer == buffer && length == buffer.Length && Valid()
    {
      this.buffer := buffer;
      length := buffer.Length;
    }

    /**
     * A read or write request of `length` bytes at `addr`: zero quadlets is -EINVAL and nothing is
     * sent; otherwise the quadlet or block tcode is chosen, the buffer goes along as the payload and
     * the request carries the given generation. A failed send is -errno; after a send the wait's
     * result decides between -ETIMEDOUT and 0.
     */
    method Transfer(kind: RequestKind, addr: nat, generation: nat, send: IoResult, waitErr: int)
      returns (ret: int, sent: Option<FwReq.SendRequest>)
      requires kind != CompareSwap && Valid()
      ensures length / 4 == 0 ==> ret == -EINVAL && sent.None?
      ensures length / 4 > 0 ==>
        SelectTcode(kind, length).Ok? &&
        sent == Some(FwReq.SendRequest(SelectTcode(kind, length).value, length, addr, generation, Some(buffer[..length])))
      ensures length / 4 > 0 && send.IoFail? ==> ret == -send.errno
      ensures length / 4 > 0 && send.IoOk? ==> ret == WaitOutcome(waitErr)
    {
      var tcode := SelectTcode(kind, length);
      if tcode.Fail? {
        return -EINVAL, None;
      }
      sent := Some(FwReq.SendRequest(tcode.value, length, addr, generation, Some(buffer[..length])));
      if send.IoFail? {
        return -send.errno, sent;
      }
      ret := WaitOutcome(waitErr);
    }

    /** A response event for this request: the payload is copied only when non-empty and within the length. */
    method HandleResponse(payload: seq<Byte>) returns (copied: bool)
      requires Valid()
      modifies buffer
      ensures copied <==> |payload| > 0 && length >= |payload|
      ensures copied ==> buffer[..] == payload + old(buffer[|payload|..])
      ensures !copied ==> buffer[..] == old(buffer[..])
    {
      copied := |payload| > 0 && length >= |payload|;
      if copied {
        CopyInto(buffer, payload);
      }
    }

    /**
     * One readiness notification on the listening transaction. `read` is read(2)'s outcome: the
     * bytes of the event, which land at the front of the shared buffer, or an errno. `eventType`
     * and `handle` are the type and, for a REQUEST2, the request's handle that those bytes hold. A
     * failed read returns -errno and runs no handler. Otherwise the read length becomes the
     * transaction's length and the handler the table gives for the event type, if any, runs and
     * its result is returned; with none the read length is returned. The REQUEST2 handler, and only
     * it, answers the request.
     */
    method ReactantHandle(read: Result<seq<Byte>>, eventType: nat, handle: nat, responseSent: IoResult)
      returns (ret: int, invoked: Option<Handler>, answer: Option<FwResp.Response>)
      requires Valid()
      requires read.Ok? ==> |read.value| <= buffer.Length
      modifies this`length, buffer
      ensures Valid()
      ensures read.Fail? ==>
        ret == -read.errno && invoked.None? && length == old(length) && buffer[..] == old(buffer[..])
      ensures read.Ok? ==>
        length == |read.value| && buffer[..] == read.value + old(buffer[|read.value|..]) &&
        invoked == HandlerFor(eventType)
      ensures read.Ok? && invoked.None? ==> ret == |read.value|
      ensures invoked.Some? ==> ret == HandlerReturn(invoked.value, responseSent) && ret in {0, -1}
      ensures answer.Some? <==> invoked == Some(Request2Handler)
      ensures answer.Some? ==>
        answer.value.rcode == Complete && answer.value.length == Some(0) && answer.value.data == [] &&
        answer.value.handle == handle
    {
      answer := None;
      if read.Fail? {
        return -read.errno, None, None;
      }
      CopyInto(buffer, read.value);
      length := |read.value|;
      invoked := HandlerFor(eventType);
      if invoked.Some? {
        if invoked.value == Request2Handler {
          answer := Some(Request2Response(handle));
        }
        ret := HandlerReturn(invoked.value, responseSent);
      } else {
        ret := |read.value|;
      }
    }
  }
}

=== FILE: fw_unit.dfy ===
/**
 * HinawaFwUnit (src/fw_unit.c): a listener on a Linux FireWire character device. It keeps the
 * configuration ROM image and the latest bus-reset snapshot of the node, and while it listens it
 * reads events from the device and routes each to the object the kernel names as its closure.
 *
 * System calls are parameters: the result of open(2), of each GET_INFO ioctl and of each read(2)
 * is given to the method that makes the call.
 */
module FwUnit {
  import opened Ieee1394
  import opened Outcomes

  /** The bus-reset snapshot the kernel hands over (struct fw_cdev_event_bus_reset). */
  datatype BusReset = BusReset(
    closure: nat, nodeId: nat, localNodeId: nat, busManagerNodeId: nat,
    isoResourceManagerNodeId: nat, rootNodeId: nat, generation: nat)

  /** What a successful GET_INFO ioctl writes back: the ROM length, the ROM image and the bus state. */
  datatype InfoReply = InfoReply(romLength: nat, rom: seq<Byte>, busReset: BusReset)

  /** The three fields that together say whether the unit listens: the source, the buffer and its length. */
  datatype ListenState = ListenState(src: bool, buf: bool, len: nat)

  const NOT_LISTENING := ListenState(false, false, 0)

  /** The state unlisten leaves: nothing to do without a source, otherwise everything released. */
  function Unlistened(s: ListenState): (r: ListenState)
    ensures (!r.src && !r.buf && r.len == 0) || r == s
    ensures !s.src ==> r == s
  {
    if !s.src then s else NOT_LISTENING
  }

  /** Unlistening twice is unlistening once, and leaves a unit that does not listen. */
  lemma UnlistenIdempotent(s: ListenState)
    requires s.src ==> s.buf
    ensures Unlistened(Unlistened(s)) == Unlistened(s)
    ensures !Unlistened(s).src
  {
  }

  /** The object a kernel event carries as its closure. Responders and requesters are named by an id. */
  datatype Closure = UnitClosure(unit: FwUnit) | RespClosure(resp: nat) | ReqClosure(req: nat) | OtherClosure

  /** The common head of an event read from the device, with the bus-reset body when it is one. */
  datatype CdevEvent = CdevEvent(closure: Closure, eventType: nat, busReset: BusReset)

  /** Where check_src sends an event. */
  datatype Dispatch = Ignored | BusUpdate(unit: FwUnit) | ToResponder(resp: nat) | ToRequester(req: nat)

  /** The poll condition of the device's file descriptor. */
  datatype IoCondition = IoCondition(error: bool, input: bool)

  /**
   * Each event goes to at most one handler, chosen by its type and the class of its closure: a
   * bus reset to a unit, a REQUEST2 to a responder, a RESPONSE to a requester; anything else is dropped.
   */
  function Route(closure: Closure, eventType: nat): (d: Dispatch)
    ensures d.BusUpdate? <==> closure.UnitClosure? && eventType == FW_CDEV_EVENT_BUS_RESET
    ensures d.ToResponder? <==> closure.RespClosure? && eventType == FW_CDEV_EVENT_REQUEST2
    ensures d.ToRequester? <==> closure.ReqClosure? && eventType == FW_CDEV_EVENT_RESPONSE
    ensures d.BusUpdate? ==> d.unit == closure.unit
    ensures d.ToResponder? ==> d.resp == closure.resp
    ensures d.ToRequester? ==> d.req == closure.req
  {
    match closure
    case UnitClosure(u) => if eventType == FW_CDEV_EVENT_BUS_RESET then BusUpdate(u) else Ignored
    case RespClosure(r) => if eventType == FW_CDEV_EVENT_REQUEST2 then ToResponder(r) else Ignored
    case ReqClosure(r) => if eventType == FW_CDEV_EVENT_RESPONSE then ToRequester(r) else Ignored
    case OtherClosure => Ignored
  }

  /** The ROM buffer as the second GET_INFO leaves it: `size` bytes, the kernel's copy first, zeros after. */
  function FitRom(rom: seq<Byte>, size: nat): (r: seq<Byte>)
    ensures |r| == size
    ensures forall i :: 0 <= i < size && i < |rom| ==> r[i] == rom[i]
    ensures forall i :: |rom| <= i < size ==> r[i] == 0
  {
    if |rom| >= size then rom[..size] else rom + seq(size - |rom|, _ => 0 as Byte)
  }

  class FwUnit {
    var fd: int
    var romLength: nat
    var configRom: seq<Byte>
    var generation: BusReset
    var src: bool
    var buf: bool
    var len: nat

    constructor ()
      ensures fd == 0 && romLength == 0 && configRom == []
      ensures generation == BusReset(0, 0, 0, 0, 0, 0, 0)
      ensures State() == NOT_LISTENING
    {
      fd := 0;
      romLength := 0;
      configRom := [];
      generation := BusReset(0, 0, 0, 0, 0, 0, 0);
      src := false;
      buf := false;
      len := 0;
    }

    function State(): ListenState
      reads this
    {
      ListenState(src, buf, len)
    }

    /** The "listening" property. */
    predicate Listening()
      reads this
    {
      src
    }

    /** The node-id and generation properties read the latest snapshot. */
    function NodeId(): nat reads this { generation.nodeId }
    function LocalNodeId(): nat reads this { generation.localNodeId }
    function BusManagerNodeId(): nat reads this { generation.busManagerNodeId }
    function IsoResourceManagerNodeId(): nat reads this { generation.isoResourceManagerNodeId }
    function RootNodeId(): nat reads this { generation.rootNodeId }
    function Generation(): nat reads this { generation.generation }

    /**
     * Open the character device at a path: `openResult` is what open(2) gives, `first` and `second`
     * what the two GET_INFO ioctls give (the first reports the ROM length, the second fills the ROM
     * buffer), `romAllocated` whether the ROM buffer could be allocated. The descriptor is kept only
     * when every step succeeds; a later failure closes it and leaves the old one in place.
     */
    method Open(openResult: Result<int>, first: Result<InfoReply>, romAllocated: bool, second: Result<InfoReply>)
      returns (exc: Option<int>)
      modifies this`fd, this`romLength, this`configRom, this`generation
      ensures openResult.Fail? ==> exc == Some(openResult.errno) && unchanged(this)
      ensures openResult.Ok? && first.Fail? ==> exc == Some(first.errno) && unchanged(this)
      ensures openResult.Ok? && first.Ok? ==>
        romLength == (if romAllocated && second.Ok? then second.value.romLength else first.value.romLength)
      ensures openResult.Ok? && first.Ok? ==>
        generation == (if romAllocated && second.Ok? then second.value.busReset else first.value.busReset)
      ensures openResult.Ok? && first.Ok? && !romAllocated ==> exc == Some(ENOMEM) && configRom == [] && fd == old(fd)
      ensures openResult.Ok? && first.Ok? && romAllocated && second.Fail? ==>
        exc == Some(second.errno) && configRom == seq(first.value.romLength, _ => 0 as Byte) && fd == old(fd)
      ensures openResult.Ok? && first.Ok? && romAllocated && second.Ok? ==>
        exc.None? && fd == openResult.value && configRom == FitRom(second.value.rom, first.value.romLength)
      ensures State() == old(State())
    {
      if openResult.Fail? {
        return Some(openResult.errno);
      }
      if first.Fail? {
        return Some(first.errno);
      }
      romLength := first.value.romLength;
      generation := first.value.busReset;
      if !romAllocated {
        configRom := [];
        return Some(ENOMEM);
      }
      configRom := seq(romLength, _ => 0 as Byte);
      if second.Fail? {
        return Some(second.errno);
      }
      configRom := FitRom(second.value.rom, |configRom|);
      romLength := second.value.romLength;
      generation := second.value.busReset;
      fd := openResult.value;
      exc := None;
    }

    /** The ROM image and the number of whole quadlets the ROM length covers. */
    method GetConfigRom() returns (quads: nat, rom: seq<Byte>)
      ensures quads * 4 <= romLength < quads * 4 + 4
      ensures rom == configRom
    {
      quads := romLength / 4;
      rom := configRom;
    }

    /** A bus reset replaces the snapshot, so the properties report the new node ids and generation. */
    method HandleUpdate(event: BusReset) returns (busUpdated: bool)
      modifies this`generation
      ensures generation == event
      ensures Generation() == event.generation && NodeId() == event.nodeId && RootNodeId() == event.rootNodeId
      ensures busUpdated
    {
      generation := event;
      busUpdated := true;
    }

    /**
     * Start listening: `bufAllocated` and `srcCreated` say whether the page-sized buffer and the
     * event source could be made, `attach` whether the source could be attached to the dispatcher.
     * A failed attach takes back everything listen set.
     */
    method Listen(pageSize: nat, bufAllocated: bool, srcCreated: bool, attach: IoResult) returns (exc: Option<int>)
      modifies this`src, this`buf, this`len
      ensures !bufAllocated || !srcCreated ==> exc == Some(ENOMEM) && State() == old(State())
      ensures bufAllocated && srcCreated && attach.IoOk? ==> exc.None? && State() == ListenState(true, true, pageSize)
      ensures bufAllocated && srcCreated && attach.IoFail? ==> exc == Some(attach.errno) && State() == NOT_LISTENING
      ensures Listening() <==> exc.None? || (old(Listening()) && (!bufAllocated || !srcCreated))
    {
      if !bufAllocated || !srcCreated {
        return Some(ENOMEM);
      }
      src := true;
      buf := true;
      len := pageSize;
      if attach.IoFail? {
        buf := false;
        len := 0;
        src := false;
        return Some(attach.errno);
      }
      exc := None;
    }

    /** Stop listening; without a source nothing happens. */
    method Unlisten()
      modifies this`src, this`buf, this`len
      ensures State() == Unlistened(old(State()))
      ensures !Listening()
    {
      if !src {
        return;
      }
      src := false;
      buf := false;
      len := 0;
    }

    /**
     * One poll of the device. An error condition unlistens and reports disconnection; no input, or a
     * read of no bytes, does nothing; otherwise the event goes where Route says, and a bus reset is
     * applied to the unit its closure names.
     */
    method CheckSrc(condition: IoCondition, readLength: int, event: CdevEvent)
      returns (d: Dispatch, disconnected: bool)
      modifies this`src, this`buf, this`len
      modifies if event.closure.UnitClosure? then {event.closure.unit} else {}
      ensures condition.error ==>
        disconnected && d == Ignored && State() == Unlistened(old(State())) && !Listening()
      ensures !condition.error && (!condition.input || readLength <= 0) ==>
        !disconnected && d == Ignored && State() == old(State())
      ensures !condition.error && condition.input && readLength > 0 ==>
        !disconnected && d == Route(event.closure, event.eventType) && State() == old(State())
      ensures d.BusUpdate? ==> d.unit.generation == event.busReset
      ensures !d.BusUpdate? && event.closure.UnitClosure? && event.closure.unit != this ==>
        unchanged(event.closure.unit)
    {
      disconnected := false;
      d := Ignored;
      if condition.error {
        Unlisten();
        disconnected := true;
        return;
      }
      if !condition.input || readLength <= 0 {
        return;
      }
      d := Route(event.closure, event.eventType);
      if d.BusUpdate? {
        var _ := d.unit.HandleUpdate(event.busReset);
      }
    }
  }
}

=== FILE: ieee1394.dfy ===
/**
 * Vocabulary shared by every part of the model: bytes and quadlets of the IEEE 1394 bus,
 * the Linux errno values the library reports, transaction and response codes, host byte order,
 * and the event type numbers of the Linux FireWire and ALSA FireWire character devices.
 */
module Ieee1394 {

  type Byte = bv8
  type Quadlet = bv32

  // Linux errno values used by the library.
  const EINTR: int := 4
  const EIO: int := 5
  const EAGAIN: int := 11
  const ENOMEM: int := 12
  const EBUSY: int := 16
  const EINVAL: int := 22
  const ENODATA: int := 61
  const EPROTO: int := 71
  const ETIMEDOUT: int := 110

  /** Outcome of a system call that can only succeed or fail with errno (ioctl, write, allocation). */
  datatype IoResult = IoOk | IoFail(errno: int)

  /** How a wait on a condition variable ended: a handler signalled it, or the deadline passed. */
  datatype WaitResult = Woken | Expired

  /** memcpy into the front of a buffer: the first |src| elements become src, the rest stays. */
  method CopyInto<T>(dst: array<T>, src: seq<T>)
    requires |src| <= dst.Length
    modifies dst
    ensures dst[..] == src + old(dst[|src|..])
  {
    var i := 0;
    while i < |src|
      invariant 0 <= i <= |src|
      invariant dst[..i] == src[..i]
      invariant dst[i..] == old(dst[i..])
    {
      dst[i] := src[i];
      i := i + 1;
    }
    assert dst[..] == dst[..|src|] + dst[|src|..];
  }

  /** Transaction codes of IEEE 1394 asynchronous packets, with the Linux extended lock codes. */
  datatype Tcode =
    | WriteQuadletRequest | WriteBlockRequest | WriteResponse
    | ReadQuadletRequest | ReadBlockRequest | ReadQuadletResponse | ReadBlockResponse
    | CycleStart | LockRequest | StreamData | LockResponse
    | LockMaskSwap | LockCompareSwap | LockFetchAdd | LockLittleAdd
    | LockBoundedAdd | LockWrapAdd | LockVendorDependent
  {
    /** The numeric code carried in the packet header (Linux firewire-constants.h). */
    function Code(): nat
    {
      match this
      case WriteQuadletRequest => 0x0
      case WriteBlockRequest => 0x1
      case WriteResponse => 0x2
      case ReadQuadletRequest => 0x4
      case ReadBlockRequest => 0x5
      case ReadQuadletResponse => 0x6
      case ReadBlockResponse => 0x7
      case CycleStart => 0x8
      case LockRequest => 0x9
      case StreamData => 0xa
      case LockResponse => 0xb
      case LockMaskSwap => 0x11
      case LockCompareSwap => 0x12
      case LockFetchAdd => 0x13
      case LockLittleAdd => 0x14
      case LockBoundedAdd => 0x15
      case LockWrapAdd => 0x16
      case LockVendorDependent => 0x17
    }
  }

  /** Response codes: the five of IEEE 1394 Table 10-3 and the ones Linux adds for local failures. */
  datatype Rcode =
    | Complete | ConflictError | DataError | TypeError | AddressError
    | SendError | Cancelled | Busy | Generation | NoAck
  {
    function Code(): nat
    {
      match this
      case Complete => 0x0
      case ConflictError => 0x4
      case DataError => 0x5
      case TypeError => 0x6
      case AddressError => 0x7
      case SendError => 0x10
      case Cancelled => 0x11
      case Busy => 0x12
      case Generation => 0x13
      case NoAck => 0x14
    }
  }

  // Event types of the Linux FireWire character device (firewire-cdev.h).
  const FW_CDEV_EVENT_BUS_RESET: nat := 0x00
  const FW_CDEV_EVENT_RESPONSE: nat := 0x01
  const FW_CDEV_EVENT_REQUEST: nat := 0x02
  const FW_CDEV_EVENT_ISO_INTERRUPT: nat := 0x03
  const FW_CDEV_EVENT_ISO_RESOURCE_ALLOCATED: nat := 0x04
  const FW_CDEV_EVENT_ISO_RESOURCE_DEALLOCATED: nat := 0x05
  const FW_CDEV_EVENT_REQUEST2: nat := 0x06
  const FW_CDEV_EVENT_PHY_PACKET_SENT: nat := 0x07
  const FW_CDEV_EVENT_PHY_PACKET_RECEIVED: nat := 0x08
  const FW_CDEV_EVENT_ISO_INTERRUPT_MULTICHANNEL: nat := 0x09

  // Event types and unit types of the ALSA FireWire hwdep device (sound/firewire.h).
  const SNDRV_FIREWIRE_EVENT_LOCK_STATUS: nat := 0x000010cc
  const SNDRV_FIREWIRE_EVENT_DICE_NOTIFICATION: nat := 0xd1ce004e
  const SNDRV_FIREWIRE_EVENT_EFW_RESPONSE: nat := 0x4e617475
  const SNDRV_FIREWIRE_EVENT_DIGI00X_MESSAGE: nat := 0x746e736c
  const SNDRV_FIREWIRE_EVENT_MOTU_NOTIFICATION: nat := 0x64776479
  const SNDRV_FIREWIRE_EVENT_TASCAM_CONTROL: nat := 0x7473636d

  const SNDRV_FIREWIRE_TYPE_DICE: nat := 1
  const SNDRV_FIREWIRE_TYPE_FIREWORKS: nat := 2
  const SNDRV_FIREWIRE_TYPE_BEBOB: nat := 3
  const SNDRV_FIREWIRE_TYPE_OXFW: nat := 4
  const SNDRV_FIREWIRE_TYPE_DIGI00X: nat := 5
  const SNDRV_FIREWIRE_TYPE_TASCAM: nat := 6
  const SNDRV_FIREWIRE_TYPE_MOTU: nat := 7

  /**
   * An event as read from an ALSA FireWire hwdep device: its type, the word after the type (the
   * status of a lock-status event) and all words after the type (the frames of a Fireworks response).
   */
  datatype SndEvent = SndEvent(eventType: nat, status: nat, body: seq<Word>)

  /** Byte order of the host CPU; htobe32/be32toh are the identity on one and a byte swap on the other. */
  datatype ByteOrder = LittleEndian | BigEndian

  /** A 32-bit unsigned integer (uint32_t, guint, __be32) by its value. */
  type Word = x: int | 0 <= x < 0x1_0000_0000

  /** The weight of byte k of a word, byte 0 being the least significant. */
  function ByteWeight(k: nat): nat
    requires k < 4
  {
    [0x1, 0x100, 0x1_0000, 0x100_0000][k]
  }

  /** Byte k of a word, byte 0 being the least significant. */
  function ByteOf(x: Word, k: nat): (b: nat)
    requires k < 4
    ensures b < 0x100
  {
    x / ByteWeight(k) % 0x100
  }

  /** The word made of four bytes, the least significant first. */
  function FromBytes(b0: nat, b1: nat, b2: nat, b3: nat): Word
    requires b0 < 0x100 && b1 < 0x100 && b2 < 0x100 && b3 < 0x100
  {
    b0 + 0x100 * b1 + 0x1_0000 * b2 + 0x100_0000 * b3
  }

  /** The bytes of a word made from bytes are those bytes. */
  lemma BytesOfFromBytes(b0: nat, b1: nat, b2: nat, b3: nat)
    requires b0 < 0x100 && b1 < 0x100 && b2 < 0x100 && b3 < 0x100
    ensures var x := FromBytes(b0, b1, b2, b3);
      ByteOf(x, 0) == b0 && ByteOf(x, 1) == b1 && ByteOf(x, 2) == b2 && ByteOf(x, 3) == b3
  {
    var x := FromBytes(b0, b1, b2, b3);
    assert x / 0x100 == b1 + 0x100 * b2 + 0x1_0000 * b3;
    assert x / 0x1_0000 == b2 + 0x100 * b3;
    assert x / 0x100_0000 == b3;
  }

  /** A word is made of its four bytes. */
  lemma FromBytesOf(x: Word)
    ensures x == FromBytes(ByteOf(x, 0), ByteOf(x, 1), ByteOf(x, 2), ByteOf(x, 3))
  {
    assert x / 0x100 / 0x100 == x / 0x1_0000;
    assert x / 0x1_0000 / 0x100 == x / 0x100_0000;
  }

  /** Reverses the four bytes of a word. */
  function ByteSwap(x: Word): Word
  {
    FromBytes(ByteOf(x, 3), ByteOf(x, 2), ByteOf(x, 1), ByteOf(x, 0))
  }

  /** Byte k of a swapped word is byte 3 - k of the word. */
  lemma ByteSwapBytes(x: Word)
    ensures forall k :: 0 <= k < 4 ==> ByteOf(ByteSwap(x), k) == ByteOf(x, 3 - k)
  {
    BytesOfFromBytes(ByteOf(x, 3), ByteOf(x, 2), ByteOf(x, 1), ByteOf(x, 0));
  }

  /** htobe32: host order to big-endian. */
  function HostToBe(order: ByteOrder, x: Word): Word
  {
    if order == BigEndian then x else ByteSwap(x)
  }

  /** be32toh: big-endian to host order. */
  function BeToHost(order: ByteOrder, x: Word): Word
  {
    if order == BigEndian then x else ByteSwap(x)
  }

  /** Converting to big-endian and back, or back and to big-endian, is the identity on either host. */
  lemma BeRoundTrip(order: ByteOrder, x: Word)
    ensures BeToHost(order, HostToBe(order, x)) == x
    ensures HostToBe(order, BeToHost(order, x)) == x
  {
    if order == LittleEndian {
      var y := ByteSwap(ByteSwap(x));
      ByteSwapBytes(x);
      ByteSwapBytes(ByteSwap(x));
      FromBytesOf(x);
      FromBytesOf(y);
    }
  }

  /**
   * The conversions a host provides, as functions: be32toh and htobe32. Models that only need the
   * two to undo each other take a Host; HostOf gives the two real ones.
   */
  datatype Host = Host(beToHost: Word -> Word, hostToBe: Word -> Word)

  predicate RoundTrips(h: Host)
  {
    forall x: Word :: h.beToHost(h.hostToBe(x)) == x && h.hostToBe(h.beToHost(x)) == x
  }

  /** The conversions of a host of the given byte order; they undo each other. */
  function HostOf(order: ByteOrder): (h: Host)
    ensures RoundTrips(h)
    ensures forall x: Word :: h.beToHost(x) == BeToHost(order, x) && h.hostToBe(x) == HostToBe(order, x)
  {
    var h := Host(x => BeToHost(order, x), x => HostToBe(order, x));
    assert forall x: Word :: h.beToHost(h.hostToBe(x)) == x && h.hostToBe(h.beToHost(x)) == x by {
      forall x: Word
        ensures h.beToHost(h.hostToBe(x)) == x && h.hostToBe(h.beToHost(x)) == x
      {
        BeRoundTrip(order, x);
      }
    }
    h
  }
}

=== FILE: lists.dfy ===
/**
 * The doubly linked pending lists of the source (GList, LIST_ENTRY) as sequences of references in
 * list order: removal keeps the order of the rest.
 */
module Lists {
  /** The list without one entry. */
  function Without<T(==)>(ts: seq<T>, t: T): (r: seq<T>)
    ensures t !in r
    ensures forall i :: 0 <= i < |r| ==> r[i] in ts && r[i] != t
    ensures forall i :: 0 <= i < |ts| && ts[i] != t ==> ts[i] in r
    ensures |r| <= |ts|
  {
    if |ts| == 0 then [] else if ts[0] == t then Without(ts[1..], t) else [ts[0]] + Without(ts[1..], t)
  }

  /** Removing an entry that is not on the list changes nothing. */
  lemma {:induction false} WithoutAbsent<T>(ts: seq<T>, t: T)
    requires t !in ts
    ensures Without(ts, t) == ts
  {
    if |ts| > 0 {
      WithoutAbsent(ts[1..], t);
      assert [ts[0]] + ts[1..] == ts;
    }
  }

  /** Removing an entry that is on the list once leaves the entries before and after it, in order. */
  lemma {:induction false} WithoutKeepsOrder<T>(ts: seq<T>, i: nat)
    requires i < |ts|
    requires ts[i] !in ts[..i] && ts[i] !in ts[i + 1..]
    ensures Without(ts, ts[i]) == ts[..i] + ts[i + 1..]
  {
    var t := ts[i];
    if i == 0 {
      WithoutAbsent(ts[1..], t);
    } else {
      var rest := ts[1..];
      assert rest[i - 1] == t && rest[..i - 1] == ts[1..i] && rest[i..] == ts[i + 1..];
      WithoutKeepsOrder(rest, i - 1);
      assert [ts[0]] + ts[1..i] == ts[..i];
    }
  }

  /** Removing the entry just inserted at the head restores the list, when it was not on it before. */
  lemma WithoutInsertedHead<T>(ts: seq<T>, t: T)
    requires t !in ts
    ensures Without([t] + ts, t) == ts
  {
    assert ([t] + ts)[1..] == ts;
    WithoutAbsent(ts, t);
  }

  /** Removing the entry just appended at the tail restores the list, when it was not on it before. */
  lemma {:induction false} WithoutAppended<T>(ts: seq<T>, t: T)
    requires t !in ts
    ensures Without(ts + [t], t) == ts
  {
    if |ts| == 0 {
      assert ts + [t] == [t];
    } else {
      WithoutAppended(ts[1..], t);
      assert (ts + [t])[1..] == ts[1..] + [t];
      assert [ts[0]] + ts[1..] == ts;
    }
  }

  /** The position of an entry in the list. */
  function IndexOf<T(==)>(ts: seq<T>, t: T): (i: nat)
    requires t in ts
    ensures i < |ts| && ts[i] == t
  {
    if ts[0] == t then 0 else 1 + IndexOf(ts[1..], t)
  }
}

=== FILE: outcomes.dfy ===
/** Optional values and errno-carrying results, as the C code's NULL results and `int *err` out-parameters. */
module Outcomes {

  datatype Option<+T> = None | Some(value: T)

  /** A computation that either produced a value or failed with a Linux errno value. */
  datatype Result<+T> = Ok(value: T) | Fail(errno: int)
}

=== FILE: snd.dfy ===
/**
 * The first ALSA hwdep unit (src/snd.c), which the first Fireworks runner (src/efw.c) extends:
 * one structure holds the hwdep handle, what GET_INFO reported, the streaming and listening
 * flags, the event buffer and its length, the reactant that polls the device, and the Fireworks
 * counter and pending list, here the `efw` part.
 *
 * Calls into alsa-lib and into the reactor are parameters: each gives the value the call
 * returns, in the sign the C code receives it.
 */
module Snd {
  import opened Ieee1394
  import opened Outcomes
  import EfwProtocol
  import Efw
  import HwdepUnit = SndUnit

  /** Bytes of the event buffer listen allocates: one page. */
  const BUFFER_BYTES: nat := 4096
  /** Bytes of the unit's name field. */
  const NAME_BYTES: nat := 32

  /** Which handler read_event calls for an event. */
  datatype Handler = LockEvent | DiceNotification | EfwResponse | NoHandler

  /**
   * A lock-status event always reaches its handler; a DICE notification only on a DICE unit and an
   * EFW response only on a Fireworks unit; nothing else is handled.
   */
  function Route(unitType: nat, eventType: nat): (h: Handler)
    ensures h == LockEvent <==> eventType == SNDRV_FIREWIRE_EVENT_LOCK_STATUS
    ensures h == DiceNotification <==>
      eventType == SNDRV_FIREWIRE_EVENT_DICE_NOTIFICATION && unitType == SNDRV_FIREWIRE_TYPE_DICE
    ensures h == EfwResponse <==>
      eventType == SNDRV_FIREWIRE_EVENT_EFW_RESPONSE && unitType == SNDRV_FIREWIRE_TYPE_FIREWORKS
  {
    if eventType == SNDRV_FIREWIRE_EVENT_LOCK_STATUS then LockEvent
    else if eventType == SNDRV_FIREWIRE_EVENT_DICE_NOTIFICATION && unitType == SNDRV_FIREWIRE_TYPE_DICE then
      DiceNotification
    else if eventType == SNDRV_FIREWIRE_EVENT_EFW_RESPONSE && unitType == SNDRV_FIREWIRE_TYPE_FIREWORKS then
      EfwResponse
    else NoHandler
  }

  /** On a unit of any type other than Fireworks, an EFW response is dropped. */
  lemma EfwResponseOnlyOnFireworks(unitType: nat)
    requires unitType != SNDRV_FIREWIRE_TYPE_FIREWORKS
    ensures Route(unitType, SNDRV_FIREWIRE_EVENT_EFW_RESPONSE) == NoHandler
  {
  }

  /** strncpy into the 32-byte name field: at most 32 characters of the card's name are kept. */
  function NameField(name: string): (r: string)
    ensures |r| <= NAME_BYTES && |r| <= |name| && r == name[..|r|]
    ensures r == name || |r| == NAME_BYTES
  {
    if |name| <= NAME_BYTES then name else name[..NAME_BYTES]
  }

  class SndUnit {
    /** The Fireworks part of the structure; its unit type is the type GET_INFO reported. */
    const efw: Efw.EfwUnit
    const card: nat
    const name: string
    const guid: seq<Byte>
    const device: string
    var streaming: bool
    var listening: bool
    /** Whether the event buffer is allocated, and the length recorded for it. */
    var buf: bool
    var length: nat
    /** Whether the reactant exists, and whether it was added to the reactor. */
    var reactant: bool
    var reactantAdded: bool

    constructor (host: Host, info: HwdepUnit.SndInfo, name: string)
      requires RoundTrips(host)
      ensures fresh(efw) && efw.Valid() && efw.host == host && efw.unitType == info.unitType
      ensures efw.seqnum == 0 && efw.transactions == []
      ensures card == info.card && guid == info.guid && device == info.deviceName && this.name == NameField(name)
      ensures !streaming && !listening && !buf && length == 0 && !reactant && !reactantAdded
    {
      efw := new Efw.EfwUnit(host, info.unitType);
      card := info.card;
      this.name := NameField(name);
      guid := info.guid;
      device := info.deviceName;
      streaming := false;
      listening := false;
      buf := false;
      length := 0;
      reactant := false;
      reactantAdded := false;
    }

    /** The unit type GET_INFO reported. */
    function UnitType(): nat
      reads this
    {
      efw.unitType
    }

    /** The lock-status handler: the unit streams exactly when the event's status is nonzero. */
    method HandleLockEvent(event: SndEvent)
      modifies this`streaming
      ensures streaming <==> event.status != 0
    {
      streaming := event.status != 0;
    }

    /**
     * The poll handler's read. A read that fails (`readLength` negative) sets err to its
     * negation, and one longer than the buffer sets err to -EINVAL; neither reaches a handler.
     * Otherwise the event goes where Route says: a lock-status event sets the streaming flag from
     * its status, a DICE notification is only noted, and an EFW response is handed to the
     * Fireworks response handler with the words of the event after its type header, all of them
     * within the bytes read.
     */
    method ReadEvent(readLength: int, event: SndEvent) returns (err: Option<int>, handler: Handler)
      requires efw.Valid()
      requires 0 <= readLength ==> event.body == [] || 4 + 4 * |event.body| <= readLength
      modifies this`streaming, efw.FrameSet()
      ensures efw.Valid()
      ensures readLength < 0 ==> err == Some(-readLength)
      ensures 0 <= readLength && readLength > length ==> err == Some(-EINVAL)
      ensures err.Some? <==> readLength < 0 || readLength > length
      ensures err.Some? ==> handler == NoHandler && streaming == old(streaming) && unchanged(efw.FrameSet())
      ensures err.None? ==> handler == Route(UnitType(), event.eventType)
      ensures handler == LockEvent ==> (streaming <==> event.status != 0)
      ensures handler != LockEvent ==> streaming == old(streaming)
      ensures handler == EfwResponse ==>
        EfwProtocol.Buffers(efw.transactions) ==
          EfwProtocol.DeliverAll(efw.host, EfwProtocol.Seqnums(efw.transactions), old(EfwProtocol.Buffers(efw.transactions)),
                                 EfwProtocol.Frames(efw.host, event.body))
      ensures handler != EfwResponse ==> unchanged(efw.FrameSet())
    {
      if readLength < 0 {
        return Some(-readLength), NoHandler;
      }
      if readLength > length {
        return Some(-EINVAL), NoHandler;
      }
      err := None;
      handler := Route(UnitType(), event.eventType);
      match handler {
        case LockEvent =>
          HandleLockEvent(event);
        case DiceNotification =>
        case EfwResponse =>
          efw.HandleResponse(event.body);
        case NoHandler =>
      }
    }

    /**
     * Start listening: allocate the one-page buffer (`allocErr`, 0 on success), take the poll
     * descriptor (`pollCount` descriptors are returned; anything but one is EINVAL), create the
     * reactant (`createErr`) and add it (`addErr`; a failure destroys it but listening goes on);
     * then try to lock the device (`lock`), mark the unit streaming exactly when the lock fails
     * with EBUSY, always unlock it and report success. The listening flag is never set here.
     */
    method Listen(allocErr: int, pollCount: int, createErr: int, addErr: int, lock: IoResult)
      returns (err: int, released: bool)
      modifies this`buf, this`length, this`reactant, this`reactantAdded, this`streaming
      ensures listening == old(listening)
      ensures allocErr != 0 ==> err == allocErr && !released && unchanged(this)
      ensures allocErr == 0 ==> buf && length == BUFFER_BYTES
      ensures allocErr == 0 && pollCount != 1 ==> err == EINVAL && !released && streaming == old(streaming)
      ensures allocErr == 0 && pollCount == 1 && createErr != 0 ==>
        err == createErr && !released && streaming == old(streaming)
      ensures released <==> allocErr == 0 && pollCount == 1 && createErr == 0
      ensures released ==>
        err == 0 && (streaming <==> lock == IoFail(EBUSY)) && (reactant <==> addErr == 0) && reactantAdded == reactant
    {
      if allocErr != 0 {
        return allocErr, false;
      }
      buf := true;
      length := BUFFER_BYTES;
      if pollCount != 1 {
        return EINVAL, false;
      }
      if createErr != 0 {
        return createErr, false;
      }
      reactant := true;
      reactantAdded := addErr == 0;
      if addErr != 0 {
        reactant := false;
      }
      streaming := lock == IoFail(EBUSY);
      released := true;
      err := 0;
    }

    /** Stop listening, whatever the state: the reactant is removed and destroyed, the buffer freed. */
    method Unlisten()
      modifies this`listening, this`reactant, this`reactantAdded, this`buf, this`length
      ensures !listening && !reactant && !reactantAdded && !buf && length == 0
    {
      listening := false;
      reactant := false;
      reactantAdded := false;
      buf := false;
      length := 0;
    }
  }

  /**
   * Create a unit for a hwdep device: open it (`openErr`, the negated return of the open), ask
   * GET_INFO (`infoErr` and the `info` it fills in), allocate the unit (`unitAllocErr`) and the hwdep info (`infoAllocErr`), read
   * the hwdep info (`hwdepInfoErr`) and the card's name (`nameCode` as alsa-lib returns it, not
   * negated, and `cardName`). The first failure is the error and no unit is made; every failure
   * after the open closes the device again (`closed`).
   */
  method Create(host: Host, openErr: int, infoErr: int, info: HwdepUnit.SndInfo, unitAllocErr: int, infoAllocErr: int,
                hwdepInfoErr: int, nameCode: int, cardName: string)
    returns (unit: SndUnit?, err: int, closed: bool)
    requires RoundTrips(host)
    ensures openErr != 0 ==> err == openErr && !closed
    ensures openErr == 0 && infoErr != 0 ==> err == infoErr && closed
    ensures openErr == 0 && infoErr == 0 && unitAllocErr != 0 ==> err == unitAllocErr && closed
    ensures openErr == 0 && infoErr == 0 && unitAllocErr == 0 && infoAllocErr != 0 ==> err == infoAllocErr && closed
    ensures openErr == 0 && infoErr == 0 && unitAllocErr == 0 && infoAllocErr == 0 ==>
      err == (if hwdepInfoErr != 0 then hwdepInfoErr else nameCode)
    ensures unit != null <==> err == 0
    ensures closed <==> openErr == 0 && err != 0
    ensures unit != null ==>
      fresh(unit) && fresh(unit.efw) && unit.efw.Valid() && unit.UnitType() == info.unitType &&
      unit.card == info.card && unit.guid == info.guid && unit.device == info.deviceName &&
      unit.name == NameField(cardName) && !unit.streaming && !unit.listening
  {
    unit, closed := null, false;
    err := openErr;
    if err != 0 {
      return;
    }
    err := infoErr;
    if err == 0 {
      err := unitAllocErr;
    }
    if err == 0 {
      err := infoAllocErr;
    }
    if err == 0 {
      err := if hwdepInfoErr != 0 then hwdepInfoErr else nameCode;
    }
    if err != 0 {
      closed := true;
      return;
    }
    unit := new SndUnit(host, info, cardName);
  }
}

=== FILE: snd_efw.dfy ===
/**
 * HinawaSndEfw (src/snd_efw.c): Echo Fireworks transactions over the ALSA hwdep device. A run
 * allocates a zeroed 0x200-byte frame, fills in the request in host order, converts the words
 * it uses to big-endian in place, appends the transaction to the unit's pending list and writes
 * the frame to the device. The response handler walks the frames of an EFW response event and
 * copies each into the frame of the pending transaction it answers; the run then converts the
 * response back to host order in place and checks its status and header.
 *
 * The run is split at its wait: Begin, then Finish with the wait's outcome. The transaction
 * records its own sequence number and a response answers it when it carries that number plus
 * one, as in src/efw.c; MatchAsWritten models the search as the source writes it.
 */
module SndEfw {
  import opened Ieee1394
  import opened Outcomes
  import opened Lists
  import opened EfwProtocol
  import SndUnit
  import FwUnit

  /** The status word of a request, before the device answers it. */
  const REQUEST_STATUS: Word := 0xff

  /** The names of the response statuses, indexed by status. */
  const STATUS_NAMES: seq<string> := [
    "OK", "bad", "bad command", "comm err", "bad quad count", "unsupported", "1394 timeout",
    "DSP timeout", "bad rate", "bad clock", "bad channel", "bad pan", "flash busy", "bad mirror",
    "bad LED", "bad parameter"]

  /** A GArray as the caller passes it: its element size and its words. */
  datatype WordArray = WordArray(elementSize: nat, data: seq<Word>)

  /** The arguments a run sends: none without an array. */
  function ArgsOf(args: Option<WordArray>): seq<Word>
  {
    if args.None? then [] else args.value.data
  }

  /** A run is refused for a unit that is not Fireworks, or for an array whose elements are not quadlets. */
  predicate Rejected(unitType: nat, args: Option<WordArray>, params: Option<WordArray>)
  {
    unitType != SNDRV_FIREWIRE_TYPE_FIREWORKS ||
    (args.Some? && args.value.elementSize != 4) || (params.Some? && params.value.elementSize != 4)
  }

  /** The words of a zero-filled allocation. */
  function Zeros(n: nat): (r: seq<Word>)
    ensures |r| == n && forall i :: 0 <= i < n ==> r[i] == 0
  {
    seq(n, _ => 0)
  }

  /** A read of the name table: a name, or a read past its end. */
  datatype NameSlot = Named(name: string) | PastTable

  /** The name lookup as written: the status indexes the table unchecked. */
  function StatusNameAsWritten(status: Word): (s: NameSlot)
    ensures s.PastTable? <==> status >= |STATUS_NAMES|
    ensures s.Named? ==> s.name == STATUS_NAMES[status]
  {
    if status < |STATUS_NAMES| then Named(STATUS_NAMES[status]) else PastTable
  }

  /**
   * A status of 16 or more reads past the table; so does the request's own status 0xff, which a
   * frame still holding the request carries.
   */
  lemma StatusPastNameTable(status: Word)
    requires status >= 16
    ensures StatusNameAsWritten(status).PastTable?
    ensures StatusNameAsWritten(REQUEST_STATUS).PastTable?
  {
  }

  /** The name lookup with its bound checked: the table's name where there is one, and none past it. */
  function StatusName(status: Word): (r: Option<string>)
    ensures r.Some? <==> status < |STATUS_NAMES|
    ensures r.Some? ==> StatusNameAsWritten(status) == Named(r.value)
    ensures status == STATUS_OK as int ==> r == Some("OK")
  {
    if status < |STATUS_NAMES| then Some(STATUS_NAMES[status]) else None
  }

  /**
   * The pending-list search as written: the entries become the candidate in turn and the search
   * stops at one whose stored sequence number equals the response's. With no such entry the last
   * entry is left as the candidate; only an empty list leaves none.
   */
  function MatchAsWritten(stored: seq<Word>, respSeqnum: Word): (r: Option<nat>)
    ensures r.None? <==> |stored| == 0
    ensures r.Some? ==> r.value < |stored|
  {
    if |stored| == 0 then None
    else if stored[0] == respSeqnum || |stored| == 1 then Some(0)
    else match MatchAsWritten(stored[1..], respSeqnum)
      case None => None
      case Some(i) => Some(i + 1)
  }

  /** As written, a frame whose sequence number no entry stores goes to the last pending transaction. */
  lemma {:induction false} UnmatchedGoesToLast(stored: seq<Word>, respSeqnum: Word)
    requires |stored| > 0
    requires forall j :: 0 <= j < |stored| ==> stored[j] != respSeqnum
    ensures MatchAsWritten(stored, respSeqnum) == Some(|stored| - 1)
  {
    if |stored| > 1 {
      UnmatchedGoesToLast(stored[1..], respSeqnum);
    }
  }

  /**
   * As written, whenever no transaction stores the response's sequence number (the number is
   * never stored, so the words there are leftovers) the response goes to the last pending
   * transaction, while the matching used here gives the answer to the first request to the first
   * transaction. Stored leftovers 7 and 9 for requests 0 and 2 and a response 1 are such a case;
   * so are the request numbers themselves, since a response carries its request's number plus one.
   */
  lemma MisdeliveredAsWritten(stored: seq<Word>, seqnums: seq<Word>, respSeqnum: Word)
    requires |stored| == |seqnums| >= 2 && (seqnums[0] + 1) % U32 == respSeqnum
    requires forall j :: 0 <= j < |stored| ==> stored[j] != respSeqnum
    ensures MatchAsWritten(stored, respSeqnum) == Some(|stored| - 1)
    ensures Matching(seqnums, respSeqnum) == Some(0)
  {
    UnmatchedGoesToLast(stored, respSeqnum);
  }

  /**
   * As written, a response that answers no pending request (99 for requests 0 and 2) still goes
   * to the last pending transaction; the matching used here gives it to none.
   */
  lemma StrayDeliveredAsWritten(stored: seq<Word>, seqnums: seq<Word>, respSeqnum: Word)
    requires |stored| == |seqnums| >= 1
    requires forall j :: 0 <= j < |stored| ==> stored[j] != respSeqnum
    requires forall j :: 0 <= j < |seqnums| ==> (seqnums[j] + 1) % U32 != respSeqnum
    ensures MatchAsWritten(stored, respSeqnum) == Some(|stored| - 1)
    ensures Matching(seqnums, respSeqnum).None?
  {
    UnmatchedGoesToLast(stored, respSeqnum);
  }

  /** The copy as written moves as many quadlets as the frame's length field says, unchecked. */
  predicate CopyWithinBufferAsWritten(host: Host, response: seq<Word>)
    requires |response| > LENGTH
  {
    LengthField(host, response) <= FRAME_QUADLETS
  }

  /**
   * A well-formed frame longer than a frame buffer overruns the buffer as written, while the
   * delivery used here leaves every pending frame as it was.
   */
  lemma LongFrameDropped(host: Host, seqnums: seq<Word>, frames: seq<seq<Word>>, response: seq<Word>)
    requires |seqnums| == |frames|
    requires forall i :: 0 <= i < |frames| ==> |frames[i]| == FRAME_QUADLETS
    requires WellFormed(host, response) && |response| > FRAME_QUADLETS
    ensures !CopyWithinBufferAsWritten(host, response)
    ensures Deliver(host, seqnums, frames, response) == frames
  {
    DeliverEffect(host, seqnums, frames, response);
  }

  /** Converting a frame's first n words to big-endian and back gives the frame back. */
  lemma SwapsCancel(host: Host, frame: seq<Word>, n: nat)
    requires RoundTrips(host) && n <= |frame|
    ensures var w := ToWire(host, frame[..n]) + frame[n..]; FromWire(host, w[..n]) + w[n..] == frame
  {
    var w := ToWire(host, frame[..n]) + frame[n..];
    assert w[..n] == ToWire(host, frame[..n]) && w[n..] == frame[n..];
    WireRoundTrip(host, frame[..n]);
    assert frame[..n] + frame[n..] == frame;
  }

  /** A request sent on the wire reads back as its header with the request status, and its arguments. */
  lemma RequestReadsBack(host: Host, seqnum: Word, category: Word, command: Word, args: seq<Word>)
    requires RoundTrips(host) && HEADER_QUADLETS + |args| <= FRAME_QUADLETS
    ensures Decode(FromWire(host, ToWire(host, Request(seqnum, category, command, REQUEST_STATUS, args)))) ==
      Some((Header(HEADER_QUADLETS + |args|, MINIMUM_SUPPORTED_VERSION, seqnum, category, command, REQUEST_STATUS), args))
  {
    var h := Header(HEADER_QUADLETS + |args|, MINIMUM_SUPPORTED_VERSION, seqnum, category, command, REQUEST_STATUS);
    WireRoundTrip(host, Request(seqnum, category, command, REQUEST_STATUS, args));
    DecodeEncode(h, args, []);
    assert Encode(h, args) + [] == Encode(h, args);
  }

  /** The in-place host-to-big-endian loop over the first n words of a frame. */
  method SwapToWire(host: Host, a: array<Word>, n: nat)
    requires n <= a.Length
    modifies a
    ensures a[..] == ToWire(host, old(a[..n])) + old(a[n..])
  {
    var i := 0;
    while i < n
      invariant 0 <= i <= n
      invariant forall k :: 0 <= k < i ==> a[k] == host.hostToBe(old(a[k]))
      invariant forall k :: i <= k < a.Length ==> a[k] == old(a[k])
    {
      a[i] := host.hostToBe(a[i]);
      i := i + 1;
    }
    assert forall k :: 0 <= k < a.Length ==> a[..][k] == (ToWire(host, old(a[..n])) + old(a[n..]))[k];
  }

  /** The in-place big-endian-to-host loop over the first n words of a frame. */
  method SwapFromWire(host: Host, a: array<Word>, n: nat)
    requires n <= a.Length
    modifies a
    ensures a[..] == FromWire(host, old(a[..n])) + old(a[n..])
  {
    var i := 0;
    while i < n
      invariant 0 <= i <= n
      invariant forall k :: 0 <= k < i ==> a[k] == host.beToHost(old(a[k]))
      invariant forall k :: i <= k < a.Length ==> a[k] == old(a[k])
    {
      a[i] := host.beToHost(a[i]);
      i := i + 1;
    }
    assert forall k :: 0 <= k < a.Length ==> a[..][k] == (FromWire(host, old(a[..n])) + old(a[n..]))[k];
  }

  /** memcpy of words into a frame from `start` on; nothing else is written. */
  method StoreWords(a: array<Word>, start: nat, words: seq<Word>)
    requires start + |words| <= a.Length
    modifies a
    ensures a[..] == old(a[..start]) + words + old(a[start + |words|..])
  {
    var i := 0;
    while i < |words|
      invariant 0 <= i <= |words|
      invariant forall k :: 0 <= k < start ==> a[k] == old(a[k])
      invariant forall k :: 0 <= k < i ==> a[start + k] == words[k]
      invariant forall k :: start + i <= k < a.Length ==> a[k] == old(a[k])
    {
      a[start + i] := words[i];
      i := i + 1;
    }
    assert forall k :: 0 <= k < a.Length ==> a[..][k] == (old(a[..start]) + words + old(a[start + |words|..]))[k];
  }

  /**
   * A zeroed frame buffer filled with a request (header with status 0xff, then the arguments) and
   * converted to big-endian, as far as the request's length goes.
   */
  method BuildRequest(host: Host, seqnum: Word, category: Word, command: Word, arguments: seq<Word>)
    returns (f: array<Word>)
    requires RoundTrips(host) && HEADER_QUADLETS + |arguments| <= FRAME_QUADLETS
    ensures fresh(f) && f.Length == FRAME_QUADLETS
    ensures var request := Request(seqnum, category, command, REQUEST_STATUS, arguments);
      f[..] == ToWire(host, request) + Zeros(FRAME_QUADLETS - |request|)
    ensures HoldsFrame(host, f[..])
  {
    f := new Word[FRAME_QUADLETS](_ => 0);
    var quads := HEADER_QUADLETS + |arguments|;
    f[LENGTH] := quads;
    f[VERSION] := MINIMUM_SUPPORTED_VERSION;
    f[SEQNUM] := seqnum;
    f[CATEGORY] := category;
    f[COMMAND] := command;
    f[STATUS] := REQUEST_STATUS;
    StoreWords(f, HEADER_QUADLETS, arguments);
    ghost var request := Request(seqnum, category, command, REQUEST_STATUS, arguments);
    assert f[..quads] == request;
    assert f[quads..] == Zeros(FRAME_QUADLETS - quads);
    SwapToWire(host, f, quads);
    assert f[LENGTH] == host.hostToBe(quads);
  }

  class SndEfw {
    /** The ALSA unit this object extends. */
    const unit: SndUnit.SndUnit
    const host: Host
    var seqnum: nat
    var transactions: seq<Transaction>

    /** The frames of the pending transactions. */
    ghost function FrameSet(): set<object>
      reads this
    {
      set i | 0 <= i < |transactions| :: transactions[i].frame
    }

    /**
     * The counter stays within user space's range; every pending transaction has its own 0x200-byte
     * frame, and every frame holds a frame header whose length lies within it.
     */
    ghost predicate Valid()
      reads this, transactions, FrameSet()
    {
      RoundTrips(host) && seqnum <= SEQNUM_MAX && DistinctFrames(transactions) && FramesFit(host, transactions)
    }

    constructor (host: Host)
      requires RoundTrips(host)
      ensures this.host == host && fresh(unit) && unit.cls == SndUnit.SndEfwClass
      ensures seqnum == 0 && transactions == [] && Valid()
    {
      this.host := host;
      unit := new SndUnit.SndUnit(SndUnit.SndEfwClass);
      seqnum := 0;
      transactions := [];
    }

    /**
     * Open the hwdep device as the unit does (the parameters are those of SndUnit.Open), then
     * insist on a Fireworks unit: another type is EINVAL. Only a Fireworks unit gets a fresh
     * counter and an empty pending list.
     */
    method Open(openResult: Result<int>, getInfo: Result<SndUnit.SndInfo>, fwOpened: Result<int>,
                fwFirst: Result<FwUnit.InfoReply>, fwRomAllocated: bool, fwSecond: Result<FwUnit.InfoReply>)
      returns (exc: Option<int>)
      requires Valid()
      modifies this`seqnum, this`transactions
      modifies unit`fd, unit`fdOpen, unit`info, unit`hasRequester, unit`requesterTimeout
      modifies unit.parent`fd, unit.parent`romLength, unit.parent`configRom, unit.parent`generation
      ensures Valid()
      ensures openResult.Fail? ==> exc == Some(openResult.errno)
      ensures !unit.fdOpen ==> exc.Some? && seqnum == old(seqnum) && transactions == old(transactions)
      ensures unit.fdOpen && unit.UnitType() != SNDRV_FIREWIRE_TYPE_FIREWORKS ==>
        exc == Some(EINVAL) && seqnum == old(seqnum) && transactions == old(transactions)
      ensures unit.fdOpen && unit.UnitType() == SNDRV_FIREWIRE_TYPE_FIREWORKS ==>
        exc.None? && seqnum == 0 && transactions == []
    {
      exc := unit.Open(openResult, getInfo, fwOpened, fwFirst, fwRomAllocated, fwSecond);
      if exc.Some? {
        return;
      }
      if unit.UnitType() != SNDRV_FIREWIRE_TYPE_FIREWORKS {
        return Some(EINVAL);
      }
      seqnum := 0;
      transactions := [];
    }

    /** LIST_INSERT_TAIL: a transaction whose own buffer holds a frame joins the list at its tail. */
    method Append(trans: Transaction)
      requires Valid() && trans.frame.Length == FRAME_QUADLETS && HoldsFrame(host, trans.frame[..])
      requires forall i :: 0 <= i < |transactions| ==> transactions[i].frame != trans.frame
      modifies this`transactions
      ensures Valid() && transactions == old(transactions) + [trans]
    {
      AppendKeepsFrames(host, transactions, trans);
      transactions := transactions + [trans];
    }

    /** LIST_REMOVE of the transaction just appended: the list is as it was before. */
    method RemoveAppended(trans: Transaction)
      requires Valid() && |transactions| > 0 && transactions[|transactions| - 1] == trans
      requires trans !in transactions[..|transactions| - 1]
      modifies this`transactions
      ensures Valid() && transactions == old(transactions[..|transactions| - 1])
    {
      ghost var before := transactions[..|transactions| - 1];
      assert transactions == before + [trans];
      WithoutAppended(before, trans);
      WithoutKeepsFrames(host, transactions, trans);
      transactions := Without(transactions, trans);
    }

    /**
     * The first half of a run, up to the wait. A refused run (see Rejected) is EINVAL and a failed
     * allocation ENOMEM, and neither changes anything. Otherwise the counter's value goes into the
     * request and into the transaction, the counter advances, and the request with status 0xff is
     * converted to big-endian in a zeroed frame; the transaction is appended to the list and the
     * request's words are written to the device (`written` bytes get through, `writeErrno` is
     * write(2)'s error). A short write takes the transaction off the list again and is its error.
     */
    method Begin(category: Word, command: Word, args: Option<WordArray>, params: Option<WordArray>,
                 frameAllocated: bool, written: int, writeErrno: int)
      returns (exc: Option<int>, trans: Transaction?, sent: Option<seq<Word>>)
      requires Valid()
      requires args.Some? ==> HEADER_QUADLETS + |args.value.data| <= FRAME_QUADLETS
      modifies this`seqnum, this`transactions
      ensures Valid()
      ensures Rejected(unit.UnitType(), args, params) ==>
        exc == Some(EINVAL) && trans == null && sent.None? && seqnum == old(seqnum) && transactions == old(transactions)
      ensures !Rejected(unit.UnitType(), args, params) && !frameAllocated ==>
        exc == Some(ENOMEM) && trans == null && sent.None? && seqnum == old(seqnum) && transactions == old(transactions)
      ensures !Rejected(unit.UnitType(), args, params) && frameAllocated ==>
        seqnum == NextSeqnum(old(seqnum)) &&
        sent == Some(ToWire(host, Request(old(seqnum), category, command, REQUEST_STATUS, ArgsOf(args))))
      ensures sent.Some? && written != 4 * |sent.value| ==>
        exc == Some(writeErrno) && trans == null && transactions == old(transactions)
      ensures sent.Some? && written == 4 * |sent.value| ==>
        exc.None? && trans != null && fresh(trans) && fresh(trans.frame) && trans.seqnum == old(seqnum) &&
        trans.frame[..] == sent.value + Zeros(FRAME_QUADLETS - |sent.value|) &&
        transactions == old(transactions) + [trans]
    {
      if Rejected(unit.UnitType(), args, params) {
        return Some(EINVAL), null, None;
      }
      if !frameAllocated {
        return Some(ENOMEM), null, None;
      }
      var arguments := ArgsOf(args);
      var f := BuildRequest(host, seqnum, category, command, arguments);
      var t := new Transaction(f);
      t.seqnum := seqnum;
      seqnum := NextSeqnum(seqnum);
      var quads := HEADER_QUADLETS + |arguments|;
      sent := Some(f[..quads]);
      assert f[..quads] == ToWire(host, Request(old(seqnum), category, command, REQUEST_STATUS, arguments));
      Append(t);
      var e := unit.Write(4 * quads, written, writeErrno);
      if e.Some? {
        RemoveAppended(t);
        return e, null, sent;
      }
      exc, trans := None, t;
    }

    /**
     * The second half of a run, with the wait's outcome. A wait that expires is ETIMEDOUT.
     * Otherwise the response's words are converted to host order in place, as many as its length
     * field says, and checked in turn: a status other than OK is EPROTO with the status's name;
     * an unsupported version or another category or command is EIO; parameters with nowhere to
     * go are EINVAL; otherwise the parameters are inserted at the front of the caller's array.
     * Every way out takes the transaction off the list.
     */
    method Finish(trans: Transaction, category: Word, command: Word, wait: WaitResult, params: Option<seq<Word>>)
      returns (exc: Option<int>, message: Option<string>, result: Option<seq<Word>>)
      requires Valid() && trans in transactions
      modifies this`transactions, trans.frame
      ensures Valid() && transactions == Without(old(transactions), trans)
      ensures HoldsFrame(host, old(trans.frame[..]))
      ensures message.Some? ==> exc == Some(EPROTO)
      ensures wait == Expired ==>
        exc == Some(ETIMEDOUT) && message.None? && result == params && trans.frame[..] == old(trans.frame[..])
      ensures wait == Woken ==>
        var (h, ps) := ResponseOf(host, old(trans.frame[..]));
        trans.frame[..] == FromWire(host, old(trans.frame[..h.length])) + old(trans.frame[h.length..]) &&
        (exc == Some(EPROTO) <==> h.status != STATUS_OK) &&
        (h.status != STATUS_OK ==> message == StatusName(h.status)) &&
        (exc == Some(EIO) <==> h.status == STATUS_OK && !HeaderAnswers(h, category, command)) &&
        (exc == Some(EINVAL) <==> h.status == STATUS_OK && HeaderAnswers(h, category, command) && |ps| > 0 && params.None?) &&
        (exc.None? <==> h.status == STATUS_OK && HeaderAnswers(h, category, command) && (|ps| == 0 || params.Some?)) &&
        (exc.None? ==> result == if params.None? then None else Some(ps + params.value)) &&
        (exc.Some? ==> result == params)
    {
      var f := trans.frame;
      assert HoldsFrame(host, f[..]) by {
        var i := IndexOf(transactions, trans);
        assert Buffers(transactions)[i] == f[..];
      }
      var others := Without(transactions, trans);
      WithoutKeepsFrames(host, transactions, trans);
      WithoutOtherFrames(transactions, trans);
      exc, message, result := None, None, params;
      if wait == Expired {
        exc := Some(ETIMEDOUT);
      } else {
        ghost var raw := f[..];
        ResponseFields(host, raw);
        ghost var h := ResponseOf(host, raw).0;
        ghost var ps := ResponseOf(host, raw).1;
        var quads := host.beToHost(f[LENGTH]);
        SwapFromWire(host, f, quads);
        assert f[STATUS] == h.status && f[VERSION] == h.version;
        assert f[CATEGORY] == h.category && f[COMMAND] == h.command;
        if f[STATUS] != STATUS_OK {
          exc := Some(EPROTO);
          message := StatusName(f[STATUS]);
        } else if f[VERSION] < MINIMUM_SUPPORTED_VERSION || f[CATEGORY] != category || f[COMMAND] != command {
          exc := Some(EIO);
        } else {
          var count := quads - HEADER_QUADLETS;
          assert f[HEADER_QUADLETS..quads] == ps;
          if count > 0 && params.None? {
            exc := Some(EINVAL);
          } else if params.Some? {
            result := Some(f[HEADER_QUADLETS..quads] + params.value);
          }
        }
      }
      transactions := others;
    }

    /** The response handler: the walk over the frames of an event, delivered to the pending list. */
    method HandleResponse(body: seq<Word>)
      requires Valid()
      modifies FrameSet()
      ensures Valid()
      ensures Buffers(transactions) == DeliverAll(host, Seqnums(transactions), old(Buffers(transactions)), Frames(host, body))
    {
      ghost var before := Buffers(transactions);
      DeliverFrames(host, body, transactions);
      FramesWellFormed(host, body);
      DeliverAllHoldsFrames(host, Seqnums(transactions), before, Frames(host, body));
    }
  }
}

=== FILE: snd_tscm.dfy ===
/**
 * HinawaSndTscm (src/snd_tscm.c): the ALSA unit of a TASCAM model. It reads the unit's state
 * image of 64 big-endian words and turns a control event, a type header followed by change
 * records of three words each (index, value before, value after), into one "control" signal per
 * whole record.
 *
 * The buffer of a control event is given as the words it holds and its length in bytes; the
 * signals emitted are returned in order.
 */
module SndTscm {
  import opened Ieee1394
  import opened Outcomes
  import SndUnit
  import FwUnit

  /** Number of words in the state image (SNDRV_FIREWIRE_TASCAM_STATE_COUNT). */
  const STATE_COUNT: nat := 64
  /** Bytes of the event's type header and of one change record. */
  const TYPE_BYTES: nat := 4
  const CHANGE_BYTES: nat := 12

  /** One "control" signal: the record's index as read, and the values before and after in host order. */
  datatype Control = Control(index: Word, before: Word, after: Word)

  /**
   * The signals for the change records at the front of `records`, of which `bytes` bytes were
   * read: one per whole record, in order; a trailing partial record gives none.
   */
  function Records(host: Host, records: seq<Word>, bytes: nat): (r: seq<Control>)
    requires bytes <= 4 * |records|
    decreases bytes
  {
    if bytes < CHANGE_BYTES then []
    else
      var first := Control(records[0], host.beToHost(records[1]), host.beToHost(records[2]));
      [first] + Records(host, records[3..], bytes - CHANGE_BYTES)
  }

  /** The signals for a whole control event of `len` bytes: none when even the type header is cut short. */
  function Controls(host: Host, event: seq<Word>, len: nat): (r: seq<Control>)
    requires len <= 4 * |event|
  {
    if len < TYPE_BYTES then [] else Records(host, event[1..], len - TYPE_BYTES)
  }

  /** One signal per whole record, each carrying its record's index unchanged and its values converted. */
  lemma {:induction false} RecordsAreChanges(host: Host, records: seq<Word>, bytes: nat)
    requires bytes <= 4 * |records|
    ensures |Records(host, records, bytes)| == bytes / CHANGE_BYTES
    ensures forall k :: 0 <= k < bytes / CHANGE_BYTES ==>
      Records(host, records, bytes)[k] ==
        Control(records[3 * k], host.beToHost(records[3 * k + 1]), host.beToHost(records[3 * k + 2]))
    decreases bytes
  {
    if bytes >= CHANGE_BYTES {
      var rest := records[3..];
      RecordsAreChanges(host, rest, bytes - CHANGE_BYTES);
      assert (bytes - CHANGE_BYTES) / CHANGE_BYTES == bytes / CHANGE_BYTES - 1;
      forall k | 1 <= k < bytes / CHANGE_BYTES
        ensures Records(host, records, bytes)[k] ==
          Control(records[3 * k], host.beToHost(records[3 * k + 1]), host.beToHost(records[3 * k + 2]))
      {
        assert Records(host, records, bytes)[k] == Records(host, rest, bytes - CHANGE_BYTES)[k - 1];
        assert rest[3 * (k - 1)] == records[3 * k];
        assert rest[3 * (k - 1) + 1] == records[3 * k + 1];
        assert rest[3 * (k - 1) + 2] == records[3 * k + 2];
      }
    }
  }

  /**
   * The signals of a control event: none when it is shorter than the type header; otherwise
   * exactly as many as whole records follow the header, record k's index taken from word 1 + 3k
   * as it stands and its before and after values from words 2 + 3k and 3 + 3k in host order.
   */
  lemma ControlsOfEvent(host: Host, event: seq<Word>, len: nat)
    requires len <= 4 * |event|
    ensures len < TYPE_BYTES ==> Controls(host, event, len) == []
    ensures len >= TYPE_BYTES ==> |Controls(host, event, len)| == (len - TYPE_BYTES) / CHANGE_BYTES
    ensures len >= TYPE_BYTES ==> forall k :: 0 <= k < (len - TYPE_BYTES) / CHANGE_BYTES ==>
      Controls(host, event, len)[k] ==
        Control(event[1 + 3 * k], host.beToHost(event[2 + 3 * k]), host.beToHost(event[3 + 3 * k]))
  {
    if len >= TYPE_BYTES {
      RecordsAreChanges(host, event[1..], len - TYPE_BYTES);
    }
  }

  /** Bytes of a trailing partial record change nothing: the event reads as if cut after its last whole record. */
  lemma PartialRecordIgnored(host: Host, event: seq<Word>, len: nat)
    requires TYPE_BYTES <= len <= 4 * |event|
    ensures var whole := TYPE_BYTES + (len - TYPE_BYTES) / CHANGE_BYTES * CHANGE_BYTES;
      Controls(host, event, len) == Controls(host, event, whole)
  {
    var whole := TYPE_BYTES + (len - TYPE_BYTES) / CHANGE_BYTES * CHANGE_BYTES;
    ControlsOfEvent(host, event, len);
    ControlsOfEvent(host, event, whole);
    assert (whole - TYPE_BYTES) / CHANGE_BYTES == (len - TYPE_BYTES) / CHANGE_BYTES;
  }

  class SndTscm {
    /** The ALSA unit this object extends. */
    const unit: SndUnit.SndUnit
    const host: Host
    /** The state image as the kernel gives it (big-endian), and the same words in host order. */
    const image: array<Word>
    const state: array<Word>

    ghost predicate Valid()
      reads this
    {
      image.Length == STATE_COUNT && state.Length == STATE_COUNT && image != state
    }

    constructor (host: Host)
      ensures this.host == host && fresh(unit) && unit.cls == SndUnit.SndTscmClass
      ensures fresh(image) && fresh(state) && Valid()
    {
      this.host := host;
      unit := new SndUnit.SndUnit(SndUnit.SndTscmClass);
      image := new Word[STATE_COUNT](_ => 0);
      state := new Word[STATE_COUNT](_ => 0);
    }

    /**
     * Open the hwdep device as the unit does (the parameters are those of SndUnit.Open), then
     * insist on a TASCAM unit: another type is EINVAL.
     */
    method Open(openResult: Result<int>, getInfo: Result<SndUnit.SndInfo>, fwOpened: Result<int>,
                fwFirst: Result<FwUnit.InfoReply>, fwRomAllocated: bool, fwSecond: Result<FwUnit.InfoReply>)
      returns (exc: Option<int>)
      modifies unit`fd, unit`fdOpen, unit`info, unit`hasRequester, unit`requesterTimeout
      modifies unit.parent`fd, unit.parent`romLength, unit.parent`configRom, unit.parent`generation
      ensures openResult.Fail? ==> exc == Some(openResult.errno)
      ensures !unit.fdOpen ==> exc.Some?
      ensures unit.fdOpen ==> (exc.None? <==> unit.UnitType() == SNDRV_FIREWIRE_TYPE_TASCAM)
      ensures unit.fdOpen && exc.Some? ==> exc == Some(EINVAL)
    {
      exc := unit.Open(openResult, getInfo, fwOpened, fwFirst, fwRomAllocated, fwSecond);
      if exc.Some? {
        return;
      }
      if unit.UnitType() != SNDRV_FIREWIRE_TYPE_TASCAM {
        return Some(EINVAL);
      }
    }

    /**
     * Read the state image with the TASCAM_STATE ioctl (`reply`: the 64 words it fills in, or its
     * error, which leaves the image as it was and is raised) and convert every word of the image
     * to host order, whether the ioctl failed or not. The host-order words are returned.
     */
    method GetState(reply: Result<seq<Word>>) returns (exc: Option<int>, words: seq<Word>)
      requires Valid()
      requires reply.Ok? ==> |reply.value| == STATE_COUNT
      modifies image, state
      ensures exc.None? <==> reply.Ok?
      ensures reply.Fail? ==> exc == Some(reply.errno) && image[..] == old(image[..])
      ensures reply.Ok? ==> image[..] == reply.value
      ensures words == state[..] && |words| == STATE_COUNT
      ensures forall i :: 0 <= i < STATE_COUNT ==> words[i] == host.beToHost(image[i])
    {
      exc := None;
      match reply {
        case Fail(errno) =>
          exc := Some(errno);
        case Ok(value) =>
          CopyIn(value);
      }
      var i := 0;
      while i < STATE_COUNT
        invariant 0 <= i <= STATE_COUNT
        invariant reply.Ok? ==> image[..] == reply.value
        invariant reply.Fail? ==> image[..] == old(image[..])
        invariant forall k :: 0 <= k < i ==> state[k] == host.beToHost(image[k])
      {
        state[i] := host.beToHost(image[i]);
        i := i + 1;
      }
      words := state[..];
    }

    /** What the ioctl does to the image: the kernel's words replace it. */
    method CopyIn(value: seq<Word>)
      requires Valid() && |value| == STATE_COUNT
      modifies image
      ensures image[..] == value
    {
      var i := 0;
      while i < STATE_COUNT
        invariant 0 <= i <= STATE_COUNT
        invariant forall k :: 0 <= k < i ==> image[k] == value[k]
      {
        image[i] := value[i];
        i := i + 1;
      }
    }

    /**
     * The handler of a control event of `len` bytes held in `event`: the type header is skipped
     * and one signal is emitted for each whole change record after it, in order, as Controls
     * describes (ControlsOfEvent and PartialRecordIgnored say what that is).
     */
    method HandleControl(event: seq<Word>, len: nat) returns (signals: seq<Control>)
      requires len <= 4 * |event|
      ensures signals == Controls(host, event, len)
    {
      signals := [];
      if len < TYPE_BYTES {
        return;
      }
      var remaining: nat := len - TYPE_BYTES;
      var change := 1;
      while remaining >= CHANGE_BYTES
        invariant change == 1 + 3 * |signals| && change <= |event|
        invariant remaining <= 4 * (|event| - change)
        invariant remaining + CHANGE_BYTES * |signals| == len - TYPE_BYTES
        invariant signals + Records(host, event[change..], remaining) == Controls(host, event, len)
        decreases remaining
      {
        var rest := event[change..];
        assert rest[3..] == event[change + 3..];
        signals := signals + [Control(event[change], host.beToHost(event[change + 1]), host.beToHost(event[change + 2]))];
        change := change + 3;
        remaining := remaining - CHANGE_BYTES;
      }
    }
  }
}

=== FILE: snd_unit.dfy ===
/**
 * HinawaSndUnit (src/snd_unit.c): a listener on an ALSA FireWire hwdep device. It extends a
 * HinawaFwUnit, the listener on the FireWire character device of the same node, which it holds
 * as `parent`. While it listens it reads events from the hwdep device and hands each to the
 * handler the event type and the object's class select; at the start of listening it finds out
 * whether ALSA already streams by trying to lock the device.
 *
 * System calls are parameters, as in FwUnit: the result of open(2), of each ioctl and of read(2)
 * is given to the method that makes the call, and whether an ioctl is issued is returned.
 */
module SndUnit {
  import opened Ieee1394
  import opened Outcomes
  import FwUnit

  /** What GET_INFO reports about a sound unit (struct snd_firewire_get_info). */
  datatype SndInfo = SndInfo(unitType: nat, card: nat, deviceName: string, guid: seq<Byte>)

  /** The GObject class of the object: it decides which device-specific events reach a handler. */
  datatype UnitClass = SndUnitClass | SndDiceClass | SndEfwClass | SndDg00xClass | SndMotuClass | SndTscmClass

  /** Where check_src sends an event read from the device, with the number of bytes read. */
  datatype Dispatch =
    | Ignored
    | LockStatus(status: nat)
    | DiceNotification(length: nat)
    | EfwResponse(length: nat)
    | Dg00xMessage(length: nat)
    | MotuNotification(length: nat)

  /**
   * Each event goes to at most one handler: a lock-status event always to the lock-status signal,
   * the device-specific events only when the object is of the class for that device.
   */
  function Route(cls: UnitClass, event: SndEvent, length: nat): (d: Dispatch)
    ensures d.LockStatus? <==> event.eventType == SNDRV_FIREWIRE_EVENT_LOCK_STATUS
    ensures d.DiceNotification? <==> cls == SndDiceClass && event.eventType == SNDRV_FIREWIRE_EVENT_DICE_NOTIFICATION
    ensures d.EfwResponse? <==> cls == SndEfwClass && event.eventType == SNDRV_FIREWIRE_EVENT_EFW_RESPONSE
    ensures d.Dg00xMessage? <==> cls == SndDg00xClass && event.eventType == SNDRV_FIREWIRE_EVENT_DIGI00X_MESSAGE
    ensures d.MotuNotification? <==> cls == SndMotuClass && event.eventType == SNDRV_FIREWIRE_EVENT_MOTU_NOTIFICATION
    ensures d.LockStatus? ==> d.status == event.status
    ensures !d.Ignored? && !d.LockStatus? ==> d.length == length
  {
    var t := event.eventType;
    if t == SNDRV_FIREWIRE_EVENT_LOCK_STATUS then LockStatus(event.status)
    else if cls == SndDiceClass && t == SNDRV_FIREWIRE_EVENT_DICE_NOTIFICATION then DiceNotification(length)
    else if cls == SndEfwClass && t == SNDRV_FIREWIRE_EVENT_EFW_RESPONSE then EfwResponse(length)
    else if cls == SndDg00xClass && t == SNDRV_FIREWIRE_EVENT_DIGI00X_MESSAGE then Dg00xMessage(length)
    else if cls == SndMotuClass && t == SNDRV_FIREWIRE_EVENT_MOTU_NOTIFICATION then MotuNotification(length)
    else Ignored
  }

  /** A TASCAM control event reaches no handler, whatever the class of the object. */
  lemma TascamControlNotRouted(cls: UnitClass, event: SndEvent, length: nat)
    requires event.eventType == SNDRV_FIREWIRE_EVENT_TASCAM_CONTROL
    ensures Route(cls, event, length) == Ignored
  {
  }

  class SndUnit {
    /** The FireWire unit this object extends. */
    const parent: FwUnit.FwUnit
    const cls: UnitClass
    var fd: int
    /** Whether the hwdep descriptor is open. */
    var fdOpen: bool
    var info: SndInfo
    var streaming: bool
    var src: bool
    var buf: bool
    var len: nat
    /** Whether the requester for the read/write/lock transactions exists, and its timeout. */
    var hasRequester: bool
    var requesterTimeout: nat

    constructor (cls: UnitClass)
      ensures this.cls == cls && fresh(parent)
      ensures !fdOpen && !streaming && !src && !buf && len == 0 && !hasRequester
      ensures parent.State() == FwUnit.NOT_LISTENING
    {
      this.cls := cls;
      parent := new FwUnit.FwUnit();
      fd := 0;
      fdOpen := false;
      info := SndInfo(0, 0, "", []);
      streaming := false;
      src := false;
      buf := false;
      len := 0;
      hasRequester := false;
      requesterTimeout := 0;
    }

    /** The "listening" property. */
    predicate Listening()
      reads this
    {
      src
    }

    /** The "type" property. */
    function UnitType(): nat
      reads this
    {
      info.unitType
    }

    /**
     * Open the hwdep device: `openResult` is what open(2) gives, `getInfo` what GET_INFO gives, and the
     * last four are what opening the FireWire character device named in the reply meets. The
     * requester, with a timeout of 40, is created only when every step succeeds; any failure after
     * open(2) closes the hwdep descriptor again.
     */
    method Open(openResult: Result<int>, getInfo: Result<SndInfo>, fwOpened: Result<int>, fwFirst: Result<FwUnit.InfoReply>,
                fwRomAllocated: bool, fwSecond: Result<FwUnit.InfoReply>)
      returns (exc: Option<int>)
      modifies this`fd, this`fdOpen, this`info, this`hasRequester, this`requesterTimeout
      modifies parent`fd, parent`romLength, parent`configRom, parent`generation
      ensures openResult.Fail? ==> exc == Some(openResult.errno) && !fdOpen && info == old(info) && unchanged(parent)
      ensures openResult.Ok? ==> fd == openResult.value
      ensures openResult.Ok? && getInfo.Fail? ==> exc == Some(getInfo.errno) && !fdOpen && info == old(info) && unchanged(parent)
      ensures openResult.Ok? && getInfo.Ok? ==> info == getInfo.value
      ensures exc.None? <==> openResult.Ok? && getInfo.Ok? && fwOpened.Ok? && fwFirst.Ok? && fwRomAllocated && fwSecond.Ok?
      ensures fdOpen <==> exc.None?
      ensures exc.None? ==> hasRequester && requesterTimeout == 40
      ensures exc.Some? ==> hasRequester == old(hasRequester) && requesterTimeout == old(requesterTimeout)
      ensures parent.State() == old(parent.State())
    {
      if openResult.Fail? {
        fd := -1;
        fdOpen := false;
        return Some(openResult.errno);
      }
      fd := openResult.value;
      fdOpen := true;
      if getInfo.Fail? {
        fdOpen := false;
        return Some(getInfo.errno);
      }
      info := getInfo.value;
      exc := parent.Open(fwOpened, fwFirst, fwRomAllocated, fwSecond);
      if exc.Some? {
        fdOpen := false;
        return;
      }
      hasRequester := true;
      requesterTimeout := 40;
    }

    /** The internal write: anything but the whole buffer written raises the errno left by write(2). */
    method Write(length: nat, written: int, errno: int) returns (exc: Option<int>)
      ensures exc.None? <==> written == length
      ensures exc.Some? ==> exc.value == errno
    {
      if written != length {
        return Some(errno);
      }
      return None;
    }

    /**
     * Stop listening; without a source nothing happens. Otherwise the device is unlocked when it
     * was found streaming (`unlocked` says whether the UNLOCK ioctl is issued), the source, the
     * buffer and its length are released and the FireWire unit stops listening too. The
     * streaming flag itself stays as it was.
     */
    method Unlisten() returns (unlocked: bool)
      modifies this`src, this`buf, this`len, parent`src, parent`buf, parent`len
      ensures unlocked <==> old(src) && streaming
      ensures !Listening()
      ensures old(src) ==>
        !buf && len == 0 && !parent.Listening() && parent.State() == FwUnit.Unlistened(old(parent.State()))
      ensures !old(src) ==> unchanged(this) && unchanged(parent)
    {
      if !src {
        return false;
      }
      unlocked := streaming;
      src := false;
      buf := false;
      len := 0;
      parent.Unlisten();
    }

    /**
     * Start listening. The first three parameters say whether the page-sized buffer and the
     * source could be made and whether the source could be attached; the next three say the same
     * for the FireWire unit's own listen; `lock` is what the LOCK ioctl gives. A failure to make
     * the buffer or the source changes nothing; a failed attach takes back what listen set; a
     * failed FireWire listen unlistens. Otherwise the unit listens, and is marked streaming when
     * the LOCK ioctl reports EBUSY; a lock that succeeds is undone at once (`unlocked`).
     */
    method Listen(pageSize: nat, bufAllocated: bool, srcCreated: bool, attach: IoResult,
                  fwBufAllocated: bool, fwSrcCreated: bool, fwAttach: IoResult, lock: IoResult)
      returns (exc: Option<int>, unlocked: bool)
      modifies this`src, this`buf, this`len, this`streaming, parent`src, parent`buf, parent`len
      ensures !bufAllocated || !srcCreated ==> exc == Some(ENOMEM) && !unlocked && unchanged(this) && unchanged(parent)
      ensures bufAllocated && srcCreated && attach.IoFail? ==>
        exc == Some(attach.errno) && !unlocked && !src && !buf && len == 0 &&
        streaming == old(streaming) && unchanged(parent)
      ensures bufAllocated && srcCreated && attach.IoOk? && !(fwBufAllocated && fwSrcCreated && fwAttach.IoOk?) ==>
        exc.Some? && !src && !buf && len == 0 && streaming == old(streaming) && (unlocked <==> streaming)
      ensures exc.None? <==> bufAllocated && srcCreated && attach.IoOk? && fwBufAllocated && fwSrcCreated && fwAttach.IoOk?
      ensures exc.None? ==>
        src && buf && len == pageSize && parent.Listening() &&
        streaming == (old(streaming) || lock == IoFail(EBUSY)) && (unlocked <==> lock.IoOk?)
    {
      unlocked := false;
      if !bufAllocated || !srcCreated {
        return Some(ENOMEM), false;
      }
      src := true;
      buf := true;
      len := pageSize;
      if attach.IoFail? {
        buf := false;
        len := 0;
        src := false;
        return Some(attach.errno), false;
      }
      exc := parent.Listen(pageSize, fwBufAllocated, fwSrcCreated, fwAttach);
      if exc.Some? {
        unlocked := Unlisten();
        return;
      }
      if lock.IoFail? {
        if lock.errno == EBUSY {
          streaming := true;
        }
        return;
      }
      unlocked := true;
    }

    /**
     * One poll of the device. An error condition unlistens, and reports disconnection only when
     * the unit listened before; no input, or a read of no bytes, does nothing; otherwise the event
     * goes where Route says.
     */
    method CheckSrc(condition: FwUnit.IoCondition, readLength: int, event: SndEvent)
      returns (d: Dispatch, disconnected: bool, unlocked: bool)
      modifies this`src, this`buf, this`len, parent`src, parent`buf, parent`len
      ensures condition.error ==> d == Ignored && disconnected == old(src) && !Listening() && (unlocked <==> old(src) && streaming)
      ensures !condition.error ==> !disconnected && !unlocked && unchanged(this) && unchanged(parent)
      ensures !condition.error && (!condition.input || readLength <= 0) ==> d == Ignored
      ensures !condition.error && condition.input && readLength > 0 ==> d == Route(cls, event, readLength)
    {
      d, disconnected, unlocked := Ignored, false, false;
      if condition.error {
        var wasListening := src;
        unlocked := Unlisten();
        disconnected := wasListening;
        return;
      }
      if !condition.input || readLength <= 0 {
        return;
      }
      d := Route(cls, event, readLength);
    }
  }
}
